=== FILE: README.md ===
# ih-ingestion core, modelled in Dafny

ih-ingestion generates the deployment files for change-data-capture ingestion
from SQL Server into Snowflake. For every configured table, the command-line
tool `ingestion-cli` writes three YAML documents:

- a Debezium SQL Server source connector for Kafka Connect (Strimzi);
- a Snowflake JDBC sink connector that reads the table's topic;
- a Snowflake job that creates the landing table from the column list read
  from the SQL Server catalogue.

It works in two modes:

- **Configuration mode** (`runFromConfig`) reads `ingestion.yaml`. The file
  lists servers by alias, each with its database, default schema, secret and
  tables. The tool validates the file and the per-alias connection variables,
  then processes every table.
- **Single-table mode** (`runSingleTable`) uses the `SQLSERVER_*` variables.

A dry run computes everything and writes nothing. Around the generator, the
repository has:

- the per-directory `kustomization.yaml` update;
- the directory layout of the Argo CD repository or a local `out/` tree;
- a GitOps helper that prepares a working branch in a clone, then commits and
  pushes it.

The project has nine modules. `Results` and `Strs` are shared helpers. The
other seven follow the source packages, and `Env` and `Config` both come from
package `config`:

- `Results`: `Option` and `Result`.
- `Strs`: Go's `strings.TrimSpace`, `ToUpper`/`ToLower`, `EqualFold`,
  `ReplaceAll` and `%d` formatting, with their laws.
- `Env`: the environment as a map; `GetEnvOrDefault` and `RequireEnv`.
- `Kustomize`: `UpdateKustomization`, with reading, parsing and writing as
  inputs.
- `Repo`: `Layout` and its root and per-database directories.
- `Config`: `ValidateIngestionConfig` and `ValidateEnvForAliases`.
  - The first is modelled as a single left-to-right pass with alias and key
    sets (`Problems`).
  - That pass is proved equal to an independent reference definition
    (`ReferenceProblems`), which states each problem by looking back over the
    earlier entries.
  - The reference definition is then proved empty exactly for a well-formed
    configuration.
- `SqlServer`: `mapToSnowflakeType` and `BuildBusinessColumnsDDL`, with a
  parser of the rendered type as the partner of the renderer.
- `GitOps`: `LoadConfigFromEnv`, `PrepareRepo`, `CommitAndPush` and
  `hasPendingChanges`.
  - git is a port: the k-th command issued succeeds exactly when `port(k, cmd)`
    holds.
  - Every operation returns the commands it issued together with its result.
- `IngestionCli`: the naming plan of one table, rendering, `runFromConfig` and
  `runSingleTable`, including the dry run.
  - The outside world is the `World` input: the environment, whether the
    connection to each server opens, the catalogue's answer per table, and
    whether rendering to a path succeeds.
  - A rendered file is represented by the document record that fills its
    template.

## Model

| member | source | states |
|---|---|---|
| `Strs.Trim` | internal/kustomize/kustomize.go:33 | Trimming removes only leading and trailing white space. The result neither starts nor ends with white space. |
| `Strs.BlankIffTrimsToEmpty` | internal/gitops/gitops.go:27 | A string trims to the empty string exactly when every character is white space. |
| `Strs.TrimIdempotent` | internal/kustomize/kustomize.go:71 | Trimming twice is trimming once. |
| `Strs.EqualFoldIffSameLower` | internal/sqlserver/sqlserver.go:195 | Case-insensitive equality holds exactly when the lower-cased strings are equal. |
| `Strs.FormatIntRoundTrip` | internal/sqlserver/sqlserver.go:170 | Decimal formatting of an integer parses back to the same integer. |
| `Strs.ParseIntOnlyFormatted` | internal/sqlserver/sqlserver.go:170 | The reader accepts only the `%d` spelling of a number. Whatever it reads formats back to the same text, so leading zeros, `+` and `-0` are rejected. |
| `Env.GetEnvOrDefault` | internal/config/env.go:8-13 | The value when it is non-empty, the fallback when the variable is unset or empty. |
| `Env.RequireEnv` | internal/config/env.go:15-21 | Succeeds exactly when the variable is non-empty, with its value; the error names the variable. |
| `Kustomize.UniqueNames` | internal/kustomize/kustomize.go:28-42 | The collected names are trimmed and non-empty, with no duplicates. |
| `Kustomize.UniqueNamesContents` | internal/kustomize/kustomize.go:32-42 | A name is collected exactly when it is the trimmed form of some non-blank input name. |
| `Kustomize.UniqueNamesFirstSeenOrder` | internal/kustomize/kustomize.go:32-42 | The names collected from any prefix of the input are a prefix of the names collected from all of it, so the first-seen order is kept. |
| `Kustomize.UniqueNamesEmptyIffAllBlank` | internal/kustomize/kustomize.go:24-45 | Nothing is collected exactly when every input name is blank, including when there are no names. |
| `Kustomize.NotListed` | internal/kustomize/kustomize.go:74-78 | Keeps exactly the names that are not already listed, in their order, without creating duplicates. |
| `Kustomize.Merge` | internal/kustomize/kustomize.go:59-78 | Defaults fill only empty header fields. The namespace is set only when the document has none. Existing entries stay unchanged and in order. The appended entries are exactly the new names that no existing entry lists once trimmed, in their order. |
| `Kustomize.UpdateKustomization` | internal/kustomize/kustomize.go:23-90 | Untouched exactly when every name is blank. A read error or a parse error fails without writing; a write error fails. The file is written exactly when some name is not blank, the file was missing or parsed, and the write succeeds. It then holds the merge of the loaded document. |
| `Kustomize.MergeIdempotent` | internal/kustomize/kustomize.go:59-78 | Merging the same trimmed names again into a merged document changes nothing. |
| `Kustomize.UpdateIdempotent` | internal/kustomize/kustomize.go:23-90 | Running the update a second time with the same names writes the first result again, unchanged. |
| `Kustomize.MergeNoNewDuplicates` | internal/kustomize/kustomize.go:69-78 | A duplicate-free resource list stays duplicate-free after the merge. |
| `Repo.NewLayout` | internal/repo/layout.go:24-32 | The layout holds the five arguments as given. |
| `Repo.ArgoNestsLocalLayout` | internal/repo/layout.go:43-105 | The Argo layout is the local layout's source and sink trees nested under `strimzi_conectores/envs/<env>`. The job tree is the same in both layouts. |
| `Repo.DBDirsExtendRoots` | internal/repo/layout.go:116-157 | Each per-database directory is its root extended by exactly one segment. For a source that segment is `<db>_<schema>`, lower-cased. For a sink or a job it is the lower-cased database. |
| `Repo.DBDirsIgnoreCase` | internal/repo/layout.go:116-157 | Database and schema names that differ only in letter case give the same directories. |
| `Repo.ArtifactDirsDistinct` | internal/repo/layout.go:43-157 | Source, sink and job directories never coincide, for any databases, in either layout. |
| `Config.ServerSchema` | internal/config/ingestion.go:80-83 | A server's default schema is never blank: its trimmed schema, or `dbo`. |
| `Config.TableSchema` | internal/config/ingestion.go:85-93 | A table is checked under its own trimmed schema, else the server's trimmed schema, else `dbo`. The result is never blank. |
| `Config.ProblemsMatchReference` | internal/config/ingestion.go:43-115 | The one-pass scan reports exactly the problems of the reference definition, in the same order. |
| `Config.AcceptedIffDistinct` | internal/config/ingestion.go:53-107 | No server reports a problem exactly when nothing is blank or missing and aliases and table keys are pairwise distinct. |
| `Config.NoProblemsIffWellFormed` | internal/config/ingestion.go:43-115 | The pass finds nothing exactly when the configuration is well formed. Well formed means: at least one server; every server with alias, database, secret and tables; aliases distinct up to case and padding; table keys distinct. |
| `Config.ValidateIngestionConfig` | internal/config/ingestion.go:43-115 | Succeeds exactly for a well-formed configuration. Otherwise it reports every problem of the reference definition, and there is at least one. |
| `Config.Unset` | internal/config/ingestion.go:134-138 | Reports exactly the listed variables that are unset or empty, each with its alias. |
| `Config.MissingFromSound` | internal/config/ingestion.go:121-139 | Every reported variable is a host, user or password variable of a non-blank configured alias, and it is unset. |
| `Config.MissingFromComplete` | internal/config/ingestion.go:121-139 | Every unset host, user or password variable of every non-blank alias is reported. |
| `Config.NothingMissingIffComplete` | internal/config/ingestion.go:118-146 | Nothing is reported exactly when every non-blank alias has all three variables set. |
| `Config.ValidateEnvForAliases` | internal/config/ingestion.go:118-146 | Succeeds exactly when every non-blank alias has its host, user and password variables set. Otherwise it reports a non-empty list of truly missing variables. |
| `Config.EnvCompleteHasHost` | internal/config/ingestion.go:126-132 | After the check passes, each non-blank alias has the trimmed, upper-cased host, user and password variables set. |
| `SqlServer.Classify` | internal/sqlserver/sqlserver.go:162-187 | Each type family is chosen exactly for its lower-cased type names; unknown names give VARCHAR. A sized NUMBER needs both precision and scale. A sized VARCHAR needs a positive length. |
| `SqlServer.MapToSnowflakeType` | internal/sqlserver/sqlserver.go:162-187 | The rendered type parses back to the column's classification, and it contains no blank or line break. |
| `SqlServer.ParseRender` | internal/sqlserver/sqlserver.go:165-186 | Every Snowflake type reads back as itself. |
| `SqlServer.ParseOnlyRendered` | internal/sqlserver/sqlserver.go:165-186 | Together with `ParseRender`, reading is the exact inverse of rendering. Every text the type reader accepts is the rendering of the type it reads. |
| `SqlServer.RenderInjective` | internal/sqlserver/sqlserver.go:165-186 | Distinct Snowflake types never share a spelling. |
| `SqlServer.TypeNameIgnoresCase` | internal/sqlserver/sqlserver.go:163 | Type names that differ only in letter case map to the same Snowflake type. |
| `SqlServer.NullToken` | internal/sqlserver/sqlserver.go:194-197 | `NULL` exactly when IS_NULLABLE is `YES` in any letter case, otherwise `NOT NULL`. |
| `SqlServer.ColumnLine` | internal/sqlserver/sqlserver.go:198 | A column line starts with the six-space indent and ends with a comma and a line break. |
| `SqlServer.ColumnLineParts` | internal/sqlserver/sqlserver.go:193-198 | A column line is, in order: the six-space indent, the column name, a blank, the Snowflake type, a blank, the null token, then a comma and a line break. |
| `SqlServer.ColumnLineDetermines` | internal/sqlserver/sqlserver.go:193-198 | Given the column's name, its line determines the Snowflake type and the nullability written for it. |
| `SqlServer.BuildBusinessColumnsDDL` | internal/sqlserver/sqlserver.go:189-202 | Empty exactly when there are no columns. A non-empty list ends with a comma and a line break. |
| `SqlServer.DDLConcat` | internal/sqlserver/sqlserver.go:192-199 | Building the list for two runs of columns is building each in turn. |
| `SqlServer.ColumnLineInPlace` | internal/sqlserver/sqlserver.go:192-199 | Column k's line sits between the lines of the columns before it and after it. |
| `SqlServer.OneLinePerColumn` | internal/sqlserver/sqlserver.go:189-202 | When no column name holds a line break, the list has exactly one line per column. |
| `GitOps.LoadConfigFromEnv` | internal/gitops/gitops.go:25-53 | There is no configuration exactly when GIT_REPO_URL is blank. Otherwise the variables are taken as read, and a blank base branch or branch prefix becomes `main` or `ingestion-`. |
| `GitOps.LoadConfigRoundTrip` | internal/gitops/gitops.go:25-53 | A configuration whose repository, base branch and prefix are not blank is loaded back unchanged from the environment that holds its fields. |
| `GitOps.LoadConfigStable` | internal/gitops/gitops.go:25-53 | Writing a loaded configuration back to the environment and loading it again gives the same configuration. Applied defaults stay as they are. |
| `GitOps.ResolveLocalPath` | internal/gitops/gitops.go:64-70 | `argocd-repo` under the executable's directory when no path is set. A relative path is joined to that directory; an absolute path is kept. |
| `GitOps.ResolveLocalPathAbsolute` | internal/gitops/gitops.go:64-70 | From an absolute executable directory, the resolved path is absolute, and resolving it again changes nothing. |
| `GitOps.BranchSuffix` | internal/gitops/gitops.go:102-108 | The timestamp for a blank suffix. Otherwise the trimmed suffix with every blank turned into a dash: same length, no blanks. |
| `GitOps.BranchName` | internal/gitops/gitops.go:109 | The prefix followed by the suffix. It has no blanks when the prefix and the timestamp have none. |
| `GitOps.BranchSuffixVerbatim` | internal/gitops/gitops.go:102-108 | A suffix that is already trimmed and has no blanks is used as given. |
| `GitOps.BranchSuffixIdempotent` | internal/gitops/gitops.go:102-108 | Normalising a suffix twice is normalising it once. |
| `GitOps.IdentityCmds` | internal/gitops/gitops.go:94-100 | At most two commands: `git config user.name` with the name, then `git config user.email` with the email. Each is issued exactly when its value is not blank, and nothing else is issued. |
| `GitOps.Obtain` | internal/gitops/gitops.go:72-92 | Refuses without issuing anything in two cases: `.git` cannot be inspected, or it is missing and the parent cannot be created or the target is a non-empty directory. A missing repository is cloned from the base branch. An existing clone is fetched, checked out and pulled, stopping at the first failure. Otherwise the stage succeeds exactly when git accepts every one of its commands, and then it issued exactly those commands. |
| `GitOps.CloneRefusesNonEmptyTarget` | internal/gitops/gitops.go:155-160 | A non-empty target directory is never cloned over: nothing is issued, and the error names the path. |
| `GitOps.PrepareRepo` | internal/gitops/gitops.go:59-120 | No configuration fails without issuing anything, and so does any other refusal that is not a git failure. Success returns the resolved path and the prefixed branch name. Success happens exactly when the clone or update can run and git accepts all of its commands, the base-branch checkout and the `checkout -B` of the working branch. The identity commands may fail. A failed command is the last one issued, and git refused it. |
| `GitOps.PrepareAtSucceeds` | internal/gitops/gitops.go:72-119 | For a resolved path and branch, preparation succeeds exactly when the clone or update can run and git accepts all of its commands, the base-branch checkout and the working-branch checkout. The identity commands do not matter. |
| `GitOps.UpdateStage` | internal/gitops/gitops.go:78-88 | Updating starts with fetch, issues at most fetch, checkout and pull, and succeeds exactly when all three do. |
| `GitOps.FailedStageStops` | internal/gitops/gitops.go:74-92 | Once the clone or update stage fails, nothing more is issued and the preparation fails. |
| `GitOps.UpdateOrder` | internal/gitops/gitops.go:78-92 | An existing clone is updated in the order fetch, checkout, pull. If any of them fails, nothing else is issued and the preparation fails. |
| `GitOps.PrepareSuccessTrace` | internal/gitops/gitops.go:72-117 | A successful preparation issued, in order: the clone or the update, the identity commands, then checkout of the base branch and `checkout -B` of the working branch. |
| `GitOps.IdentityBestEffort` | internal/gitops/gitops.go:94-100 | The outcome of the identity commands is ignored: two gits that differ only on them give the same commands and the same outcome. |
| `GitOps.CommitAndPush` | internal/gitops/gitops.go:123-146 | Status is asked first. With nothing pending (hasPendingChanges, lines 178-191) it stops successfully. Otherwise add, commit and push follow in order, stopping at the first failure, which is reported. Success holds exactly when every issued command succeeded. A success with pending changes issued status, add, commit and push, in that order. |
| `GitOps.PushFollowsCommit` | internal/gitops/gitops.go:133-145 | A push is issued only after an add and a commit, and a commit only after an add. |
| `IngestionCli.LoadSettings` | cmd/ingestion-cli/main.go:218-230 | Each connector and Snowflake setting is its variable when non-empty, else its documented default. |
| `IngestionCli.PlanTable` | cmd/ingestion-cli/main.go:266-352 | The plan of one table. The source is `source-debeziumsqlserver-<db>-<schema>-<group>-<mode>-<size>` with topic prefix `source_debeziumsqlserver_…`, lower-cased. The sink is `sink-jdbcsnowflake-<logical db>-<db>-<table>-<mode>-<size>-v1` and reads `<prefix>.<DB>.<SCHEMA>.<TABLE>`. The job is `lz-sql-ih-<db>-<table>-v1`, with config map `lz-sql-ih-<db>-<table>-sql`. Schema history goes to `sh_<prefix>`. Host, port and secret come from the inputs, and cluster, bootstrap servers, Snowflake URL and secrets, connection config map, role and database come from the settings. The documents agree on the upper-cased database and table. The ingest table is `<TABLE>_INGEST`, the include list `schema.table`, and the job carries the column list. The files are `<out>/source-<db>-<table>.yaml`, `<out>/sink-<db>-<table>.yaml` and `<out>/job-snowflake-<db>-<table>.yaml`. |
| `IngestionCli.InputsAt` | cmd/ingestion-cli/main.go:254-300 | The inputs of one configured table. The database is the server's and the table name is the table's own. The schema is the table's effective schema. The host is the value of the server's host variable. The port is the port variable, or `1433` when that is unset. The secret is the server's secret name. The columns are those read for that schema and table. |
| `IngestionCli.InputsAtAsWritten` | cmd/ingestion-cli/main.go:254-300 | The same inputs, except that the schema, host variable and port variable are main.go's as written: untrimmed, and with no `dbo` fallback. |
| `IngestionCli.SourceNameAndTopicPrefix` | cmd/ingestion-cli/main.go:269-277 | When no component holds a dash, the topic prefix is the source name with every dash turned into an underscore. |
| `IngestionCli.ArtifactPathsDistinct` | cmd/ingestion-cli/main.go:350-352 | A source, a sink and a job file never share a path, for any databases and tables. |
| `IngestionCli.JobAndConfigMapNeverClash` | cmd/ingestion-cli/main.go:334-335 | A job's name never equals a SQL config map's name. |
| `IngestionCli.PlanIgnoresCase` | cmd/ingestion-cli/main.go:250-352 | Names, documents and paths ignore the letter case of the database, schema and table. Only the include list keeps them as written. |
| `IngestionCli.PlanWrites` | cmd/ingestion-cli/main.go:362-373 | A table has three files, in order: the source document at the source path, the sink document at the sink path, and the job document at the job path. |
| `IngestionCli.Render` | cmd/ingestion-cli/main.go:362-373 | The files are rendered in order and rendering stops at the first failure. The failing file was attempted and every earlier one succeeded. Success holds exactly when all three paths can be written, and then all three were. The error names the first file kind that failed, with the schema and table. |
| `IngestionCli.HostVar` | cmd/ingestion-cli/main.go:281-285 | The host variable looked up is the one the environment check validated. This is the corrected form, see Findings. |
| `IngestionCli.EffectiveSchema` | cmd/ingestion-cli/main.go:254-258 | The schema is the one the configuration check keyed the table by: the table's trimmed schema, else the server's, else `dbo`. It is never blank and always trimmed. This is the corrected form, see Findings. |
| `IngestionCli.TableStep` | cmd/ingestion-cli/main.go:247-373 | Every table is counted. A table succeeds exactly when its columns are found, its host variable is set, and, unless the run is dry, all three files render. Missing columns fail with the alias, schema and table, and missing host fails with the variable; neither plans nor writes anything. A failed render keeps the plan, with the files attempted and the render's error. A successful table adds its plan, and unless dry its three files. A dry run writes nothing. |
| `IngestionCli.RunTables` | cmd/ingestion-cli/main.go:247-374 | A server's tables run in order and stop at the first failure. The run succeeds exactly when every remaining table goes through. On success every table is counted, planned in order, and written unless dry. |
| `IngestionCli.PlansBetween` | cmd/ingestion-cli/main.go:247 | The plans of a range of tables, one per table, in order. |
| `IngestionCli.RunTablesUpToFirstFailure` | cmd/ingestion-cli/main.go:247-374 | The tables before the first one that fails all go through: their plans, files and count are added in order. The run then ends with that table's failing step, or, when no table fails, with every table done. |
| `IngestionCli.TablesDoneStep` | cmd/ingestion-cli/main.go:247-373 | A table that goes through adds exactly its plan, its files unless dry, and one to the count. |
| `IngestionCli.PlansFromIndex` | cmd/ingestion-cli/main.go:247 | The k-th plan of a server is the plan of its k-th table. |
| `IngestionCli.RunServers` | cmd/ingestion-cli/main.go:234-377 | Servers are connected and processed in order, stopping at the first failure. The run succeeds exactly when every remaining server connects and all of its tables go through. On success the run has counted every table of every server and planned them in configuration order, with three files per plan unless dry. |
| `IngestionCli.RunServersUpToFirstFailure` | cmd/ingestion-cli/main.go:234-377 | The servers before the first one that fails all go through, adding their plans, files and tables. At that server the run either stops with its connection error (lines 242-245) or goes on into its tables, where the first failing table ends it. When no server fails, every server is done. |
| `IngestionCli.ServersDoneStep` | cmd/ingestion-cli/main.go:234-377 | A server that goes through adds exactly the plans of its tables, their files unless dry, and its table count. |
| `IngestionCli.RunServersHostFound` | cmd/ingestion-cli/main.go:281-289 | No table fails on its host lookup when every server's host variable is set. |
| `IngestionCli.RunValidating` | cmd/ingestion-cli/main.go:210-212 | An invalid configuration stops the run with every reference problem. A valid one goes on to the environment check. |
| `IngestionCli.RunEnvChecked` | cmd/ingestion-cli/main.go:214-377 | A missing variable stops the run with a non-empty report before anything is planned. The run succeeds exactly when the environment is complete and every server goes through. On success every table is planned in order and counted, and written unless dry. |
| `IngestionCli.RunChecked` | cmd/ingestion-cli/main.go:204-386 | The load, configuration and environment failures are reported in that order, and nothing is planned before both checks pass. This holds for any schema, host and plan steps. For the corrected host name, no host lookup fails. |
| `IngestionCli.RunCheckedSucceeds` | cmd/ingestion-cli/main.go:204-386 | The run succeeds exactly when the file loaded, the configuration is well formed, the environment is complete, and every server goes through. |
| `IngestionCli.RunFromConfig` | cmd/ingestion-cli/main.go:204-386 | Success means one plan per table of the configuration in order, every table counted, and three files per plan, or none on a dry run. A dry run never writes, and no host lookup fails once the environment check has passed. This run reads each table under the corrected schema and variable names, see "## Findings". main.go's own names give `RunFromConfigAsWritten`. |
| `IngestionCli.RunFromConfigSucceeds` | cmd/ingestion-cli/main.go:204-386 | A configuration run succeeds exactly when the file loaded, both checks pass, and every server connects. Every table's columns, read under its effective schema, must also be found, and unless the run is dry the files of its plan must render. |
| `IngestionCli.ConfigServerOkMeans` | cmd/ingestion-cli/main.go:242-373 | When a server's host variable is set, it goes through exactly when it connects, its tables' columns are found, and their files render unless the run is dry. |
| `IngestionCli.ConfigServersOkMean` | cmd/ingestion-cli/main.go:214-377 | After both checks, every server goes through exactly when every server connects and all its tables' columns are found and files render. |
| `IngestionCli.RunFromConfigChecksFirst` | cmd/ingestion-cli/main.go:204-216 | A load failure is reported first. An invalid file reports every problem. Missing variables are reported as a non-empty list. Nothing is planned, counted or written before both checks pass. |
| `IngestionCli.ValidatedHostsSet` | cmd/ingestion-cli/main.go:214-216 | After both checks, every server's host variable is set. |
| `IngestionCli.RunCheckedDryIsWet` | cmd/ingestion-cli/main.go:357-360 | For any steps, a dry run is the real run with every write succeeding, minus the writes. |
| `IngestionCli.DryRunIsWetRunWithoutWrites` | cmd/ingestion-cli/main.go:357-360 | A dry run computes the same plans, the same count and the same outcome as a real run in which every write succeeds, and writes nothing. |
| `IngestionCli.FirstUnset` | internal/sqlserver/sqlserver.go:17-33 | None exactly when every variable is set. Otherwise it is the first unset variable in the order the connection reads them: every variable before it is set. |
| `IngestionCli.SingleVarsChecked` | internal/sqlserver/sqlserver.go:17-33 | The single-table connection finds no unset variable exactly when `SQLSERVER_HOST`, `SQLSERVER_USER`, `SQLSERVER_PASSWORD` and `SQLSERVER_DATABASE` are all set. |
| `IngestionCli.RunSingleTable` | cmd/ingestion-cli/main.go:60-201 | A plan exists exactly when host, user, password and database are set, the connection opens, and at least one column is read. That plan is the single-table plan of those columns. The run succeeds exactly when there is a plan and, unless the run is dry, all three files render. Success writes the three files, or none on a dry run. The second host lookup never fails. |
| `IngestionCli.SingleTableFailures` | cmd/ingestion-cli/main.go:60-197 | The run fails with the first unset connection variable, then with a connection that does not open, then with missing columns. None of these plans or writes anything. A failed render keeps the plan, with the files attempted and the render's error. |
| `IngestionCli.SinglePlan` | cmd/ingestion-cli/main.go:67-176 | The single-table plan exists exactly when columns are found. It is `PlanTable` of the settings and flags, applied to `SingleInputs` of those columns. So every name, path, topic and setting follows the formulas stated for `PlanTable`, using `SQLSERVER_HOST`, the upper-cased `SQLSERVER_DATABASE`, `schema.table`, and the port and secret variables or their defaults. |
| `IngestionCli.SingleInputs` | cmd/ingestion-cli/main.go:61-98 | The inputs of the single table. The database is `SQLSERVER_DATABASE` (internal/sqlserver/sqlserver.go:30-33), and the host is `SQLSERVER_HOST`. The port is `SQLSERVER_PORT`, or `1433` when that is unset. The secret is `SQLSERVER_SECRET_NAME`, or `sqlserver-origem-sqlcrmp` when that is unset. The schema, table and columns are as given. |
| `IngestionCli.RenderSingle` | cmd/ingestion-cli/main.go:95-200 | With the host set, a plan is kept and rendered unless the run is dry. It succeeds exactly when the run is dry or all three files render, and the render's error is reported. |
| `IngestionCli.SingleDryRunIsWetRunWithoutWrites` | cmd/ingestion-cli/main.go:183-186 | In single-table mode, too, a dry run is the real run with every write succeeding, minus the writes. |
| `IngestionCli.HostVarAsWritten` | cmd/ingestion-cli/main.go:281-282 | The host variable main.go looks up. Its first character after `SQLSERVER_` is the upper-cased first character of the untrimmed alias. For an alias without surrounding white space it is the validated name. |
| `IngestionCli.HostVarAsWrittenAgreesWhenTrimmed` | cmd/ingestion-cli/main.go:281-282 | For an alias without surrounding white space, the name main.go builds equals the validated one. |
| `IngestionCli.PaddedAliasLosesHost` | cmd/ingestion-cli/main.go:281-285 | An alias with leading white space passes the environment check, yet the host name main.go builds for it is unset. |
| `IngestionCli.ValidatedHostFound` | cmd/ingestion-cli/main.go:281-285 | After the environment check, the host lookup with the corrected name succeeds for every non-blank alias. |
| `IngestionCli.EffectiveSchemaAsWritten` | cmd/ingestion-cli/main.go:254-258 | The table's schema exactly as written when it is not blank, else the server's schema exactly as written, with no trimming and no `dbo`. When that choice is trimmed and not blank, it is the corrected schema. |
| `IngestionCli.EffectiveSchemaAsWrittenAgrees` | cmd/ingestion-cli/main.go:254-258 | Whenever the schema main.go picks is trimmed and not blank, it equals the corrected schema. |
| `IngestionCli.MissingSchemaAsWritten` | cmd/ingestion-cli/main.go:254-258 | With both schemas left out, main.go uses the empty schema where the check assumed `dbo`. |
| `IngestionCli.RunFromConfigAsWritten` | cmd/ingestion-cli/main.go:204-386 | `runFromConfig` with the schema and the host and port names exactly as main.go builds them. It succeeds exactly when the file loaded, both checks pass, and every server goes through with those names. On success, every table is planned in order and counted, and its three files are written unless the run is dry. A dry run writes nothing. |
| `IngestionCli.RunFromConfigAsWrittenAgrees` | cmd/ingestion-cli/main.go:234-377 | Suppose every alias is trimmed, and the schema main.go picks for every table is trimmed and not blank. Then main.go's run and the corrected run give the same plans, files, count and outcome. |
| `IngestionCli.ServerAsWrittenAgrees` | cmd/ingestion-cli/main.go:254-300 | On such a server, main.go reads every table under the corrected schema and host variable and builds the corrected plan. |
| `IngestionCli.RunCheckedAgree` | cmd/ingestion-cli/main.go:204-377 | Two runs over the same world produce the same run when both read every table under the same schema and host variable and build the same plan. |
| `IngestionCli.RunTablesAgree` | cmd/ingestion-cli/main.go:247-374 | The same holds for the tables of one server. |
| `IngestionCli.RunServersAgree` | cmd/ingestion-cli/main.go:234-377 | The same holds for the servers from any index on. |
| `IngestionCli.DryRunAsWrittenIsWet` | cmd/ingestion-cli/main.go:357-360 | As written too, a dry run is the real run with every write succeeding, minus the writes. |
| `IngestionCli.MissingSchemaRunAsWritten` | cmd/ingestion-cli/main.go:254-263 | The configuration has one server and one table, both without a schema, and the catalogue has the table under `dbo` only. The dry corrected run succeeds there, while main.go's run reads schema "" and fails. |
| `IngestionCli.DryOneTableOk` | cmd/ingestion-cli/main.go:234-377 | A dry run over one reachable server with one table goes through whenever that table's columns are found under its effective schema. |

## Left out

- Reading and parsing `ingestion.yaml` and `kustomization.yaml` are left out, because they are file I/O and YAML. Their result is an input: the loaded configuration, or `Stored`. Marshalling the kustomization, and its unreachable error path, is not modelled.
- Opening the SQL Server connection is an input, `connected(i)`. In single-table mode, `NewFromEnv`'s variable checks are modelled (`FirstUnset`), and only its URL and ping fall under `connected(0)`. In configuration mode, everything `NewFromAlias` does is folded into `connected(i)`. That includes its checks of the host, user and password variables built from the untrimmed alias (internal/sqlserver/sqlserver.go:59-72).
- The column query `LoadColumns` is an input, `catalog`: `None` for a query error. An empty answer stands for its "no columns" error, and the run fails on it the same way. `GetTableRowCount` is not used by the core and is not modelled.
- Template rendering (`generator.RenderToFile` and the templates) is left out. A written file is the pair of its path and the document record that fills the template. Whether rendering to a path succeeds is an input, `writeOk`.
- Error messages are left out: the source's formatted texts, in Portuguese, become structured error values. Log lines are left out, and so is the final count of processed tables, which only the log shows. The model keeps the count in the run record instead.
- Flag parsing, its defaults, and the "-table is required" check of `main` are left out, because they are command-line plumbing. The flags are an input, and so is loading `.env` via godotenv.
- Running git is modelled as a port, `port(k, cmd)`, plus the porcelain status text. `os.Stat`, `MkdirAll` and `ReadDir` of the clone's location are a `Disk` input. The clock's timestamp for the branch suffix is an input string.
- `filepath.Join` is modelled as plain concatenation with `/`, and a layout path as its list of segments. Its cleaning of `.`, `..`, empty and slash-bearing segments is left out.
- Letter case is mapped for ASCII letters only: Go's Unicode case mapping of other letters is left out, because it needs Unicode tables. White space is Go's full `unicode.IsSpace` set. Go strings are UTF-8 bytes, whereas the model uses sequences of code points.
- The numeric fields of a column are unbounded integers rather than 64-bit ones. Catalogue values never approach the 64-bit bounds.
- The config-ui command is left out, because it is a separate program. The code has no grouping step, and `CommitAndPush` commits with whatever message its caller passes.
- The per-database directories `SourceDBDir`, `SinkDBDir` and `JobDBDir` have no contracts of their own. `Repo.DBDirsExtendRoots` states the value of each: its root plus one lower-cased segment.

## Findings

| source | as written | input that shows it | evidently intended | confidence | as-written member | corrected member |
|---|---|---|---|---|---|---|
| cmd/ingestion-cli/main.go:242-245, internal/sqlserver/sqlserver.go:59-72 | The connection builds its host, user and password variable names from the alias upper-cased but not trimmed. The host and port lookups at main.go:281-285 do the same. The environment check at internal/config/ingestion.go:122-132 trims the alias first. | An alias of " a" with SQLSERVER_A_HOST, SQLSERVER_A_USER and SQLSERVER_A_PASSWORD set. Both checks accept it, then the lookup of `SQLSERVER_ A_HOST` fails. That happens first inside `NewFromAlias`, so the run fails with the connection error at main.go:243-245. | Use the trimmed alias in every variable name, as the check does, so that a validated environment never fails a lookup. | medium, not executed | `IngestionCli.PaddedAliasLosesHost` | `IngestionCli.ValidatedHostFound` |
| cmd/ingestion-cli/main.go:254-258 | The schema used for reading columns and for naming is the table's schema as written, else the server's schema as written. It has no `dbo` fallback and is not trimmed. The check at internal/config/ingestion.go:80-93 keys the table by the trimmed schema with a `dbo` fallback. | A server and table with no schema. The check keys the table under `dbo`, but main.go queries the columns of schema "", which finds none, so the run fails with the "no columns" error at main.go:260-263. Had it gone on, the source would have been named `source-debeziumsqlserver-db--...`. | Use the schema the check validated the table under: the table's trimmed schema, else the server's trimmed schema, else `dbo`. | medium, not executed | `IngestionCli.MissingSchemaRunAsWritten` | `IngestionCli.EffectiveSchema` |

In the model:

- `IngestionCli.HostVarAsWritten` and `IngestionCli.EffectiveSchemaAsWritten` are main.go's definitions as written.
- `IngestionCli.HostVar` and `IngestionCli.EffectiveSchema` are the corrected definitions. `RunFromConfig` uses them.
- `IngestionCli.RunFromConfigAsWritten` is main.go's run with its own names and schema. `RunFromConfigAsWrittenAgrees` proves that it equals `RunFromConfig` whenever every alias and every picked schema is already trimmed and not blank. `MissingSchemaRunAsWritten` shows the two runs part when both schemas are left out.
- The corrected host name is what lets `RunFromConfig` promise that no host lookup fails after the environment check.
- `PaddedAliasLosesHost` shows the failing lookup with the name as written. In the model, that failure, in `NewFromAlias` or at main.go:285, is part of `connected(i)` being false. As the code is written, main.go:285 can never fail on its own, because `NewFromAlias` has already required the same variable.

=== FILE: cli.dfy ===
/** The command-line generator (`cmd/ingestion-cli`): for each table, the
    Kafka Connect source document, the Snowflake sink document, the Snowflake
    job document and the three files they are written to, in configuration
    mode (every table of `ingestion.yaml`) and in single-table mode; and the
    dry run, which computes the same documents and writes nothing.

    What the program sees of the outside world is an input (`World`): the
    environment, whether the connection to a server opens, the columns the
    catalogue query returns, and whether rendering a file succeeds. A written
    file is represented by the document record rendered into it. */
module IngestionCli {
  import opened Strs
  import opened Results
  import opened Env
  import opened Config
  import opened SqlServer

  // ---------------------------------------------------------------------------
  // Documents and settings.
  // ---------------------------------------------------------------------------

  datatype SourceConfig = SourceConfig(
    name: string,
    clusterName: string,
    databaseHost: string,
    databasePort: string,
    databaseSecret: string,
    databaseNameUpper: string,
    topicPrefix: string,
    tableIncludeList: string,
    schemaHistoryBootstrapServers: string,
    schemaHistoryTopic: string)

  datatype SinkConfig = SinkConfig(
    name: string,
    clusterName: string,
    topicName: string,
    snowflakeUrl: string,
    snowflakeUserSecret: string,
    snowflakePasswordSecret: string,
    stage: string,
    table: string,
    schema: string)

  datatype JobConfig = JobConfig(
    jobName: string,
    connectionConfigMap: string,
    sqlConfigMapName: string,
    role: string,
    database: string,
    schema: string,
    tableIngest: string,
    tableFinal: string,
    stageName: string,
    businessColumnsDDL: string)

  const DefaultClusterName: string := "inthub-prd"
  const DefaultSnowflakeUrl: string :=
    "jdbc:snowflake://seuaccount.snowflakecomputing.com?schema=CRMB001D&db=LZ_SQL_IH_PRD&warehouse=WH_IH_PROD&CLIENT_SESSION_KEEP_ALIVE=TRUE&tracing=WARNING"
  const DefaultSnowflakeSecret: string := "snowflake-creds"
  const DefaultLogicalDB: string := "lz-sql-ih-prd"
  const DefaultConnConfigMap: string := "lz-sql-ih-connection"
  const DefaultRole: string := "SNFLK_INTEGRATION_HUB_ROLE"
  const DefaultSnowflakeDatabase: string := "LZ_SQL_IH"
  const DefaultBootstrapServers: string := "kafka01:9092,kafka02:9092,kafka03:9092"
  const DefaultPort: string := "1433"
  const DefaultSingleSecret: string := "sqlserver-origem-sqlcrmp"

  /** The connector and Snowflake settings, read once from the environment. */
  datatype Settings = Settings(
    clusterName: string,
    snowflakeUrl: string,
    snowflakeUserSecret: string,
    snowflakePasswordSecret: string,
    logicalDB: string,
    connConfigMap: string,
    role: string,
    snowflakeDatabase: string,
    bootstrapServers: string)

  /** `v` is what a lookup of `key` with fallback `fallback` must give. */
  predicate FromEnv(env: Environment, key: string, fallback: string, v: string) {
    && (Getenv(env, key) != "" ==> v == Getenv(env, key))
    && (Getenv(env, key) == "" ==> v == fallback)
  }

  function LoadSettings(env: Environment): (s: Settings)
    ensures FromEnv(env, "CONNECT_CLUSTER_NAME", DefaultClusterName, s.clusterName)
    ensures FromEnv(env, "SNOWFLAKE_JDBC_URL", DefaultSnowflakeUrl, s.snowflakeUrl)
    ensures FromEnv(env, "SNOWFLAKE_USER_SECRET", DefaultSnowflakeSecret, s.snowflakeUserSecret)
    ensures FromEnv(env, "SNOWFLAKE_PASSWORD_SECRET", DefaultSnowflakeSecret, s.snowflakePasswordSecret)
    ensures FromEnv(env, "SNOWFLAKE_DB_LOGICAL", DefaultLogicalDB, s.logicalDB)
    ensures FromEnv(env, "SNOWFLAKE_CONN_CONFIGMAP", DefaultConnConfigMap, s.connConfigMap)
    ensures FromEnv(env, "SNOWFLAKE_ROLE", DefaultRole, s.role)
    ensures FromEnv(env, "SNOWFLAKE_DATABASE", DefaultSnowflakeDatabase, s.snowflakeDatabase)
    ensures FromEnv(env, "SCHEMA_HISTORY_BOOTSTRAP_SERVERS", DefaultBootstrapServers, s.bootstrapServers)
  {
    Settings(
      GetEnvOrDefault(env, "CONNECT_CLUSTER_NAME", DefaultClusterName),
      GetEnvOrDefault(env, "SNOWFLAKE_JDBC_URL", DefaultSnowflakeUrl),
      GetEnvOrDefault(env, "SNOWFLAKE_USER_SECRET", DefaultSnowflakeSecret),
      GetEnvOrDefault(env, "SNOWFLAKE_PASSWORD_SECRET", DefaultSnowflakeSecret),
      GetEnvOrDefault(env, "SNOWFLAKE_DB_LOGICAL", DefaultLogicalDB),
      GetEnvOrDefault(env, "SNOWFLAKE_CONN_CONFIGMAP", DefaultConnConfigMap),
      GetEnvOrDefault(env, "SNOWFLAKE_ROLE", DefaultRole),
      GetEnvOrDefault(env, "SNOWFLAKE_DATABASE", DefaultSnowflakeDatabase),
      GetEnvOrDefault(env, "SCHEMA_HISTORY_BOOTSTRAP_SERVERS", DefaultBootstrapServers))
  }

  /** The command-line flags that shape the names and paths. */
  datatype Naming = Naming(group: string, mode: string, size: string, outDir: string)

  datatype Flags = Flags(naming: Naming, dryRun: bool)

  // ---------------------------------------------------------------------------
  // The naming plan of one table.
  // ---------------------------------------------------------------------------

  /** `source-debeziumsqlserver-<db>-<schema>-<group>-<mode>-<size>`. */
  function SourceName(db: string, schema: string, f: Naming): string {
    "source-debeziumsqlserver-" + ToLower(db) + "-" + ToLower(schema) + "-" + f.group + "-" + f.mode + "-" + f.size
  }

  /** `source_debeziumsqlserver_<db>_<schema>_<group>_<mode>_<size>`. */
  function TopicPrefix(db: string, schema: string, f: Naming): string {
    "source_debeziumsqlserver_" + ToLower(db) + "_" + ToLower(schema) + "_" + f.group + "_" + f.mode + "_" + f.size
  }

  /** `<prefix>.<DB>.<SCHEMA>.<TABLE>`: the topic Debezium writes a table's changes to. */
  function TopicName(prefix: string, db: string, schema: string, table: string): string {
    prefix + "." + ToUpper(db) + "." + ToUpper(schema) + "." + ToUpper(table)
  }

  /** `sink-jdbcsnowflake-<logical db>-<db>-<table>-<mode>-<size>-v1`. */
  function SinkName(logicalDB: string, db: string, table: string, f: Naming): string {
    "sink-jdbcsnowflake-" + logicalDB + "-" + ToLower(db) + "-" + ToLower(table) + "-" + f.mode + "-" + f.size + "-v1"
  }

  /** `lz-sql-ih-<db>-<table>-v1`, and the job's SQL config map `lz-sql-ih-<db>-<table>-sql`. */
  function JobName(db: string, table: string): string {
    "lz-sql-ih-" + ToLower(db) + "-" + ToLower(table) + "-v1"
  }

  function SqlConfigMapName(db: string, table: string): string {
    "lz-sql-ih-" + ToLower(db) + "-" + ToLower(table) + "-sql"
  }

  function SourcePath(outDir: string, db: string, table: string): string {
    outDir + "/source-" + ToLower(db) + "-" + ToLower(table) + ".yaml"
  }

  function SinkPath(outDir: string, db: string, table: string): string {
    outDir + "/sink-" + ToLower(db) + "-" + ToLower(table) + ".yaml"
  }

  function JobPath(outDir: string, db: string, table: string): string {
    outDir + "/job-snowflake-" + ToLower(db) + "-" + ToLower(table) + ".yaml"
  }

  /** What one table's documents are built from. */
  datatype TableInputs = TableInputs(
    db: string,
    schema: string,
    table: string,
    host: string,
    port: string,
    secret: string,
    columns: seq<ColumnInfo>)

  datatype TablePlan = TablePlan(
    source: SourceConfig,
    sink: SinkConfig,
    job: JobConfig,
    sourcePath: string,
    sinkPath: string,
    jobPath: string)

  /** The three documents of one table and their files. */
  function PlanTable(s: Settings, f: Naming, t: TableInputs): (p: TablePlan)
    // the names, from the lower-cased database, schema and table and the flags
    ensures p.source.name == SourceName(t.db, t.schema, f)
    ensures p.source.topicPrefix == TopicPrefix(t.db, t.schema, f)
    ensures p.sink.name == SinkName(s.logicalDB, t.db, t.table, f)
    ensures p.job.jobName == JobName(t.db, t.table) && p.job.sqlConfigMapName == SqlConfigMapName(t.db, t.table)
    // the sink reads `<prefix>.<DB>.<SCHEMA>.<TABLE>`; history goes to `sh_<prefix>`
    ensures p.sink.topicName == p.source.topicPrefix + "." + ToUpper(t.db) + "." + ToUpper(t.schema) + "." + ToUpper(t.table)
    ensures p.source.schemaHistoryTopic == "sh_" + p.source.topicPrefix
    // the connection comes from the inputs, everything else from the settings
    ensures p.source.databaseHost == t.host && p.source.databasePort == t.port && p.source.databaseSecret == t.secret
    ensures p.source.clusterName == p.sink.clusterName == s.clusterName
    ensures p.source.schemaHistoryBootstrapServers == s.bootstrapServers
    ensures p.sink.snowflakeUrl == s.snowflakeUrl
    ensures p.sink.snowflakeUserSecret == s.snowflakeUserSecret && p.sink.snowflakePasswordSecret == s.snowflakePasswordSecret
    ensures p.job.connectionConfigMap == s.connConfigMap && p.job.role == s.role && p.job.database == s.snowflakeDatabase
    // the three documents agree on the database and the table
    ensures p.source.databaseNameUpper == p.sink.schema == p.job.schema == ToUpper(t.db)
    ensures p.sink.table == p.sink.stage == p.job.tableFinal == p.job.stageName == ToUpper(t.table)
    ensures p.job.tableIngest == ToUpper(t.table) + "_INGEST"
    ensures p.source.tableIncludeList == t.schema + "." + t.table
    ensures p.job.businessColumnsDDL == BuildBusinessColumnsDDL(t.columns)
    // the files
    ensures p.sourcePath == f.outDir + "/source-" + ToLower(t.db) + "-" + ToLower(t.table) + ".yaml"
    ensures p.sinkPath == f.outDir + "/sink-" + ToLower(t.db) + "-" + ToLower(t.table) + ".yaml"
    ensures p.jobPath == f.outDir + "/job-snowflake-" + ToLower(t.db) + "-" + ToLower(t.table) + ".yaml"
  {
    var prefix := TopicPrefix(t.db, t.schema, f);
    var dbUpper := ToUpper(t.db);
    var tableUpper := ToUpper(t.table);
    var source := SourceConfig(
      SourceName(t.db, t.schema, f), s.clusterName, t.host, t.port, t.secret, dbUpper,
      prefix, t.schema + "." + t.table, s.bootstrapServers, "sh_" + prefix);
    var sink := SinkConfig(
      SinkName(s.logicalDB, t.db, t.table, f), s.clusterName, TopicName(prefix, t.db, t.schema, t.table),
      s.snowflakeUrl, s.snowflakeUserSecret, s.snowflakePasswordSecret, tableUpper, tableUpper, dbUpper);
    var job := JobConfig(
      JobName(t.db, t.table), s.connConfigMap, SqlConfigMapName(t.db, t.table), s.role, s.snowflakeDatabase,
      dbUpper, tableUpper + "_INGEST", tableUpper, tableUpper, BuildBusinessColumnsDDL(t.columns));
    TablePlan(source, sink, job,
      SourcePath(f.outDir, t.db, t.table), SinkPath(f.outDir, t.db, t.table), JobPath(f.outDir, t.db, t.table))
  }

  /** The source name and the topic prefix are the same five components:
      when none of them contains a dash, the prefix is the name with every
      dash replaced by an underscore. */
  lemma SourceNameAndTopicPrefix(db: string, schema: string, f: Naming)
    requires '-' !in db && '-' !in schema && '-' !in f.group && '-' !in f.mode && '-' !in f.size
    ensures TopicPrefix(db, schema, f) == ReplaceChar(SourceName(db, schema, f), '-', '_')
  {
    var a, b := ToLower(db), ToLower(schema);
    ToLowerKeepsNonLetter(db, '-');
    ToLowerKeepsNonLetter(schema, '-');
    var s0: string := "source-debeziumsqlserver-";
    var t0: string := "source_debeziumsqlserver_";
    assert ReplaceChar(s0, '-', '_') == t0;
    var s1 := ReplaceThenDash(s0, t0, a);
    var s2 := ReplaceThenDash(s1, t0 + a + "_", b);
    var s3 := ReplaceThenDash(s2, t0 + a + "_" + b + "_", f.group);
    var s4 := ReplaceThenDash(s3, t0 + a + "_" + b + "_" + f.group + "_", f.mode);
    ReplaceCharConcat(s4, f.size, '-', '_');
    ReplaceCharAbsent(f.size, '-', '_');
  }

  /** Extending a string whose replacement is known by a dash-free part and a
      dash: returns the extended string. */
  lemma ReplaceThenDash(x: string, rx: string, part: string) returns (y: string)
    requires ReplaceChar(x, '-', '_') == rx && '-' !in part
    ensures y == x + part + "-"
    ensures ReplaceChar(y, '-', '_') == rx + part + "_"
  {
    y := x + part + "-";
    ReplaceCharConcat(x, part, '-', '_');
    ReplaceCharAbsent(part, '-', '_');
    ReplaceCharConcat(x + part, "-", '-', '_');
    assert ReplaceChar("-", '-', '_') == "_";
  }

  /** A source file, a sink file and a job file never share a path, whatever
      the databases and tables: the three kinds cannot overwrite each other. */
  lemma ArtifactPathsDistinct(outDir: string, db1: string, t1: string, db2: string, t2: string, db3: string, t3: string)
    ensures SourcePath(outDir, db1, t1) != SinkPath(outDir, db2, t2)
    ensures SourcePath(outDir, db1, t1) != JobPath(outDir, db3, t3)
    ensures SinkPath(outDir, db2, t2) != JobPath(outDir, db3, t3)
  {
    var n := |outDir|;
    assert SourcePath(outDir, db1, t1)[n + 1] == 's' && SourcePath(outDir, db1, t1)[n + 2] == 'o';
    assert SinkPath(outDir, db2, t2)[n + 1] == 's' && SinkPath(outDir, db2, t2)[n + 2] == 'i';
    assert JobPath(outDir, db3, t3)[n + 1] == 'j';
  }

  /** A job's name never equals a SQL config map's name, for any tables. */
  lemma JobAndConfigMapNeverClash(db1: string, t1: string, db2: string, t2: string)
    ensures JobName(db1, t1) != SqlConfigMapName(db2, t2)
  {
    var a, b := JobName(db1, t1), SqlConfigMapName(db2, t2);
    assert a[|a| - 1] == '1' && b[|b| - 1] == 'l';
  }

  /** Names and paths ignore letter case in the database, schema and table;
      only the table include list keeps them as written. */
  lemma PlanIgnoresCase(s: Settings, f: Naming, t: TableInputs, db: string, schema: string, table: string)
    requires EqualFold(t.db, db) && EqualFold(t.schema, schema) && EqualFold(t.table, table)
    ensures
      var p := PlanTable(s, f, t);
      var q := PlanTable(s, f, t.(db := db, schema := schema, table := table));
      && p.source.(tableIncludeList := "") == q.source.(tableIncludeList := "")
      && p.sink == q.sink && p.job == q.job
      && p.sourcePath == q.sourcePath && p.sinkPath == q.sinkPath && p.jobPath == q.jobPath
  {
    EqualFoldIffSameLower(t.db, db);
    EqualFoldIffSameLower(t.schema, schema);
    EqualFoldIffSameLower(t.table, table);
    EqualFoldSameUpper(t.db, db);
    EqualFoldSameUpper(t.schema, schema);
    EqualFoldSameUpper(t.table, table);
  }

  // ---------------------------------------------------------------------------
  // Rendering one plan.
  // ---------------------------------------------------------------------------

  datatype Document = SourceDoc(source: SourceConfig) | SinkDoc(sink: SinkConfig) | JobDoc(job: JobConfig)

  datatype Write = Write(path: string, doc: Document)

  datatype Kind = SourceKind | SinkKind | JobKind

  datatype CliError =
    | LoadFailed                                              // reading or parsing ingestion.yaml
    | InvalidConfig(problems: seq<Problem>)
    | MissingEnvVars(missing: seq<EnvProblem>)
    | ConnectFailed(alias: string)                            // "" in single-table mode
    | ConnectEnvMissing(name: string)                         // single-table mode
    | ColumnsFailed(alias: string, schema: string, table: string)
    | HostMissing(name: string)
    | RenderFailed(kind: Kind, schema: string, table: string)

  /** The source, sink and job files of a plan, in the order they are rendered. */
  function PlanWrites(p: TablePlan): (ws: seq<Write>)
    ensures |ws| == 3
    ensures ws[0] == Write(p.sourcePath, SourceDoc(p.source))
    ensures ws[1] == Write(p.sinkPath, SinkDoc(p.sink))
    ensures ws[2] == Write(p.jobPath, JobDoc(p.job))
  {
    [Write(p.sourcePath, SourceDoc(p.source)), Write(p.sinkPath, SinkDoc(p.sink)), Write(p.jobPath, JobDoc(p.job))]
  }

  datatype Rendered = Rendered(writes: seq<Write>, error: Option<CliError>)

  /** All three files of a plan can be rendered. */
  predicate Writable(writeOk: string -> bool, p: TablePlan) {
    writeOk(p.sourcePath) && writeOk(p.sinkPath) && writeOk(p.jobPath)
  }

  /** Renders the three files in order and stops at the first that fails;
      the failing one was attempted. */
  function Render(p: TablePlan, writeOk: string -> bool, schema: string, table: string): (r: Rendered)
    ensures r.writes != [] && r.writes <= PlanWrites(p)
    ensures r.error.None? <==> Writable(writeOk, p)
    ensures r.error.None? ==> r.writes == PlanWrites(p)
    ensures r.error.Some? ==> !writeOk(r.writes[|r.writes| - 1].path)
    ensures forall k :: 0 <= k < |r.writes| - 1 ==> writeOk(r.writes[k].path)
    // the error names the first file that failed, with the schema and table
    ensures !writeOk(p.sourcePath) ==> r.error == Some(RenderFailed(SourceKind, schema, table))
    ensures writeOk(p.sourcePath) && !writeOk(p.sinkPath) ==> r.error == Some(RenderFailed(SinkKind, schema, table))
    ensures writeOk(p.sourcePath) && writeOk(p.sinkPath) && !writeOk(p.jobPath) ==>
      r.error == Some(RenderFailed(JobKind, schema, table))
  {
    var ws := PlanWrites(p);
    if !writeOk(p.sourcePath) then Rendered(ws[..1], Some(RenderFailed(SourceKind, schema, table)))
    else if !writeOk(p.sinkPath) then Rendered(ws[..2], Some(RenderFailed(SinkKind, schema, table)))
    else if !writeOk(p.jobPath) then Rendered(ws, Some(RenderFailed(JobKind, schema, table)))
    else Rendered(ws, None)
  }

  /** The files of a sequence of plans, three per plan, in plan order. */
  function WritesOf(plans: seq<TablePlan>): (ws: seq<Write>)
    ensures |ws| == 3 * |plans|
    decreases |plans|
  {
    if plans == [] then [] else PlanWrites(plans[0]) + WritesOf(plans[1..])
  }

  // ---------------------------------------------------------------------------
  // Configuration mode.
  // ---------------------------------------------------------------------------

  datatype World = World(
    env: Environment,
    connected: nat -> bool,                                   // the connection to server i opens
    catalog: (nat, string, string) -> Option<seq<ColumnInfo>>, // columns of (server, schema, table); None on a query error
    writeOk: string -> bool)                                  // rendering to the path succeeds

  /** A run's world, whether it is dry, the naming flags, and the steps the
      run takes for each table as function values: the effective schema of a
      table, the host variable of an alias, the settings read from the
      environment, the inputs of table `t` of server `i`, and the plan built
      from them (`EffectiveSchema`, `HostVar`, `LoadSettings`, `InputsAt` and
      `PlanTable` in configuration mode). */
  datatype Context = Context(
    world: World,
    dryRun: bool,
    naming: Naming,
    schemaOf: (SqlServerEntry, TableEntry) -> string,
    hostVarOf: string -> string,
    settingsOf: Environment -> Settings,
    inputsOf: (Environment, (nat, string, string) -> Option<seq<ColumnInfo>>, nat, SqlServerEntry, TableEntry) -> TableInputs,
    planOf: (Settings, Naming, TableInputs) -> TablePlan)

  /** The host variable of an alias: the trimmed, upper-cased alias, as the
      environment check validated it. */
  function HostVar(alias: string): (name: string)
    ensures name == AliasEnvVars(alias)[0]
  {
    AliasEnvVar(alias, "_HOST")
  }

  function PortVar(alias: string): string {
    AliasEnvVar(alias, "_PORT")
  }

  /** The schema a table's columns are read from and its names are built
      with: the one the configuration check keyed the table by. */
  function EffectiveSchema(srv: SqlServerEntry, t: TableEntry): (r: string)
    ensures !IsBlank(r) && Trim(r) == r
    ensures !IsBlank(t.schema) ==> r == Trim(t.schema)
    ensures IsBlank(t.schema) && !IsBlank(srv.schema) ==> r == Trim(srv.schema)
    ensures IsBlank(t.schema) && IsBlank(srv.schema) ==> r == DefaultSchema
  {
    var r := TableSchema(srv, t);
    if !IsBlank(t.schema) then
      TrimIdempotent(t.schema);
      r
    else if !IsBlank(srv.schema) then
      TrimIdempotent(srv.schema);
      r
    else
      TrimUnpadded(DefaultSchema);
      r
  }

  /** The catalogue query succeeded and found at least one column; an empty
      answer is an error of its own (sqlserver.go:134-136). */
  predicate ColumnsFound(cols: Option<seq<ColumnInfo>>) {
    cols.Some? && cols.value != []
  }

  function ColumnsOrNone(cols: Option<seq<ColumnInfo>>): seq<ColumnInfo> {
    if cols.Some? then cols.value else []
  }

  /** The inputs of table `t` of server `i`, as a successful run reads them:
      the effective schema, the alias's host and port variables, the
      server's secret, and the columns the catalogue returned. */
  function InputsAt(env: Environment, catalog: (nat, string, string) -> Option<seq<ColumnInfo>>,
                    i: nat, srv: SqlServerEntry, t: TableEntry): (r: TableInputs)
    ensures r.db == srv.database && r.schema == EffectiveSchema(srv, t) && r.table == t.name
    ensures r.host == Getenv(env, HostVar(srv.alias))
    ensures FromEnv(env, PortVar(srv.alias), DefaultPort, r.port)
    ensures r.secret == srv.secretName
    ensures catalog(i, r.schema, t.name).Some? ==> r.columns == catalog(i, r.schema, t.name).value
  {
    var schema := EffectiveSchema(srv, t);
    TableInputs(
      srv.database, schema, t.name,
      Getenv(env, HostVar(srv.alias)),
      GetEnvOrDefault(env, PortVar(srv.alias), DefaultPort),
      srv.secretName,
      ColumnsOrNone(catalog(i, schema, t.name)))
  }

  function PlanAt(ctx: Context, i: nat, srv: SqlServerEntry, t: TableEntry): TablePlan {
    ctx.planOf(ctx.settingsOf(ctx.world.env), ctx.naming, ctx.inputsOf(ctx.world.env, ctx.world.catalog, i, srv, t))
  }

  /** One plan per table of server `i` from table `j` on, in order. */
  function PlansFrom(ctx: Context, i: nat, srv: SqlServerEntry, j: nat): (ps: seq<TablePlan>)
    requires j <= |srv.tables|
    ensures |ps| == |srv.tables| - j
    decreases |srv.tables| - j
  {
    if j == |srv.tables| then [] else [PlanAt(ctx, i, srv, srv.tables[j])] + PlansFrom(ctx, i, srv, j + 1)
  }

  /** The k-th plan is the plan of table j + k. */
  lemma {:induction false} PlansFromIndex(ctx: Context, i: nat, srv: SqlServerEntry, j: nat, k: nat)
    requires j + k < |srv.tables|
    ensures PlansFrom(ctx, i, srv, j)[k] == PlanAt(ctx, i, srv, srv.tables[j + k])
    decreases k
  {
    if k > 0 {
      PlansFromIndex(ctx, i, srv, j + 1, k - 1);
    }
  }

  /** One plan per table of the servers from `i` on, in configuration order. */
  function AllPlans(ctx: Context, servers: seq<SqlServerEntry>, i: nat): (ps: seq<TablePlan>)
    requires i <= |servers|
    ensures |ps| == TotalTables(servers, i)
    decreases |servers| - i
  {
    if i == |servers| then [] else PlansFrom(ctx, i, servers[i], 0) + AllPlans(ctx, servers, i + 1)
  }

  /** The number of tables of the servers from `i` on. */
  function TotalTables(servers: seq<SqlServerEntry>, i: nat): nat
    requires i <= |servers|
    decreases |servers| - i
  {
    if i == |servers| then 0 else |servers[i].tables| + TotalTables(servers, i + 1)
  }

  /** What a run has done so far: the plans computed, the files rendered,
      the tables counted, and how it ended. */
  datatype Run = Run(plans: seq<TablePlan>, writes: seq<Write>, tables: nat, result: Result<(), CliError>)

  /** Table `t` of server `i` goes through: its columns are found, its host
      variable is set, and unless the run is dry its three files render. */
  predicate TableOk(ctx: Context, i: nat, srv: SqlServerEntry, t: TableEntry) {
    && ColumnsFound(ctx.world.catalog(i, ctx.schemaOf(srv, t), t.name))
    && Getenv(ctx.world.env, ctx.hostVarOf(srv.alias)) != ""
    && (ctx.dryRun || Writable(ctx.world.writeOk, PlanAt(ctx, i, srv, t)))
  }

  /** One table (main.go 247-373): count it, read its columns, look up the
      host, build the plan, and render it unless this is a dry run. */
  function TableStep(ctx: Context, i: nat, srv: SqlServerEntry, t: TableEntry, acc: Run): (r: Run)
    requires acc.result.Success?
    ensures r.tables == acc.tables + 1
    ensures r.result.Success? <==> TableOk(ctx, i, srv, t)
    ensures r.result.Success? ==> r.plans == acc.plans + [PlanAt(ctx, i, srv, t)]
    ensures r.result.Success? ==> r.writes == acc.writes + (if ctx.dryRun then [] else PlanWrites(PlanAt(ctx, i, srv, t)))
    ensures ctx.dryRun ==> r.writes == acc.writes
    // no columns, or no host: nothing planned or written, and the error says which
    ensures !ColumnsFound(ctx.world.catalog(i, ctx.schemaOf(srv, t), t.name)) ==>
      r == acc.(tables := acc.tables + 1, result := Failure(ColumnsFailed(srv.alias, ctx.schemaOf(srv, t), t.name)))
    ensures (ColumnsFound(ctx.world.catalog(i, ctx.schemaOf(srv, t), t.name))
             && Getenv(ctx.world.env, ctx.hostVarOf(srv.alias)) == "") ==>
      r == acc.(tables := acc.tables + 1, result := Failure(HostMissing(ctx.hostVarOf(srv.alias))))
    // a failed render: the plan is kept, with the files attempted and the render's error
    ensures (r.result.Failure? && !ctx.dryRun && ColumnsFound(ctx.world.catalog(i, ctx.schemaOf(srv, t), t.name))
             && Getenv(ctx.world.env, ctx.hostVarOf(srv.alias)) != "") ==>
      var out := Render(PlanAt(ctx, i, srv, t), ctx.world.writeOk, ctx.schemaOf(srv, t), t.name);
      && r.plans == acc.plans + [PlanAt(ctx, i, srv, t)]
      && r.writes == acc.writes + out.writes
      && r.result == Failure(out.error.value)
  {
    var counted := acc.(tables := acc.tables + 1);
    var schema := ctx.schemaOf(srv, t);
    var cols := ctx.world.catalog(i, schema, t.name);
    var hostVar := ctx.hostVarOf(srv.alias);
    var host := RequireEnv(ctx.world.env, hostVar);
    if !ColumnsFound(cols) then counted.(result := Failure(ColumnsFailed(srv.alias, schema, t.name)))
    else if host.Failure? then counted.(result := Failure(HostMissing(hostVar)))
    else
      var p := PlanAt(ctx, i, srv, t);
      if ctx.dryRun then counted.(plans := acc.plans + [p])
      else
        var out := Render(p, ctx.world.writeOk, schema, t.name);
        Run(acc.plans + [p], acc.writes + out.writes, counted.tables,
          if out.error.None? then Success(()) else Failure(out.error.value))
  }

  /** The tables of server `i` from `j` on, stopping at the first failure. */
  function RunTables(ctx: Context, i: nat, srv: SqlServerEntry, j: nat, acc: Run): (r: Run)
    requires j <= |srv.tables| && acc.result.Success?
    ensures acc.tables <= r.tables <= acc.tables + (|srv.tables| - j)
    ensures r.result.Success? <==> forall k :: j <= k < |srv.tables| ==> TableOk(ctx, i, srv, srv.tables[k])
    ensures r.result.Success? ==> r.tables == acc.tables + (|srv.tables| - j)
    ensures r.result.Success? ==> r.plans == acc.plans + PlansFrom(ctx, i, srv, j)
    ensures r.result.Success? && !ctx.dryRun ==> r.writes == acc.writes + WritesOf(PlansFrom(ctx, i, srv, j))
    ensures ctx.dryRun ==> r.writes == acc.writes
    decreases |srv.tables| - j
  {
    if j == |srv.tables| then
      assert acc.plans + [] == acc.plans;
      assert acc.writes + [] == acc.writes;
      acc
    else
      var next := TableStep(ctx, i, srv, srv.tables[j], acc);
      if next.result.Failure? then next
      else
        var r := RunTables(ctx, i, srv, j + 1, next);
        PlansFromStep(ctx, i, srv, j);
        AppendAssoc(acc.plans, [PlanAt(ctx, i, srv, srv.tables[j])], PlansFrom(ctx, i, srv, j + 1));
        if !ctx.dryRun then
          var p := PlanAt(ctx, i, srv, srv.tables[j]);
          WritesOfConcat([p], PlansFrom(ctx, i, srv, j + 1));
          AppendAssoc(acc.writes, PlanWrites(p), WritesOf(PlansFrom(ctx, i, srv, j + 1)));
          r
        else r
  }

  /** The plans of tables `j` up to `m` of server `i`, in order. */
  function PlansBetween(ctx: Context, i: nat, srv: SqlServerEntry, j: nat, m: nat): (ps: seq<TablePlan>)
    requires j <= m <= |srv.tables|
    ensures |ps| == m - j
    ensures forall k :: 0 <= k < m - j ==> ps[k] == PlanAt(ctx, i, srv, srv.tables[j + k])
    decreases m - j
  {
    if j == m then [] else [PlanAt(ctx, i, srv, srv.tables[j])] + PlansBetween(ctx, i, srv, j + 1, m)
  }

  /** `acc` once tables `j` up to `m` of server `i` have gone through: their
      plans appended, their files too unless the run is dry, and counted. */
  function TablesDone(ctx: Context, i: nat, srv: SqlServerEntry, j: nat, m: nat, acc: Run): Run
    requires j <= m <= |srv.tables|
  {
    var ps := PlansBetween(ctx, i, srv, j, m);
    Run(acc.plans + ps, acc.writes + (if ctx.dryRun then [] else WritesOf(ps)), acc.tables + (m - j), acc.result)
  }

  /** The tables before `m` go through one after the other; at `m`, the
      first table that does not, the run stops with that table's step, or it
      ends with all of them done. */
  lemma {:induction false} RunTablesUpToFirstFailure(ctx: Context, i: nat, srv: SqlServerEntry, j: nat, m: nat, acc: Run)
    requires j <= m <= |srv.tables| && acc.result.Success?
    requires forall k :: j <= k < m ==> TableOk(ctx, i, srv, srv.tables[k])
    ensures RunTables(ctx, i, srv, j, acc) == RunTables(ctx, i, srv, m, TablesDone(ctx, i, srv, j, m, acc))
    ensures m == |srv.tables| ==> RunTables(ctx, i, srv, j, acc) == TablesDone(ctx, i, srv, j, m, acc)
    ensures m < |srv.tables| && !TableOk(ctx, i, srv, srv.tables[m]) ==>
      RunTables(ctx, i, srv, j, acc) == TableStep(ctx, i, srv, srv.tables[m], TablesDone(ctx, i, srv, j, m, acc))
    decreases m - j
  {
    var done := TablesDone(ctx, i, srv, j, m, acc);
    if j < m {
      var next := TableStep(ctx, i, srv, srv.tables[j], acc);
      TablesDoneStep(ctx, i, srv, j, m, acc);
      assert RunTables(ctx, i, srv, j, acc) == RunTables(ctx, i, srv, j + 1, next);
      RunTablesUpToFirstFailure(ctx, i, srv, j + 1, m, next);
    } else {
      assert acc.plans + [] == acc.plans && acc.writes + [] == acc.writes;
      assert done == acc;
    }
  }

  /** Table `j`, going through, takes `acc` one table further. */
  lemma TablesDoneStep(ctx: Context, i: nat, srv: SqlServerEntry, j: nat, m: nat, acc: Run)
    requires j < m <= |srv.tables| && acc.result.Success? && TableOk(ctx, i, srv, srv.tables[j])
    ensures TableStep(ctx, i, srv, srv.tables[j], acc).result.Success?
    ensures TablesDone(ctx, i, srv, j + 1, m, TableStep(ctx, i, srv, srv.tables[j], acc)) == TablesDone(ctx, i, srv, j, m, acc)
  {
    var p := PlanAt(ctx, i, srv, srv.tables[j]);
    var next := TableStep(ctx, i, srv, srv.tables[j], acc);
    assert acc.result.value == () && next.result.value == ();
    assert next == Run(acc.plans + [p], acc.writes + (if ctx.dryRun then [] else PlanWrites(p)), acc.tables + 1, acc.result);
    var rest := PlansBetween(ctx, i, srv, j + 1, m);
    assert PlansBetween(ctx, i, srv, j, m) == [p] + rest;
    AppendAssoc(acc.plans, [p], rest);
    if !ctx.dryRun {
      WritesOfConcat([p], rest);
      assert WritesOf([p]) == PlanWrites(p) + WritesOf([]);
      AppendAssoc(acc.writes, PlanWrites(p), WritesOf(rest));
    }
  }

  lemma PlansFromStep(ctx: Context, i: nat, srv: SqlServerEntry, j: nat)
    requires j < |srv.tables|
    ensures PlansFrom(ctx, i, srv, j) == [PlanAt(ctx, i, srv, srv.tables[j])] + PlansFrom(ctx, i, srv, j + 1)
  {
  }

  lemma {:induction false} WritesOfConcat(a: seq<TablePlan>, b: seq<TablePlan>)
    ensures WritesOf(a + b) == WritesOf(a) + WritesOf(b)
    decreases |a|
  {
    if a == [] {
      assert a + b == b;
    } else {
      WritesOfConcat(a[1..], b);
      assert (a + b)[1..] == a[1..] + b;
      AppendAssoc(PlanWrites(a[0]), WritesOf(a[1..]), WritesOf(b));
    }
  }

  lemma AppendAssoc<T>(a: seq<T>, b: seq<T>, c: seq<T>)
    ensures a + b + c == a + (b + c)
  {
  }

  /** Server `i` goes through: it connects and every one of its tables does. */
  predicate ServerOk(ctx: Context, i: nat, srv: SqlServerEntry) {
    ctx.world.connected(i) && forall k :: 0 <= k < |srv.tables| ==> TableOk(ctx, i, srv, srv.tables[k])
  }

  /** The servers from `i` on: connect, then the tables; stop at the first
      failure. */
  function RunServers(ctx: Context, servers: seq<SqlServerEntry>, i: nat, acc: Run): (r: Run)
    requires i <= |servers| && acc.result.Success?
    ensures acc.tables <= r.tables <= acc.tables + TotalTables(servers, i)
    ensures r.result.Success? <==> forall k :: i <= k < |servers| ==> ServerOk(ctx, k, servers[k])
    ensures r.result.Success? ==> r.tables == acc.tables + TotalTables(servers, i)
    ensures r.result.Success? ==> r.plans == acc.plans + AllPlans(ctx, servers, i)
    ensures r.result.Success? && !ctx.dryRun ==> r.writes == acc.writes + WritesOf(AllPlans(ctx, servers, i))
    ensures ctx.dryRun ==> r.writes == acc.writes
    decreases |servers| - i
  {
    if i == |servers| then
      assert acc.plans + [] == acc.plans;
      assert acc.writes + [] == acc.writes;
      acc
    else if !ctx.world.connected(i) then acc.(result := Failure(ConnectFailed(servers[i].alias)))
    else
      var next := RunTables(ctx, i, servers[i], 0, acc);
      if next.result.Failure? then next
      else
        var r := RunServers(ctx, servers, i + 1, next);
        var here, rest := PlansFrom(ctx, i, servers[i], 0), AllPlans(ctx, servers, i + 1);
        AppendAssoc(acc.plans, here, rest);
        if !ctx.dryRun then
          WritesOfConcat(here, rest);
          AppendAssoc(acc.writes, WritesOf(here), WritesOf(rest));
          r
        else r
  }

  /** `acc` once servers `i` up to `n` have gone through: their plans
      appended, their files too unless the run is dry, and their tables
      counted. */
  function ServersDone(ctx: Context, servers: seq<SqlServerEntry>, i: nat, n: nat, acc: Run): Run
    requires i <= n <= |servers|
  {
    var ps := AllPlans(ctx, servers[..n], i);
    Run(acc.plans + ps, acc.writes + (if ctx.dryRun then [] else WritesOf(ps)), acc.tables + TotalTables(servers[..n], i), acc.result)
  }

  /** The servers before `n` go through one after the other; at `n`, the
      first server that does not, the run stops on its connection or goes
      on into its tables (where `RunTablesUpToFirstFailure` finds the table
      that fails), or it ends with all of them done. */
  lemma {:induction false} RunServersUpToFirstFailure(ctx: Context, servers: seq<SqlServerEntry>, i: nat, n: nat, acc: Run)
    requires i <= n <= |servers| && acc.result.Success?
    requires forall k :: i <= k < n ==> ServerOk(ctx, k, servers[k])
    ensures RunServers(ctx, servers, i, acc) == RunServers(ctx, servers, n, ServersDone(ctx, servers, i, n, acc))
    ensures n == |servers| ==> RunServers(ctx, servers, i, acc) == ServersDone(ctx, servers, i, n, acc)
    ensures n < |servers| && !ctx.world.connected(n) ==>
      RunServers(ctx, servers, i, acc) == ServersDone(ctx, servers, i, n, acc).(result := Failure(ConnectFailed(servers[n].alias)))
    ensures n < |servers| && ctx.world.connected(n) && !ServerOk(ctx, n, servers[n]) ==>
      RunServers(ctx, servers, i, acc) == RunTables(ctx, n, servers[n], 0, ServersDone(ctx, servers, i, n, acc))
    decreases n - i
  {
    var done := ServersDone(ctx, servers, i, n, acc);
    if i < n {
      ServersDoneStep(ctx, servers, i, n, acc);
      RunServersStep(ctx, servers, i, acc);
      var next := RunTables(ctx, i, servers[i], 0, acc);
      RunServersUpToFirstFailure(ctx, servers, i + 1, n, next);
    } else {
      assert servers[..n][i..] == [];
      assert acc.plans + [] == acc.plans && acc.writes + [] == acc.writes;
      assert done == acc;
    }
    if n < |servers| {
      if ctx.world.connected(n) {
        RunServersStep(ctx, servers, n, done);
      } else {
        RunServersStop(ctx, servers, n, done);
      }
    } else {
      RunServersStop(ctx, servers, n, done);
    }
  }

  /** Server `i`, going through, takes `acc` one server further. */
  lemma ServersDoneStep(ctx: Context, servers: seq<SqlServerEntry>, i: nat, n: nat, acc: Run)
    requires i < n <= |servers| && acc.result.Success? && ServerOk(ctx, i, servers[i])
    ensures RunTables(ctx, i, servers[i], 0, acc).result.Success?
    ensures ServersDone(ctx, servers, i + 1, n, RunTables(ctx, i, servers[i], 0, acc)) == ServersDone(ctx, servers, i, n, acc)
  {
    var next := RunTables(ctx, i, servers[i], 0, acc);
    var here := PlansFrom(ctx, i, servers[i], 0);
    assert next.result.Success? && acc.result.value == () && next.result.value == ();
    assert next == Run(acc.plans + here, acc.writes + (if ctx.dryRun then [] else WritesOf(here)), acc.tables + |servers[i].tables|, acc.result);
    var front := servers[..n];
    assert front[i] == servers[i];
    var rest := AllPlans(ctx, front, i + 1);
    assert AllPlans(ctx, front, i) == here + rest;
    assert TotalTables(front, i) == |servers[i].tables| + TotalTables(front, i + 1);
    AppendAssoc(acc.plans, here, rest);
    if !ctx.dryRun {
      WritesOfConcat(here, rest);
      AppendAssoc(acc.writes, WritesOf(here), WritesOf(rest));
    }
  }

  /** A table fails on its host lookup only when the host variable of its
      server is unset. */
  lemma TableStepHostFound(ctx: Context, i: nat, srv: SqlServerEntry, t: TableEntry, acc: Run)
    requires acc.result.Success? && Getenv(ctx.world.env, ctx.hostVarOf(srv.alias)) != ""
    ensures var r := TableStep(ctx, i, srv, t, acc); !(r.result.Failure? && r.result.error.HostMissing?)
  {
  }

  lemma {:induction false} RunTablesHostFound(ctx: Context, i: nat, srv: SqlServerEntry, j: nat, acc: Run)
    requires j <= |srv.tables| && acc.result.Success? && Getenv(ctx.world.env, ctx.hostVarOf(srv.alias)) != ""
    ensures var r := RunTables(ctx, i, srv, j, acc); !(r.result.Failure? && r.result.error.HostMissing?)
    decreases |srv.tables| - j
  {
    if j < |srv.tables| {
      TableStepHostFound(ctx, i, srv, srv.tables[j], acc);
      var next := TableStep(ctx, i, srv, srv.tables[j], acc);
      if next.result.Success? {
        RunTablesHostFound(ctx, i, srv, j + 1, next);
      }
    }
  }

  /** No server from `i` on fails on its host lookup when every one of their
      host variables is set. */
  lemma {:induction false} RunServersHostFound(ctx: Context, servers: seq<SqlServerEntry>, i: nat, acc: Run)
    requires i <= |servers| && acc.result.Success?
    requires forall k :: i <= k < |servers| ==> Getenv(ctx.world.env, ctx.hostVarOf(servers[k].alias)) != ""
    ensures var r := RunServers(ctx, servers, i, acc); !(r.result.Failure? && r.result.error.HostMissing?)
    decreases |servers| - i, 1
  {
    if i < |servers| && ctx.world.connected(i) {
      ConnectedHostFound(ctx, servers, i, acc);
    } else {
      RunServersStop(ctx, servers, i, acc);
    }
  }

  lemma {:induction false} ConnectedHostFound(ctx: Context, servers: seq<SqlServerEntry>, i: nat, acc: Run)
    requires i < |servers| && acc.result.Success? && ctx.world.connected(i)
    requires forall k :: i <= k < |servers| ==> Getenv(ctx.world.env, ctx.hostVarOf(servers[k].alias)) != ""
    ensures var r := RunServers(ctx, servers, i, acc); !(r.result.Failure? && r.result.error.HostMissing?)
    decreases |servers| - i, 0
  {
    RunTablesHostFound(ctx, i, servers[i], 0, acc);
    RunServersStep(ctx, servers, i, acc);
    var next := RunTables(ctx, i, servers[i], 0, acc);
    if next.result.Success? {
      RunServersHostFound(ctx, servers, i + 1, next);
    }
  }

  const NothingYet: Run := Run([], [], 0, Success(()))

  /** `runFromConfig`: load, check the configuration, check the environment,
      then plan (and unless dry, render) every table. `loaded` is what reading
      and parsing ingestion.yaml gave. */
  function RunFromConfig(loaded: Option<IngestionConfig>, world: World, flags: Flags): (r: Run)
    // on success: one plan per table in order, every table counted, three files per plan
    ensures r.result.Success? ==> (
      && loaded.Some?
      && r.plans == AllPlans(ConfigContext(world, flags), loaded.value.sqlServers, 0)
      && r.tables == |r.plans| == TotalTables(loaded.value.sqlServers, 0)
      && r.writes == (if flags.dryRun then [] else WritesOf(r.plans)))
    ensures flags.dryRun ==> r.writes == []
    // the host lookup never fails once the environment check passed
    ensures !(r.result.Failure? && r.result.error.HostMissing?)
  {
    var ctx := ConfigContext(world, flags);
    RunChecked(ctx, loaded)
  }

  /** A configuration run succeeds exactly when both checks pass, every
      server connects, and every table's columns are found and, unless the
      run is dry, its files render. */
  lemma RunFromConfigSucceeds(loaded: Option<IngestionConfig>, world: World, flags: Flags)
    ensures RunFromConfig(loaded, world, flags).result.Success? <==>
      && loaded.Some? && WellFormed(loaded.value) && EnvComplete(loaded.value, world.env)
      && ConfigAllOk(world, flags, loaded.value.sqlServers)
  {
    var ctx := ConfigContext(world, flags);
    var r := RunChecked(ctx, loaded);
    assert RunFromConfig(loaded, world, flags) == r;
    RunCheckedSucceeds(ctx, loaded);
    if loaded.Some? && WellFormed(loaded.value) && EnvComplete(loaded.value, world.env) {
      ConfigServersOkMean(world, flags, loaded.value);
    }
  }

  /** Once both checks pass, every server goes through exactly when every
      server connects and its tables' columns are found and files render. */
  lemma ConfigServersOkMean(world: World, flags: Flags, cfg: IngestionConfig)
    requires WellFormed(cfg) && EnvComplete(cfg, world.env)
    ensures AllServersOk(ConfigContext(world, flags), cfg.sqlServers) <==> ConfigAllOk(world, flags, cfg.sqlServers)
  {
    ValidatedHostsSet(cfg, world.env);
    forall k | 0 <= k < |cfg.sqlServers|
      ensures ServerOk(ConfigContext(world, flags), k, cfg.sqlServers[k]) <==> ConfigServerOk(world, flags, k, cfg.sqlServers[k])
    {
      ConfigServerOkMeans(world, flags, k, cfg.sqlServers[k]);
    }
  }

  /** In configuration mode, table `t` of server `i` goes through when its
      columns, read under its effective schema, are found and, unless the run
      is dry, the three files of its plan render. */
  predicate ConfigTableOk(world: World, flags: Flags, i: nat, srv: SqlServerEntry, t: TableEntry) {
    && ColumnsFound(world.catalog(i, EffectiveSchema(srv, t), t.name))
    && (flags.dryRun ||
        Writable(world.writeOk, PlanTable(LoadSettings(world.env), flags.naming, InputsAt(world.env, world.catalog, i, srv, t))))
  }

  predicate ConfigServerOk(world: World, flags: Flags, i: nat, srv: SqlServerEntry) {
    world.connected(i) && forall k :: 0 <= k < |srv.tables| ==> ConfigTableOk(world, flags, i, srv, srv.tables[k])
  }

  /** In configuration mode, every server connects and every table goes through. */
  predicate ConfigAllOk(world: World, flags: Flags, servers: seq<SqlServerEntry>) {
    forall k :: 0 <= k < |servers| ==> ConfigServerOk(world, flags, k, servers[k])
  }

  /** With its host variable set, a server goes through in configuration
      mode exactly when it connects and its tables' columns are found and
      files render. */
  lemma ConfigServerOkMeans(world: World, flags: Flags, i: nat, srv: SqlServerEntry)
    requires Getenv(world.env, HostVar(srv.alias)) != ""
    ensures ServerOk(ConfigContext(world, flags), i, srv) <==> ConfigServerOk(world, flags, i, srv)
  {
    forall n | 0 <= n < |srv.tables|
      ensures TableOk(ConfigContext(world, flags), i, srv, srv.tables[n]) <==> ConfigTableOk(world, flags, i, srv, srv.tables[n])
    {
      ConfigPlanAt(world, flags, i, srv, srv.tables[n]);
    }
  }

  /** The two checks come first: a load failure, every configuration
      problem, or the missing variables are reported, and nothing is planned,
      counted or written before both checks pass. */
  lemma RunFromConfigChecksFirst(loaded: Option<IngestionConfig>, world: World, flags: Flags)
    ensures var r := RunFromConfig(loaded, world, flags);
      && (loaded.None? ==> r.result == Failure(LoadFailed))
      && (loaded.Some? && !WellFormed(loaded.value) ==>
            r.result == Failure(InvalidConfig(ReferenceProblems(loaded.value))))
      && (loaded.Some? && WellFormed(loaded.value) && !EnvComplete(loaded.value, world.env) ==>
            r.result.Failure? && r.result.error.MissingEnvVars? && r.result.error.missing != [])
      && (r.plans != [] || r.writes != [] || r.tables != 0 ==>
            loaded.Some? && WellFormed(loaded.value) && EnvComplete(loaded.value, world.env))
  {
  }

  /** The checks, then the servers, with the lookups of `ctx`. */
  function RunChecked(ctx: Context, loaded: Option<IngestionConfig>): (r: Run)
    ensures loaded.None? ==> r.result == Failure(LoadFailed)
    ensures loaded.Some? && !WellFormed(loaded.value) ==>
      r.result == Failure(InvalidConfig(ReferenceProblems(loaded.value)))
    ensures loaded.Some? && WellFormed(loaded.value) && !EnvComplete(loaded.value, ctx.world.env) ==>
      r.result.Failure? && r.result.error.MissingEnvVars? && r.result.error.missing != []
    ensures r.plans != [] || r.writes != [] || r.tables != 0 ==>
      loaded.Some? && WellFormed(loaded.value) && EnvComplete(loaded.value, ctx.world.env)
    ensures r.result.Success? ==> (
      && loaded.Some?
      && r.plans == AllPlans(ctx, loaded.value.sqlServers, 0)
      && r.tables == |r.plans| == TotalTables(loaded.value.sqlServers, 0)
      && r.writes == (if ctx.dryRun then [] else WritesOf(r.plans)))
    ensures ctx.dryRun ==> r.writes == []
    ensures ctx.hostVarOf == HostVar ==> !(r.result.Failure? && r.result.error.HostMissing?)
  {
    if loaded.None? then NothingYet.(result := Failure(LoadFailed))
    else RunValidating(ctx, loaded.value)
  }

  /** The checked run succeeds exactly when the configuration was loaded,
      both checks pass, and every server goes through. */
  lemma RunCheckedSucceeds(ctx: Context, loaded: Option<IngestionConfig>)
    ensures RunChecked(ctx, loaded).result.Success? <==>
      && loaded.Some? && WellFormed(loaded.value) && EnvComplete(loaded.value, ctx.world.env)
      && AllServersOk(ctx, loaded.value.sqlServers)
  {
  }

  /** Every server goes through. */
  predicate AllServersOk(ctx: Context, servers: seq<SqlServerEntry>) {
    forall k :: 0 <= k < |servers| ==> ServerOk(ctx, k, servers[k])
  }

  /** The configuration check, then the rest. */
  function RunValidating(ctx: Context, cfg: IngestionConfig): (r: Run)
    ensures !WellFormed(cfg) ==> r.result == Failure(InvalidConfig(ReferenceProblems(cfg)))
    ensures WellFormed(cfg) ==> r == RunEnvChecked(ctx, cfg)
  {
    var valid := ValidateIngestionConfig(cfg);
    if valid.Failure? then NothingYet.(result := Failure(InvalidConfig(valid.error)))
    else RunEnvChecked(ctx, cfg)
  }

  /** The environment check, then the servers. */
  function RunEnvChecked(ctx: Context, cfg: IngestionConfig): (r: Run)
    ensures !EnvComplete(cfg, ctx.world.env) ==>
      r.result.Failure? && r.result.error.MissingEnvVars? && r.result.error.missing != []
    ensures r.plans != [] || r.writes != [] || r.tables != 0 ==> EnvComplete(cfg, ctx.world.env)
    ensures r.result.Success? ==> (
      && r.plans == AllPlans(ctx, cfg.sqlServers, 0)
      && r.tables == |r.plans| == TotalTables(cfg.sqlServers, 0)
      && r.writes == (if ctx.dryRun then [] else WritesOf(r.plans)))
    ensures ctx.dryRun ==> r.writes == []
    ensures WellFormed(cfg) && ctx.hostVarOf == HostVar ==>
      !(r.result.Failure? && r.result.error.HostMissing?)
    ensures r.result.Success? <==>
      EnvComplete(cfg, ctx.world.env) && forall k :: 0 <= k < |cfg.sqlServers| ==> ServerOk(ctx, k, cfg.sqlServers[k])
  {
    var envOk := ValidateEnvForAliases(cfg, ctx.world.env);
    if envOk.Failure? then NothingYet.(result := Failure(MissingEnvVars(envOk.error)))
    else
      ValidatedHostsFound(ctx, cfg);
      RunServers(ctx, cfg.sqlServers, 0, NothingYet)
  }

  function ConfigContext(world: World, flags: Flags): Context {
    Context(world, flags.dryRun, flags.naming, EffectiveSchema, HostVar, LoadSettings, InputsAt, PlanTable)
  }

  /** In configuration mode a table's plan is built from its inputs. */
  lemma ConfigPlanAt(world: World, flags: Flags, i: nat, srv: SqlServerEntry, t: TableEntry)
    ensures PlanAt(ConfigContext(world, flags), i, srv, t)
      == PlanTable(LoadSettings(world.env), flags.naming, InputsAt(world.env, world.catalog, i, srv, t))
  {
  }

  /** Once both checks pass, no host lookup fails. */
  lemma ValidatedHostsFound(ctx: Context, cfg: IngestionConfig)
    requires EnvComplete(cfg, ctx.world.env)
    ensures WellFormed(cfg) && ctx.hostVarOf == HostVar ==>
      var r := RunServers(ctx, cfg.sqlServers, 0, NothingYet); !(r.result.Failure? && r.result.error.HostMissing?)
  {
    if WellFormed(cfg) && ctx.hostVarOf == HostVar {
      ValidatedHostsSet(cfg, ctx.world.env);
      RunServersHostFound(ctx, cfg.sqlServers, 0, NothingYet);
    }
  }

  /** After both checks, every server's host variable is set. */
  lemma ValidatedHostsSet(cfg: IngestionConfig, env: Environment)
    requires EnvComplete(cfg, env)
    ensures WellFormed(cfg) ==> forall k :: 0 <= k < |cfg.sqlServers| ==> Getenv(env, HostVar(cfg.sqlServers[k].alias)) != ""
  {
    forall k | WellFormed(cfg) && 0 <= k < |cfg.sqlServers|
      ensures Getenv(env, HostVar(cfg.sqlServers[k].alias)) != ""
    {
      assert ServerComplete(cfg.sqlServers[k]);
      EnvCompleteHasHost(cfg, env, k);
    }
  }

  // ---------------------------------------------------------------------------
  // The dry run.
  // ---------------------------------------------------------------------------

  function AllWritable(path: string): bool {
    true
  }

  /** The context of a dry run, and of a real run in which every write succeeds. */
  function Dry(ctx: Context): Context {
    ctx.(dryRun := true)
  }

  function Wet(ctx: Context): Context {
    ctx.(world := ctx.world.(writeOk := AllWritable), dryRun := false)
  }

  lemma TableStepDryIsWet(ctx: Context, i: nat, srv: SqlServerEntry, t: TableEntry, dry: Run, wet: Run)
    requires wet.result.Success? && dry == wet.(writes := [])
    ensures TableStep(Dry(ctx), i, srv, t, dry) == TableStep(Wet(ctx), i, srv, t, wet).(writes := [])
  {
    assert wet.result.value == ();
    var p := PlanAt(ctx, i, srv, t);
    assert PlanAt(Dry(ctx), i, srv, t) == p == PlanAt(Wet(ctx), i, srv, t);
    assert Writable(AllWritable, p);
  }

  lemma {:induction false} RunTablesDryIsWet(ctx: Context, i: nat, srv: SqlServerEntry, j: nat, dry: Run, wet: Run)
    requires j <= |srv.tables| && wet.result.Success? && dry == wet.(writes := [])
    ensures RunTables(Dry(ctx), i, srv, j, dry) == RunTables(Wet(ctx), i, srv, j, wet).(writes := [])
    decreases |srv.tables| - j
  {
    if j < |srv.tables| {
      TableStepDryIsWet(ctx, i, srv, srv.tables[j], dry, wet);
      var wet' := TableStep(Wet(ctx), i, srv, srv.tables[j], wet);
      if wet'.result.Success? {
        RunTablesDryIsWet(ctx, i, srv, j + 1, TableStep(Dry(ctx), i, srv, srv.tables[j], dry), wet');
      }
    }
  }

  lemma {:induction false} RunServersDryIsWet(ctx: Context, servers: seq<SqlServerEntry>, i: nat, dry: Run, wet: Run)
    requires i <= |servers| && wet.result.Success? && dry == wet.(writes := [])
    ensures RunServers(Dry(ctx), servers, i, dry) == RunServers(Wet(ctx), servers, i, wet).(writes := [])
    decreases |servers| - i, 1
  {
    if i < |servers| && ctx.world.connected(i) {
      ConnectedDryIsWet(ctx, servers, i, dry, wet);
    } else {
      RunServersStop(Dry(ctx), servers, i, dry);
      RunServersStop(Wet(ctx), servers, i, wet);
    }
  }

  lemma {:induction false} ConnectedDryIsWet(ctx: Context, servers: seq<SqlServerEntry>, i: nat, dry: Run, wet: Run)
    requires i < |servers| && wet.result.Success? && dry == wet.(writes := []) && ctx.world.connected(i)
    ensures RunServers(Dry(ctx), servers, i, dry) == RunServers(Wet(ctx), servers, i, wet).(writes := [])
    decreases |servers| - i, 0
  {
    RunTablesDryIsWet(ctx, i, servers[i], 0, dry, wet);
    var dry' := RunTables(Dry(ctx), i, servers[i], 0, dry);
    var wet' := RunTables(Wet(ctx), i, servers[i], 0, wet);
    RunServersStep(Dry(ctx), servers, i, dry);
    RunServersStep(Wet(ctx), servers, i, wet);
    if wet'.result.Success? {
      RunServersDryIsWet(ctx, servers, i + 1, dry', wet');
    }
  }

  /** `RunServers` past the last server, or at one that cannot be reached. */
  lemma RunServersStop(ctx: Context, servers: seq<SqlServerEntry>, i: nat, acc: Run)
    requires i <= |servers| && acc.result.Success?
    requires i == |servers| || !ctx.world.connected(i)
    ensures RunServers(ctx, servers, i, acc) ==
      if i == |servers| then acc else acc.(result := Failure(ConnectFailed(servers[i].alias)))
  {
  }

  /** One server of `RunServers`, once it is connected. */
  lemma RunServersStep(ctx: Context, servers: seq<SqlServerEntry>, i: nat, acc: Run)
    requires i < |servers| && acc.result.Success? && ctx.world.connected(i)
    ensures var next := RunTables(ctx, i, servers[i], 0, acc);
      RunServers(ctx, servers, i, acc) == if next.result.Failure? then next else RunServers(ctx, servers, i + 1, next)
  {
  }

  lemma RunCheckedDryIsWet(ctx: Context, loaded: Option<IngestionConfig>)
    ensures RunChecked(Dry(ctx), loaded) == RunChecked(Wet(ctx), loaded).(writes := [])
  {
    if loaded.Some? && WellFormed(loaded.value) && EnvComplete(loaded.value, ctx.world.env) {
      RunServersDryIsWet(ctx, loaded.value.sqlServers, 0, NothingYet, NothingYet);
    }
  }

  /** A dry run is the real run with every write succeeding, minus the
      writes: the same plans, the same count, the same outcome. */
  lemma DryRunIsWetRunWithoutWrites(loaded: Option<IngestionConfig>, world: World, flags: Flags)
    ensures RunFromConfig(loaded, world, flags.(dryRun := true))
      == RunFromConfig(loaded, world.(writeOk := AllWritable), flags.(dryRun := false)).(writes := [])
  {
    var ctx := ConfigContext(world, flags);
    assert Dry(ctx) == ConfigContext(world, flags.(dryRun := true));
    assert Wet(ctx) == ConfigContext(world.(writeOk := AllWritable), flags.(dryRun := false));
    RunCheckedDryIsWet(ctx, loaded);
  }

  // ---------------------------------------------------------------------------
  // Single-table mode.
  // ---------------------------------------------------------------------------

  datatype SingleRun = SingleRun(plan: Option<TablePlan>, writes: seq<Write>, result: Result<(), CliError>)

  /** The variables the single-table connection needs, in the order it reads them. */
  const SingleConnVars: seq<string> := ["SQLSERVER_HOST", "SQLSERVER_USER", "SQLSERVER_PASSWORD", "SQLSERVER_DATABASE"]

  /** Every variable the single-table connection needs is set. */
  predicate SingleVarsSet(env: Environment) {
    && Getenv(env, "SQLSERVER_HOST") != "" && Getenv(env, "SQLSERVER_USER") != ""
    && Getenv(env, "SQLSERVER_PASSWORD") != "" && Getenv(env, "SQLSERVER_DATABASE") != ""
  }

  /** The connection finds no unset variable exactly when all four are set. */
  lemma SingleVarsChecked(env: Environment)
    ensures FirstUnset(env, SingleConnVars).None? <==> SingleVarsSet(env)
  {
    var names := SingleConnVars;
    assert |names| == 4;
    assert names[0] == "SQLSERVER_HOST" && names[1] == "SQLSERVER_USER";
    assert names[2] == "SQLSERVER_PASSWORD" && names[3] == "SQLSERVER_DATABASE";
  }

  /** The first of `names` that is unset or empty. */
  function FirstUnset(env: Environment, names: seq<string>): (r: Option<string>)
    ensures r.None? <==> forall k :: 0 <= k < |names| ==> Getenv(env, names[k]) != ""
    ensures r.Some? ==> r.value in names && Getenv(env, r.value) == ""
    // it is the first: every name before it is set
    ensures r.Some? ==> exists k :: 0 <= k < |names| && names[k] == r.value && forall n :: 0 <= n < k ==> Getenv(env, names[n]) != ""
  {
    if names == [] then None
    else if Getenv(env, names[0]) == "" then Some(names[0])
    else FirstUnset(env, names[1..])
  }

  /** `runSingleTable`: connect with the `SQLSERVER_*` variables, read the
      columns of `schema.table` (server 0 of the world), and plan and render
      that table as configuration mode does, with the schema as given. */
  function RunSingleTable(world: World, schema: string, table: string, flags: Flags): (r: SingleRun)
    ensures r.plan.Some? <==>
      SingleVarsSet(world.env) && world.connected(0) && ColumnsFound(world.catalog(0, schema, table))
    ensures r.plan.Some? ==> r.plan == SinglePlan(world, schema, table, flags)
    // success exactly when a plan was built and, unless the run is dry, its three files render
    ensures r.result.Success? <==> r.plan.Some? && (flags.dryRun || Writable(world.writeOk, r.plan.value))
    ensures r.result.Success? ==> r.writes == (if flags.dryRun then [] else PlanWrites(r.plan.value))
    ensures r.plan.None? || flags.dryRun ==> r.writes == []
    // the second host lookup cannot fail: the connection already required it
    ensures !(r.result.Failure? && r.result.error.HostMissing?)
  {
    var unset := FirstUnset(world.env, SingleConnVars);
    SingleVarsChecked(world.env);
    if unset.Some? then SingleRun(None, [], Failure(ConnectEnvMissing(unset.value)))
    else if !world.connected(0) then SingleRun(None, [], Failure(ConnectFailed("")))
    else
      var plan := SinglePlan(world, schema, table, flags);
      if plan.None? then SingleRun(None, [], Failure(ColumnsFailed("", schema, table)))
      else
        RenderSingle(world, schema, table, flags, plan.value)
  }

  /** How a single-table run fails: the connection reports the first unset
      variable, then a connection that does not open; then missing columns;
      a failed render keeps the plan, with the files attempted and the
      render's error. */
  lemma SingleTableFailures(world: World, schema: string, table: string, flags: Flags)
    ensures var r, unset := RunSingleTable(world, schema, table, flags), FirstUnset(world.env, SingleConnVars);
      && (unset.Some? ==> r == SingleRun(None, [], Failure(ConnectEnvMissing(unset.value))))
      && (unset.None? && !world.connected(0) ==> r == SingleRun(None, [], Failure(ConnectFailed(""))))
      && (unset.None? && world.connected(0) && !ColumnsFound(world.catalog(0, schema, table)) ==>
            r == SingleRun(None, [], Failure(ColumnsFailed("", schema, table))))
      && (r.plan.Some? && !flags.dryRun ==>
            var out := Render(r.plan.value, world.writeOk, schema, table);
            r.writes == out.writes && (out.error.Some? ==> r.result == Failure(out.error.value)))
  {
  }

  /** The plan of the single table once connected: none when the columns are
      not found; otherwise built from `SQLSERVER_HOST`, `SQLSERVER_DATABASE`,
      the port and secret variables or their defaults, the schema and table
      as given, and the columns read. */
  function SinglePlan(world: World, schema: string, table: string, flags: Flags): (r: Option<TablePlan>)
    ensures r.Some? <==> ColumnsFound(world.catalog(0, schema, table))
    ensures r.Some? ==>
      var p, db := r.value, Getenv(world.env, "SQLSERVER_DATABASE");
      && p.source.databaseHost == Getenv(world.env, "SQLSERVER_HOST")
      && p.source.databaseNameUpper == ToUpper(db)
      && p.source.tableIncludeList == schema + "." + table
      && FromEnv(world.env, "SQLSERVER_PORT", DefaultPort, p.source.databasePort)
      && FromEnv(world.env, "SQLSERVER_SECRET_NAME", DefaultSingleSecret, p.source.databaseSecret)
      && p.source.name == SourceName(db, schema, flags.naming)
      && p.sink.topicName == TopicName(TopicPrefix(db, schema, flags.naming), db, schema, table)
      && p.job.businessColumnsDDL == BuildBusinessColumnsDDL(world.catalog(0, schema, table).value)
      && p.sourcePath == SourcePath(flags.naming.outDir, db, table)
      && p.sinkPath == SinkPath(flags.naming.outDir, db, table)
      && p.jobPath == JobPath(flags.naming.outDir, db, table)
    // every other name and setting follows the same formulas as configuration mode
    ensures r.Some? ==>
      r.value == PlanTable(LoadSettings(world.env), flags.naming,
                           SingleInputs(world.env, schema, table, world.catalog(0, schema, table).value))
  {
    var env := world.env;
    var cols := world.catalog(0, schema, table);
    if !ColumnsFound(cols) then None
    else Some(PlanTable(LoadSettings(env), flags.naming, SingleInputs(env, schema, table, cols.value)))
  }

  /** The inputs of the single table: the database, host, port and secret
      of the connection variables, the schema and table as given, and the
      columns read. */
  function SingleInputs(env: Environment, schema: string, table: string, cols: seq<ColumnInfo>): (r: TableInputs)
    ensures r.db == Getenv(env, "SQLSERVER_DATABASE") && r.schema == schema && r.table == table
    ensures r.host == Getenv(env, "SQLSERVER_HOST")
    ensures FromEnv(env, "SQLSERVER_PORT", DefaultPort, r.port)
    ensures FromEnv(env, "SQLSERVER_SECRET_NAME", DefaultSingleSecret, r.secret)
    ensures r.columns == cols
  {
    TableInputs(
      Getenv(env, "SQLSERVER_DATABASE"), schema, table, Getenv(env, "SQLSERVER_HOST"),
      GetEnvOrDefault(env, "SQLSERVER_PORT", DefaultPort),
      GetEnvOrDefault(env, "SQLSERVER_SECRET_NAME", DefaultSingleSecret),
      cols)
  }

  /** `runSingleTable` once its plan is built: look the host up again, and
      render unless this is a dry run. */
  function RenderSingle(world: World, schema: string, table: string, flags: Flags, p: TablePlan): (r: SingleRun)
    requires Getenv(world.env, "SQLSERVER_HOST") != ""
    ensures r.plan == Some(p)
    ensures r.result.Success? <==> flags.dryRun || Writable(world.writeOk, p)
    ensures flags.dryRun ==> r.writes == []
    ensures !flags.dryRun ==>
      var out := Render(p, world.writeOk, schema, table);
      r.writes == out.writes && (out.error.Some? ==> r.result == Failure(out.error.value))
    ensures !(r.result.Failure? && r.result.error.HostMissing?)
  {
    var host := RequireEnv(world.env, "SQLSERVER_HOST");
    if host.Failure? then SingleRun(None, [], Failure(HostMissing("SQLSERVER_HOST")))
    else if flags.dryRun then SingleRun(Some(p), [], Success(()))
    else
      var out := Render(p, world.writeOk, schema, table);
      SingleRun(Some(p), out.writes, if out.error.None? then Success(()) else Failure(out.error.value))
  }

  /** In single-table mode too, the dry run is the run with every write
      succeeding, minus the writes. */
  lemma SingleDryRunIsWetRunWithoutWrites(world: World, schema: string, table: string, flags: Flags)
    ensures RunSingleTable(world, schema, table, flags.(dryRun := true))
      == RunSingleTable(world.(writeOk := AllWritable), schema, table, flags.(dryRun := false)).(writes := [])
  {
  }

  // ---------------------------------------------------------------------------
  // The names and schema as main.go builds them.
  // ---------------------------------------------------------------------------

  /** main.go upper-cases the alias without trimming it. */
  function HostVarAsWritten(alias: string): (name: string)
    ensures Trim(alias) == alias ==> name == HostVar(alias)
    ensures |alias| > 0 ==> |name| > 10 && name[10] == UpperChar(alias[0])
  {
    "SQLSERVER_" + ToUpper(alias) + "_HOST"
  }

  /** The two agree on an alias without surrounding white space. */
  lemma HostVarAsWrittenAgreesWhenTrimmed(alias: string)
    requires Trim(alias) == alias
    ensures HostVarAsWritten(alias) == HostVar(alias)
  {
  }

  /** An alias with leading white space, such as " a", passes the
      environment check once its trimmed variables (`SQLSERVER_A_HOST`, ...)
      are set, yet main.go then looks up the untrimmed name
      (`SQLSERVER_ A_HOST`), which is unset. */
  lemma PaddedAliasLosesHost(alias: string)
    requires |alias| > 0 && IsSpace(alias[0]) && !IsBlank(alias)
    ensures ValidateEnvForAliases(OneServer(alias), TrimmedVarsSet(alias)).Success?
    ensures RequireEnv(TrimmedVarsSet(alias), HostVarAsWritten(alias)).Failure?
  {
    TrimmedVarsPass(alias);
    UntrimmedHostUnset(alias);
  }

  /** One server with the given alias and one table. */
  function OneServer(alias: string): IngestionConfig {
    IngestionConfig([SqlServerEntry(alias, "db", "", "secret", [TableEntry("t", "")])])
  }

  /** An environment in which exactly the variables the check asks of the
      alias are set. */
  function TrimmedVarsSet(alias: string): Environment {
    map n | n in AliasEnvVars(alias) :: "set"
  }

  lemma TrimmedVarsPass(alias: string)
    ensures ValidateEnvForAliases(OneServer(alias), TrimmedVarsSet(alias)).Success?
  {
    var cfg, env := OneServer(alias), TrimmedVarsSet(alias);
    forall i, name | 0 <= i < |cfg.sqlServers| && !IsBlank(cfg.sqlServers[i].alias) && name in AliasEnvVars(cfg.sqlServers[i].alias)
      ensures Getenv(env, name) != ""
    {
    }
    assert EnvComplete(cfg, env);
  }

  lemma UntrimmedHostUnset(alias: string)
    requires |alias| > 0 && IsSpace(alias[0]) && !IsBlank(alias)
    ensures RequireEnv(TrimmedVarsSet(alias), HostVarAsWritten(alias)).Failure?
  {
    BlankIffTrimsToEmpty(alias);
    var wrong := HostVarAsWritten(alias);
    AsWrittenAfterPrefix(alias);
    AliasEnvVarAfterPrefix(alias, "_HOST");
    AliasEnvVarAfterPrefix(alias, "_USER");
    AliasEnvVarAfterPrefix(alias, "_PASSWORD");
    DiffersAt(wrong, AliasEnvVar(alias, "_HOST"), AliasEnvVar(alias, "_USER"), AliasEnvVar(alias, "_PASSWORD"), 10);
    assert wrong !in TrimmedVarsSet(alias);
  }

  lemma DiffersAt(w: string, a: string, b: string, c: string, at: nat)
    requires at < |w| && at < |a| && at < |b| && at < |c|
    requires a[at] != w[at] && b[at] != w[at] && c[at] != w[at]
    ensures w !in [a, b, c]
  {
  }

  /** The character after `SQLSERVER_` in the name main.go looks up is the
      upper-cased first character of the untrimmed alias. */
  lemma AsWrittenAfterPrefix(alias: string)
    requires |alias| > 0
    ensures |HostVarAsWritten(alias)| > 10 && HostVarAsWritten(alias)[10] == UpperChar(alias[0])
  {
    var u := ToUpper(alias);
    var pre: string := "SQLSERVER_";
    assert |pre| == 10;
    assert (pre + u)[10] == u[0];
    assert (pre + u + "_HOST")[10] == (pre + u)[10];
  }

  /** The character after `SQLSERVER_` in a validated variable name is the
      upper-cased first character of the trimmed alias. */
  lemma AliasEnvVarAfterPrefix(alias: string, suffix: string)
    requires Trim(alias) != []
    ensures |AliasEnvVar(alias, suffix)| > 10
    ensures AliasEnvVar(alias, suffix)[10] == UpperChar(Trim(alias)[0]) && !IsSpace(AliasEnvVar(alias, suffix)[10])
  {
    var tr := Trim(alias);
    var u := ToUpper(tr);
    var pre: string := "SQLSERVER_";
    assert |pre| == 10;
    assert !IsSpace(tr[0]);
    assert u[0] == UpperChar(tr[0]);
    assert (pre + u)[10] == u[0];
    assert (pre + u + suffix)[10] == (pre + u)[10];
  }

  /** After the environment check, the host lookup with the corrected name
      succeeds for every non-blank alias. */
  lemma ValidatedHostFound(cfg: IngestionConfig, env: Environment, i: nat)
    requires ValidateEnvForAliases(cfg, env).Success?
    requires i < |cfg.sqlServers| && !IsBlank(cfg.sqlServers[i].alias)
    ensures RequireEnv(env, HostVar(cfg.sqlServers[i].alias)).Success?
  {
    EnvCompleteHasHost(cfg, env, i);
  }

  /** main.go takes the table's schema untrimmed when it is not blank, and
      otherwise the server's schema as written, with no `dbo` fallback. */
  function EffectiveSchemaAsWritten(srv: SqlServerEntry, t: TableEntry): (r: string)
    ensures !IsBlank(t.schema) ==> r == t.schema
    ensures IsBlank(t.schema) ==> r == srv.schema
    ensures !IsBlank(r) && Trim(r) == r ==> r == EffectiveSchema(srv, t)
  {
    if !IsBlank(t.schema) then t.schema else srv.schema
  }

  /** The two agree whenever the schema main.go picks is already trimmed and
      not blank. */
  lemma EffectiveSchemaAsWrittenAgrees(srv: SqlServerEntry, t: TableEntry)
    requires var s := EffectiveSchemaAsWritten(srv, t); !IsBlank(s) && Trim(s) == s
    ensures EffectiveSchemaAsWritten(srv, t) == EffectiveSchema(srv, t)
  {
  }

  /** main.go builds the port variable from the untrimmed alias too. */
  function PortVarAsWritten(alias: string): string {
    "SQLSERVER_" + ToUpper(alias) + "_PORT"
  }

  /** The inputs of a table as main.go reads them (lines 254-300): the
      schema as written, and the host and port variables of the untrimmed
      alias. */
  function InputsAtAsWritten(env: Environment, catalog: (nat, string, string) -> Option<seq<ColumnInfo>>,
                             i: nat, srv: SqlServerEntry, t: TableEntry): (r: TableInputs)
    ensures r.db == srv.database && r.schema == EffectiveSchemaAsWritten(srv, t) && r.table == t.name
    ensures r.host == Getenv(env, HostVarAsWritten(srv.alias))
    ensures FromEnv(env, PortVarAsWritten(srv.alias), DefaultPort, r.port)
    ensures r.secret == srv.secretName
    ensures catalog(i, r.schema, t.name).Some? ==> r.columns == catalog(i, r.schema, t.name).value
  {
    var schema := EffectiveSchemaAsWritten(srv, t);
    TableInputs(
      srv.database, schema, t.name,
      Getenv(env, HostVarAsWritten(srv.alias)),
      GetEnvOrDefault(env, PortVarAsWritten(srv.alias), DefaultPort),
      srv.secretName,
      ColumnsOrNone(catalog(i, schema, t.name)))
  }

  function ConfigContextAsWritten(world: World, flags: Flags): Context {
    Context(world, flags.dryRun, flags.naming, EffectiveSchemaAsWritten, HostVarAsWritten, LoadSettings, InputsAtAsWritten, PlanTable)
  }

  /** `runFromConfig` with the schema and the variable names exactly as
      main.go builds them. */
  function RunFromConfigAsWritten(loaded: Option<IngestionConfig>, world: World, flags: Flags): (r: Run)
    ensures r.result.Success? <==>
      && loaded.Some? && WellFormed(loaded.value) && EnvComplete(loaded.value, world.env)
      && AllServersOk(ConfigContextAsWritten(world, flags), loaded.value.sqlServers)
    ensures r.result.Success? ==> (
      && loaded.Some?
      && r.plans == AllPlans(ConfigContextAsWritten(world, flags), loaded.value.sqlServers, 0)
      && r.tables == |r.plans| == TotalTables(loaded.value.sqlServers, 0)
      && r.writes == (if flags.dryRun then [] else WritesOf(r.plans)))
    ensures flags.dryRun ==> r.writes == []
  {
    var ctx := ConfigContextAsWritten(world, flags);
    RunCheckedSucceeds(ctx, loaded);
    RunChecked(ctx, loaded)
  }

  /** The configuration is written the way main.go reads it: every alias
      is trimmed, and the schema main.go picks for every table is trimmed
      and not blank. */
  predicate WrittenTrimmed(cfg: IngestionConfig) {
    forall k :: 0 <= k < |cfg.sqlServers| ==> ServerWrittenTrimmed(cfg.sqlServers[k])
  }

  predicate ServerWrittenTrimmed(srv: SqlServerEntry) {
    && Trim(srv.alias) == srv.alias
    && forall n :: 0 <= n < |srv.tables| ==> SchemaWrittenTrimmed(srv, srv.tables[n])
  }

  predicate SchemaWrittenTrimmed(srv: SqlServerEntry, t: TableEntry) {
    var s := EffectiveSchemaAsWritten(srv, t); !IsBlank(s) && Trim(s) == s
  }

  /** On such a configuration main.go's run and the corrected run are the
      same run: the same plans, files, count and outcome. */
  lemma RunFromConfigAsWrittenAgrees(loaded: Option<IngestionConfig>, world: World, flags: Flags)
    requires loaded.Some? ==> WrittenTrimmed(loaded.value)
    ensures RunFromConfigAsWritten(loaded, world, flags) == RunFromConfig(loaded, world, flags)
  {
    var written, fixed := ConfigContextAsWritten(world, flags), ConfigContext(world, flags);
    if loaded.Some? {
      var servers := loaded.value.sqlServers;
      forall k | 0 <= k < |servers|
        ensures SameSteps(written, fixed, k, servers[k])
      {
        ServerAsWrittenAgrees(world, flags, k, servers[k]);
      }
    }
    RunCheckedAgree(written, fixed, loaded);
  }

  /** On a server written the way main.go reads it, main.go's steps are
      the corrected ones. */
  lemma ServerAsWrittenAgrees(world: World, flags: Flags, i: nat, srv: SqlServerEntry)
    requires ServerWrittenTrimmed(srv)
    ensures SameSteps(ConfigContextAsWritten(world, flags), ConfigContext(world, flags), i, srv)
  {
    HostVarAsWrittenAgreesWhenTrimmed(srv.alias);
    assert PortVarAsWritten(srv.alias) == PortVar(srv.alias);
    forall n | 0 <= n < |srv.tables|
      ensures SameStep(ConfigContextAsWritten(world, flags), ConfigContext(world, flags), i, srv, srv.tables[n])
    {
      EffectiveSchemaAsWrittenAgrees(srv, srv.tables[n]);
    }
  }

  /** Two contexts over the same world, dry or not alike. */
  ghost predicate SameRun(c1: Context, c2: Context) {
    c1.world == c2.world && c1.dryRun == c2.dryRun
  }

  /** Both contexts read table `t` of server `i` under the same schema and
      host variable, and build the same plan for it. */
  predicate SameStep(c1: Context, c2: Context, i: nat, srv: SqlServerEntry, t: TableEntry) {
    && c1.schemaOf(srv, t) == c2.schemaOf(srv, t)
    && c1.hostVarOf(srv.alias) == c2.hostVarOf(srv.alias)
    && PlanAt(c1, i, srv, t) == PlanAt(c2, i, srv, t)
  }

  predicate SameSteps(c1: Context, c2: Context, i: nat, srv: SqlServerEntry) {
    forall n :: 0 <= n < |srv.tables| ==> SameStep(c1, c2, i, srv, srv.tables[n])
  }

  lemma {:induction false} RunTablesAgree(c1: Context, c2: Context, i: nat, srv: SqlServerEntry, j: nat, acc: Run)
    requires SameRun(c1, c2) && SameSteps(c1, c2, i, srv)
    requires j <= |srv.tables| && acc.result.Success?
    ensures RunTables(c1, i, srv, j, acc) == RunTables(c2, i, srv, j, acc)
    decreases |srv.tables| - j
  {
    if j < |srv.tables| {
      TableStepAgree(c1, c2, i, srv, srv.tables[j], acc);
      var next := TableStep(c1, i, srv, srv.tables[j], acc);
      RunTablesStep(c1, i, srv, j, acc);
      RunTablesStep(c2, i, srv, j, acc);
      if next.result.Success? {
        RunTablesAgree(c1, c2, i, srv, j + 1, next);
      }
    }
  }

  lemma TableStepAgree(c1: Context, c2: Context, i: nat, srv: SqlServerEntry, t: TableEntry, acc: Run)
    requires SameRun(c1, c2) && SameStep(c1, c2, i, srv, t) && acc.result.Success?
    ensures TableStep(c1, i, srv, t, acc) == TableStep(c2, i, srv, t, acc)
  {
  }

  /** One table of `RunTables`. */
  lemma RunTablesStep(ctx: Context, i: nat, srv: SqlServerEntry, j: nat, acc: Run)
    requires j < |srv.tables| && acc.result.Success?
    ensures var next := TableStep(ctx, i, srv, srv.tables[j], acc);
      RunTables(ctx, i, srv, j, acc) == if next.result.Failure? then next else RunTables(ctx, i, srv, j + 1, next)
  {
  }

  lemma {:induction false} RunServersAgree(c1: Context, c2: Context, servers: seq<SqlServerEntry>, i: nat, acc: Run)
    requires SameRun(c1, c2) && SameStepsFrom(c1, c2, servers, i)
    requires i <= |servers| && acc.result.Success?
    ensures RunServers(c1, servers, i, acc) == RunServers(c2, servers, i, acc)
    decreases |servers| - i, 1
  {
    if i < |servers| && c1.world.connected(i) {
      ConnectedAgree(c1, c2, servers, i, acc);
    } else {
      RunServersStop(c1, servers, i, acc);
      RunServersStop(c2, servers, i, acc);
    }
  }

  lemma {:induction false} ConnectedAgree(c1: Context, c2: Context, servers: seq<SqlServerEntry>, i: nat, acc: Run)
    requires SameRun(c1, c2) && SameStepsFrom(c1, c2, servers, i)
    requires i < |servers| && acc.result.Success? && c1.world.connected(i)
    ensures RunServers(c1, servers, i, acc) == RunServers(c2, servers, i, acc)
    decreases |servers| - i, 0
  {
    RunTablesAgree(c1, c2, i, servers[i], 0, acc);
    var next := RunTables(c1, i, servers[i], 0, acc);
    RunServersStep(c1, servers, i, acc);
    RunServersStep(c2, servers, i, acc);
    if next.result.Success? {
      RunServersAgree(c1, c2, servers, i + 1, next);
    }
  }

  /** Both contexts take the same steps on every server from `i` on. */
  ghost predicate SameStepsFrom(c1: Context, c2: Context, servers: seq<SqlServerEntry>, i: nat) {
    forall k :: i <= k < |servers| ==> SameSteps(c1, c2, k, servers[k])
  }

  lemma RunCheckedAgree(c1: Context, c2: Context, loaded: Option<IngestionConfig>)
    requires SameRun(c1, c2)
    requires loaded.Some? ==> SameStepsFrom(c1, c2, loaded.value.sqlServers, 0)
    ensures RunChecked(c1, loaded) == RunChecked(c2, loaded)
  {
    if loaded.Some? && WellFormed(loaded.value) {
      EnvCheckedAgree(c1, c2, loaded.value);
    }
  }

  lemma EnvCheckedAgree(c1: Context, c2: Context, cfg: IngestionConfig)
    requires SameRun(c1, c2) && SameStepsFrom(c1, c2, cfg.sqlServers, 0)
    ensures RunEnvChecked(c1, cfg) == RunEnvChecked(c2, cfg)
  {
    if EnvComplete(cfg, c1.world.env) {
      RunServersAgree(c1, c2, cfg.sqlServers, 0, NothingYet);
    }
  }

  /** At run level: a server and table with no schema, in a catalogue that
      holds the table under `dbo` only. The corrected run plans it; main.go's
      run reads schema "" and fails. */
  lemma MissingSchemaRunAsWritten()
    ensures
      && RunFromConfig(Some(OneServer("a")), DboWorld(), DryFlags).result.Success?
      && RunFromConfigAsWritten(Some(OneServer("a")), DboWorld(), DryFlags).result.Failure?
  {
    DboWorldChecksPass();
    MissingSchemaFixedRuns();
    MissingSchemaWrittenFails();
  }

  lemma MissingSchemaFixedRuns()
    requires WellFormed(OneServer("a")) && EnvComplete(OneServer("a"), DboWorld().env)
    ensures RunFromConfig(Some(OneServer("a")), DboWorld(), DryFlags).result.Success?
  {
    DboServerOk();
    RunFromConfigSucceeds(Some(OneServer("a")), DboWorld(), DryFlags);
  }

  lemma DboServerOk()
    ensures ConfigAllOk(DboWorld(), DryFlags, OneServer("a").sqlServers)
  {
    var srv := OneServer("a").sqlServers[0];
    var t := srv.tables[0];
    assert EffectiveSchema(srv, t) == DefaultSchema;
    assert ColumnsFound(SchemaDboOnly(0, DefaultSchema, t.name));
    DryOneTableOk(DboWorld(), DryFlags, OneServer("a").sqlServers);
  }

  /** A dry run over one reachable server with one table goes through
      once that table's columns are found. */
  lemma DryOneTableOk(world: World, flags: Flags, servers: seq<SqlServerEntry>)
    requires |servers| == 1 && |servers[0].tables| == 1 && world.connected(0) && flags.dryRun
    requires ColumnsFound(world.catalog(0, EffectiveSchema(servers[0], servers[0].tables[0]), servers[0].tables[0].name))
    ensures ConfigAllOk(world, flags, servers)
  {
    var srv := servers[0];
    forall k | 0 <= k < |srv.tables|
      ensures ConfigTableOk(world, flags, 0, srv, srv.tables[k])
    {
      assert k == 0;
    }
    forall k | 0 <= k < |servers|
      ensures ConfigServerOk(world, flags, k, servers[k])
    {
      assert k == 0;
    }
  }

  lemma MissingSchemaWrittenFails()
    ensures RunFromConfigAsWritten(Some(OneServer("a")), DboWorld(), DryFlags).result.Failure?
  {
    var srv := OneServer("a").sqlServers[0];
    assert !TableOk(ConfigContextAsWritten(DboWorld(), DryFlags), 0, srv, srv.tables[0]);
    assert !AllServersOk(ConfigContextAsWritten(DboWorld(), DryFlags), OneServer("a").sqlServers);
  }

  lemma DboWorldChecksPass()
    ensures WellFormed(OneServer("a")) && EnvComplete(OneServer("a"), DboWorld().env)
  {
    TrimmedVarsPass("a");
    OneServerWellFormed();
  }

  /** Alias `a`'s variables set, every server reachable, every table under
      `dbo` only, and every file writable. */
  function DboWorld(): World {
    World(TrimmedVarsSet("a"), _ => true, SchemaDboOnly, _ => true)
  }

  const DryFlags: Flags := Flags(Naming("g", "m", "s", "out"), true)

  /** A catalogue that has every table under `dbo` and nothing elsewhere. */
  function SchemaDboOnly(i: nat, schema: string, table: string): Option<seq<ColumnInfo>> {
    if schema == DefaultSchema then Some([ColumnInfo("id", "int", "NO", None, None, None)]) else None
  }

  lemma OneServerWellFormed()
    ensures WellFormed(OneServer("a"))
  {
  }

  /** main.go as written, too, makes a dry run the real run with every
      write succeeding, minus the writes. */
  lemma DryRunAsWrittenIsWet(loaded: Option<IngestionConfig>, world: World, flags: Flags)
    ensures RunFromConfigAsWritten(loaded, world, flags.(dryRun := true))
      == RunFromConfigAsWritten(loaded, world.(writeOk := AllWritable), flags.(dryRun := false)).(writes := [])
  {
    var ctx := ConfigContextAsWritten(world, flags);
    assert Dry(ctx) == ConfigContextAsWritten(world, flags.(dryRun := true));
    assert Wet(ctx) == ConfigContextAsWritten(world.(writeOk := AllWritable), flags.(dryRun := false));
    RunCheckedDryIsWet(ctx, loaded);
  }

  /** With both schemas left out, the check keys the table under `dbo`, but
      main.go reads the columns of schema "" and names the source with an
      empty segment. */
  lemma MissingSchemaAsWritten()
    ensures
      var srv := SqlServerEntry("a", "db", "", "secret", [TableEntry("t", "")]);
      && EffectiveSchemaAsWritten(srv, srv.tables[0]) == ""
      && EffectiveSchema(srv, srv.tables[0]) == DefaultSchema
  {
  }
}

=== FILE: env.dfy ===
/** The process environment as a map from variable name to value. As with
    Go's `os.Getenv`, a variable that is not set reads as the empty string. */
module Env {
  import opened Results

  type Environment = map<string, string>

  function Getenv(env: Environment, key: string): string {
    if key in env then env[key] else ""
  }

  /** `GetEnvOrDefault`: the value when it is non-empty, the fallback otherwise
      (the value is not trimmed). */
  function GetEnvOrDefault(env: Environment, key: string, fallback: string): (r: string)
    ensures Getenv(env, key) != "" ==> r == Getenv(env, key)
    ensures Getenv(env, key) == "" ==> r == fallback
    ensures fallback != "" ==> r != ""
  {
    var v := Getenv(env, key);
    if v != "" then v else fallback
  }

  /** `RequireEnv`: the value when it is non-empty, an error naming the
      variable otherwise. */
  function RequireEnv(env: Environment, key: string): (r: Result<string, string>)
    ensures r.Success? <==> Getenv(env, key) != ""
    ensures r.Success? ==> r.value == env[key]
    ensures r.Failure? ==> r.error == key
  {
    var v := Getenv(env, key);
    if v != "" then Success(v) else Failure(key)
  }
}

=== FILE: gitops.dfy ===
/** The GitOps workflow: reading its settings from the environment, preparing
    a working branch in a local clone, and committing and pushing the
    generated files.

    Git is a port: the k-th git command issued (counting from 0) succeeds
    exactly when `port(k, cmd)` holds. The output of `git status --porcelain`,
    the state of the local directory and the clock's timestamp are inputs.
    Each operation returns the commands it issued together with its result. */
module GitOps {
  import opened Strs
  import opened Results
  import opened Env

  datatype Config = Config(
    repoURL: string,
    baseBranch: string,
    branchPrefix: string,
    localPath: string,   // may be relative to the executable's directory
    userName: string,
    userEmail: string)

  const DefaultBaseBranch: string := "main"
  const DefaultBranchPrefix: string := "ingestion-"
  const DefaultRepoDir: string := "argocd-repo"

  /** `LoadConfigFromEnv`: no configuration (GitOps disabled, not an error)
      when GIT_REPO_URL is blank; otherwise the variables as read, with
      defaults for a blank base branch and a blank branch prefix. */
  function LoadConfigFromEnv(env: Environment): (r: Option<Config>)
    ensures r.None? <==> IsBlank(Getenv(env, "GIT_REPO_URL"))
    ensures r.Some? ==> r.value.repoURL == Getenv(env, "GIT_REPO_URL")
    ensures r.Some? && IsBlank(Getenv(env, "GIT_BASE_BRANCH")) ==> r.value.baseBranch == DefaultBaseBranch
    ensures r.Some? && IsBlank(Getenv(env, "GIT_TARGET_BRANCH_PREFIX")) ==> r.value.branchPrefix == DefaultBranchPrefix
    ensures r.Some? && !IsBlank(Getenv(env, "GIT_BASE_BRANCH")) ==> r.value.baseBranch == Getenv(env, "GIT_BASE_BRANCH")
    ensures r.Some? && !IsBlank(Getenv(env, "GIT_TARGET_BRANCH_PREFIX")) ==>
      r.value.branchPrefix == Getenv(env, "GIT_TARGET_BRANCH_PREFIX")
    ensures r.Some? ==> r.value.localPath == Getenv(env, "GIT_LOCAL_PATH")
    ensures r.Some? ==> r.value.userName == Getenv(env, "GIT_USER_NAME")
    ensures r.Some? ==> r.value.userEmail == Getenv(env, "GIT_USER_EMAIL")
  {
    var repo := Getenv(env, "GIT_REPO_URL");
    if IsBlank(repo) then None
    else
      var base := Getenv(env, "GIT_BASE_BRANCH");
      var prefix := Getenv(env, "GIT_TARGET_BRANCH_PREFIX");
      Some(Config(
        repo,
        if IsBlank(base) then DefaultBaseBranch else base,
        if IsBlank(prefix) then DefaultBranchPrefix else prefix,
        Getenv(env, "GIT_LOCAL_PATH"),
        Getenv(env, "GIT_USER_NAME"),
        Getenv(env, "GIT_USER_EMAIL")))
  }

  /** The environment that sets each variable to the matching field. */
  function ConfigEnv(c: Config): Environment {
    map["GIT_REPO_URL" := c.repoURL, "GIT_BASE_BRANCH" := c.baseBranch,
        "GIT_TARGET_BRANCH_PREFIX" := c.branchPrefix, "GIT_LOCAL_PATH" := c.localPath,
        "GIT_USER_NAME" := c.userName, "GIT_USER_EMAIL" := c.userEmail]
  }

  /** A configuration with a repository, a base branch and a prefix is
      read back from its own environment unchanged. */
  lemma LoadConfigRoundTrip(c: Config)
    requires !IsBlank(c.repoURL) && !IsBlank(c.baseBranch) && !IsBlank(c.branchPrefix)
    ensures LoadConfigFromEnv(ConfigEnv(c)) == Some(c)
  {
  }

  /** Loading is stable: writing a loaded configuration back to the
      environment and loading again gives the same configuration, defaults
      included. */
  lemma {:induction false} LoadConfigStable(env: Environment)
    ensures var r := LoadConfigFromEnv(env);
      r.Some? ==> LoadConfigFromEnv(ConfigEnv(r.value)) == r
  {
    var r := LoadConfigFromEnv(env);
    if r.Some? {
      assert !IsSpace(DefaultBaseBranch[0]) && !IsSpace(DefaultBranchPrefix[0]);
      LoadConfigRoundTrip(r.value);
    }
  }

  // ---------------------------------------------------------------------------
  // Paths and branch names.
  // ---------------------------------------------------------------------------

  predicate IsAbs(p: string) {
    |p| > 0 && p[0] == '/'
  }

  /** `filepath.Join` of two elements, without its cleaning of the result. */
  function Join(dir: string, name: string): (r: string)
    ensures |r| >= |dir|
    ensures dir != [] ==> r[..|dir|] == dir
  {
    if dir == [] then name else dir + "/" + name
  }

  /** Where the clone lives: `argocd-repo` next to the executable when no
      path is configured, the configured path under the executable's
      directory when it is relative, and the configured path itself when it
      is absolute. */
  function ResolveLocalPath(localPath: string, execDir: string): (r: string)
    ensures IsBlank(localPath) ==> r == Join(execDir, DefaultRepoDir)
    ensures !IsBlank(localPath) && IsAbs(localPath) ==> r == localPath
    ensures !IsBlank(localPath) && !IsAbs(localPath) ==> r == Join(execDir, localPath)
  {
    if IsBlank(localPath) then Join(execDir, DefaultRepoDir)
    else if IsAbs(localPath) then localPath
    else Join(execDir, localPath)
  }

  /** From an absolute executable directory every resolved path is absolute,
      so resolving it again changes nothing. */
  lemma ResolveLocalPathAbsolute(localPath: string, execDir: string)
    requires IsAbs(execDir)
    ensures IsAbs(ResolveLocalPath(localPath, execDir))
    ensures ResolveLocalPath(ResolveLocalPath(localPath, execDir), execDir) == ResolveLocalPath(localPath, execDir)
  {
    var p := ResolveLocalPath(localPath, execDir);
    assert p[0] == '/';
    assert !IsSpace(p[0]);
  }

  /** The branch suffix: the trimmed argument with blanks turned into dashes,
      or the timestamp when the argument is blank. */
  function BranchSuffix(suffix: string, stamp: string): (r: string)
    ensures IsBlank(suffix) ==> r == stamp
    ensures !IsBlank(suffix) ==> |r| == |Trim(suffix)| && ' ' !in r
    ensures !IsBlank(suffix) ==> forall i :: 0 <= i < |r| ==>
      (if Trim(suffix)[i] == ' ' then r[i] == '-' else r[i] == Trim(suffix)[i])
  {
    BlankIffTrimsToEmpty(suffix);
    var s := Trim(suffix);
    if s == [] then stamp else ReplaceChar(s, ' ', '-')
  }

  /** The working branch: the configured prefix followed by the suffix. */
  function BranchName(prefix: string, suffix: string, stamp: string): (r: string)
    ensures |r| >= |prefix| && r[..|prefix|] == prefix
    ensures r[|prefix|..] == BranchSuffix(suffix, stamp)
    ensures ' ' !in prefix && ' ' !in stamp ==> ' ' !in r
  {
    var r := prefix + BranchSuffix(suffix, stamp);
    assert r[|prefix|..] == BranchSuffix(suffix, stamp);
    r
  }

  /** A suffix that is already trimmed and free of blanks is used as given. */
  lemma BranchSuffixVerbatim(suffix: string, stamp: string)
    requires suffix != [] && !IsSpace(suffix[0]) && !IsSpace(suffix[|suffix| - 1]) && ' ' !in suffix
    ensures BranchSuffix(suffix, stamp) == suffix
  {
    TrimUnpadded(suffix);
  }

  /** Normalising a suffix twice is normalising it once. */
  lemma BranchSuffixIdempotent(suffix: string, stamp: string)
    requires !IsBlank(suffix)
    ensures BranchSuffix(BranchSuffix(suffix, stamp), stamp) == BranchSuffix(suffix, stamp)
  {
    BlankIffTrimsToEmpty(suffix);
    var r := ReplaceChar(Trim(suffix), ' ', '-');
    assert BranchSuffix(suffix, stamp) == r;
    DashedIsTrimmed(Trim(suffix));
    BlankIffTrimsToEmpty(r);
    ReplaceCharAbsent(r, ' ', '-');
    assert BranchSuffix(r, stamp) == ReplaceChar(r, ' ', '-');
  }

  /** Turning the blanks of a trimmed string into dashes keeps it trimmed. */
  lemma DashedIsTrimmed(t: string)
    requires t != [] && !IsSpace(t[0]) && !IsSpace(t[|t| - 1])
    ensures var r := ReplaceChar(t, ' ', '-'); r != [] && Trim(r) == r && ' ' !in r
  {
    var r := ReplaceChar(t, ' ', '-');
    assert r[0] == t[0] && r[|r| - 1] == t[|t| - 1];
    TrimUnpadded(r);
  }

  // ---------------------------------------------------------------------------
  // The git port.
  // ---------------------------------------------------------------------------

  datatype GitCmd =
    | Clone(branch: string, url: string, path: string)   // git clone --branch B URL PATH
    | FetchAll                                           // git fetch --all
    | Checkout(branch: string)                           // git checkout B
    | PullFastForward                                    // git pull --ff-only
    | ConfigUserName(name: string)                       // git config user.name N
    | ConfigUserEmail(email: string)                     // git config user.email E
    | CheckoutReset(branch: string)                      // git checkout -B B
    | StatusPorcelain                                    // git status --porcelain
    | AddAll                                             // git add .
    | Commit(message: string)                            // git commit -m M
    | PushUpstream(branch: string)                       // git push -u origin B

  /** The outcome of the k-th command issued. */
  type Port = (nat, GitCmd) -> bool

  /** A run of git commands: what was issued, and the command that failed,
      if one did. */
  datatype Exec = Exec(trace: seq<GitCmd>, failed: Option<GitCmd>)

  const Fresh: Exec := Exec([], None)

  /** Issues `cmd` unless an earlier command failed; a failure is remembered
      and stops every later command. */
  function Then(e: Exec, port: Port, cmd: GitCmd): (r: Exec)
    ensures e.failed.Some? ==> r == e
    ensures e.failed.None? ==> r.trace == e.trace + [cmd]
    ensures e.failed.None? ==> (r.failed.None? <==> port(|e.trace|, cmd))
    ensures Consistent(e, port) ==> Consistent(r, port)
  {
    if e.failed.Some? then e
    else Exec(e.trace + [cmd], if port(|e.trace|, cmd) then None else Some(cmd))
  }

  /** Two commands in a row succeed exactly when both do, at the next two
      positions. */
  lemma ThenThen(e: Exec, port: Port, a: GitCmd, b: GitCmd)
    ensures Then(Then(e, port, a), port, b).failed.None? <==>
      e.failed.None? && port(|e.trace|, a) && port(|e.trace| + 1, b)
  {
  }

  /** A recorded failure is the last command issued, and the port refused it. */
  predicate Consistent(e: Exec, port: Port) {
    e.failed.Some? ==> e.trace != [] && e.failed.value == e.trace[|e.trace| - 1] && !port(|e.trace| - 1, e.failed.value)
  }

  /** Issues `cmd` unless an earlier command failed, ignoring its outcome. */
  function Attempt(e: Exec, cmd: GitCmd): (r: Exec)
    ensures r.failed == e.failed
    ensures e.failed.None? ==> r.trace == e.trace + [cmd]
    ensures e.failed.Some? ==> r == e
  {
    if e.failed.Some? then e else Exec(e.trace + [cmd], None)
  }

  // ---------------------------------------------------------------------------
  // Preparing the working branch.
  // ---------------------------------------------------------------------------

  datatype GitDirState = Absent | Present | Unreadable

  /** What the file system says about the clone's location. */
  datatype Disk = Disk(
    gitDir: GitDirState,          // stat of <path>/.git
    parentCreatable: bool,        // MkdirAll of the parent directory succeeds
    targetNonEmptyDir: bool)      // <path> is a directory with entries

  datatype GitError =
    | NilConfig
    | ParentDirFailed
    | TargetNotEmpty(path: string)
    | GitDirUnreadable(path: string)
    | CommandFailed(cmd: GitCmd)

  /** The commands an operation issued, and how it ended. */
  datatype Outcome<T> = Outcome(trace: seq<GitCmd>, result: Result<T, GitError>)

  function Finish<T>(e: Exec, value: T): (r: Outcome<T>)
    ensures r.trace == e.trace
    ensures r.result.Success? <==> e.failed.None?
    ensures r.result.Success? ==> r.result.value == value
    ensures r.result.Failure? ==> r.result.error == CommandFailed(e.failed.value)
  {
    if e.failed.Some? then Outcome(e.trace, Failure(CommandFailed(e.failed.value))) else Outcome(e.trace, Success(value))
  }

  datatype Prepared = Prepared(localPath: string, branch: string)

  /** The commands that bring an existing clone up to date. */
  function UpdateCmds(cfg: Config): seq<GitCmd> {
    [FetchAll, Checkout(cfg.baseBranch), PullFastForward]
  }

  /** The identity commands, each only for a non-blank value. */
  function IdentityCmds(cfg: Config): (cmds: seq<GitCmd>)
    ensures |cmds| <= 2
    ensures forall c :: c in cmds ==> c == ConfigUserName(cfg.userName) || c == ConfigUserEmail(cfg.userEmail)
    ensures ConfigUserName(cfg.userName) in cmds <==> !IsBlank(cfg.userName)
    ensures ConfigUserEmail(cfg.userEmail) in cmds <==> !IsBlank(cfg.userEmail)
    // the name is set before the email
    ensures |cmds| == 2 ==> cmds == [ConfigUserName(cfg.userName), ConfigUserEmail(cfg.userEmail)]
  {
    var name := if IsBlank(cfg.userName) then [] else [ConfigUserName(cfg.userName)];
    var email := if IsBlank(cfg.userEmail) then [] else [ConfigUserEmail(cfg.userEmail)];
    assert ConfigUserName(cfg.userName) !in email && ConfigUserEmail(cfg.userEmail) !in name;
    name + email
  }

  /** The commands that switch to a fresh working branch off the base branch. */
  function BranchCmds(cfg: Config, branch: string): seq<GitCmd> {
    [Checkout(cfg.baseBranch), CheckoutReset(branch)]
  }

  /** The clone or the update can be attempted: `.git` exists, or it is
      missing, its parent can be created and the target is not a non-empty
      directory. */
  predicate Obtainable(disk: Disk) {
    || disk.gitDir.Present?
    || (disk.gitDir.Absent? && disk.parentCreatable && !disk.targetNonEmptyDir)
  }

  /** The commands of the first stage when it runs to the end. */
  function ObtainCmds(cfg: Config, path: string, disk: Disk): seq<GitCmd> {
    if disk.gitDir.Absent? then [Clone(cfg.baseBranch, cfg.repoURL, path)] else UpdateCmds(cfg)
  }

  /** Every command of `cmds`, issued from position `from` on, succeeds. */
  predicate AllSucceed(port: Port, from: nat, cmds: seq<GitCmd>) {
    forall k :: 0 <= k < |cmds| ==> port(from + k, cmds[k])
  }

  /** The first stage either refuses before issuing anything or runs git. */
  datatype Stage = Refused(error: GitError) | Ran(exec: Exec)

  /** Clone into a missing repository, or update an existing one. */
  function Obtain(cfg: Config, path: string, disk: Disk, port: Port): (r: Stage)
    ensures r.Refused? <==> disk.gitDir.Unreadable? || (disk.gitDir.Absent? && (!disk.parentCreatable || disk.targetNonEmptyDir))
    ensures r.Ran? && disk.gitDir.Absent? ==> r.exec.trace == [Clone(cfg.baseBranch, cfg.repoURL, path)]
    ensures r.Ran? ==> (r.exec.failed.None? <==> AllSucceed(port, 0, ObtainCmds(cfg, path, disk)))
    ensures r.Ran? && r.exec.failed.None? ==> r.exec.trace == ObtainCmds(cfg, path, disk)
    ensures r.Ran? && disk.gitDir.Present? ==> r.exec.trace <= UpdateCmds(cfg) && r.exec.trace != []
    ensures r.Ran? && disk.gitDir.Present? && r.exec.failed.None? ==> r.exec.trace == UpdateCmds(cfg)
    ensures r.Ran? ==> Consistent(r.exec, port)
  {
    match disk.gitDir
    case Absent =>
      if !disk.parentCreatable then Refused(ParentDirFailed)
      else if disk.targetNonEmptyDir then Refused(TargetNotEmpty(path))
      else Ran(Then(Fresh, port, Clone(cfg.baseBranch, cfg.repoURL, path)))
    case Present =>
      var e1 := Then(Fresh, port, FetchAll);
      var e3 := Then(Then(e1, port, Checkout(cfg.baseBranch)), port, PullFastForward);
      ThenThen(e1, port, Checkout(cfg.baseBranch), PullFastForward);
      var cmds := UpdateCmds(cfg);
      assert cmds[0] == FetchAll && cmds[1] == Checkout(cfg.baseBranch) && cmds[2] == PullFastForward;
      assert AllSucceed(port, 0, cmds) <==> port(0, FetchAll) && port(1, Checkout(cfg.baseBranch)) && port(2, PullFastForward);
      Ran(e3)
    case Unreadable => Refused(GitDirUnreadable(path))
  }

  /** Issues each of `cmds` unless an earlier command failed, ignoring their
      outcomes. */
  function AttemptAll(e: Exec, cmds: seq<GitCmd>): (r: Exec)
    ensures r.failed == e.failed
    ensures e.failed.None? ==> r.trace == e.trace + cmds
    ensures e.failed.Some? ==> r == e
    decreases |cmds|
  {
    if cmds == [] then
      assert e.trace + cmds == e.trace;
      e
    else
      var r := AttemptAll(Attempt(e, cmds[0]), cmds[1..]);
      assert e.failed.None? ==> e.trace + [cmds[0]] + cmds[1..] == e.trace + cmds;
      r
  }

  /** `PrepareRepo`: resolve the clone's path; clone or update it; set the
      identity when given (ignoring failures); check out the base branch and
      create or reset the working branch from it. Every failure aborts. */
  function PrepareRepo(cfg: Option<Config>, execDir: string, branchSuffix: string, stamp: string, disk: Disk, port: Port)
    : (r: Outcome<Prepared>)
    ensures cfg.None? ==> r == Outcome([], Failure(NilConfig))
    ensures r.result.Success? ==> cfg.Some?
    ensures r.result.Success? ==> r.result.value.localPath == ResolveLocalPath(cfg.value.localPath, execDir)
    ensures r.result.Success? ==> r.result.value.branch == BranchName(cfg.value.branchPrefix, branchSuffix, stamp)
    ensures r.result.Success? <==> cfg.Some? && PrepareSucceeds(cfg.value, ResolveLocalPath(cfg.value.localPath, execDir),
      BranchName(cfg.value.branchPrefix, branchSuffix, stamp), disk, port)
    ensures r.result.Failure? && r.result.error.CommandFailed? ==>
      r.trace != [] && r.result.error.cmd == r.trace[|r.trace| - 1] && !port(|r.trace| - 1, r.trace[|r.trace| - 1])
    ensures r.result.Failure? && !r.result.error.CommandFailed? ==> r.trace == []
  {
    if cfg.None? then Outcome([], Failure(NilConfig))
    else
      var c := cfg.value;
      var path := ResolveLocalPath(c.localPath, execDir);
      var branch := BranchName(c.branchPrefix, branchSuffix, stamp);
      PrepareAtSucceeds(c, path, branch, disk, port);
      PrepareAt(c, path, branch, disk, port)
  }

  /** The command sequence of `PrepareRepo` once path and branch are known. */
  function PrepareAt(c: Config, path: string, branch: string, disk: Disk, port: Port): (r: Outcome<Prepared>)
    ensures r.result.Success? ==> r.result.value == Prepared(path, branch)
    ensures r.result.Failure? && r.result.error.CommandFailed? ==>
      r.trace != [] && r.result.error.cmd == r.trace[|r.trace| - 1] && !port(|r.trace| - 1, r.trace[|r.trace| - 1])
    // a refusal issues nothing
    ensures r.result.Failure? && !r.result.error.CommandFailed? ==> r.trace == []
  {
    var st := Obtain(c, path, disk, port);
    if st.Refused? then Outcome([], Failure(st.error))
    else
      var e2 := AttemptAll(st.exec, IdentityCmds(c));
      assert Consistent(e2, port);
      var e3 := Then(Then(e2, port, Checkout(c.baseBranch)), port, CheckoutReset(branch));
      assert Consistent(e3, port);
      Finish(e3, Prepared(path, branch))
  }

  /** The preparation succeeds exactly when the first stage can run and
      every command whose outcome counts succeeds. */
  lemma PrepareAtSucceeds(c: Config, path: string, branch: string, disk: Disk, port: Port)
    ensures PrepareAt(c, path, branch, disk, port).result.Success? <==> PrepareSucceeds(c, path, branch, disk, port)
  {
    var st := Obtain(c, path, disk, port);
    if st.Ran? {
      var ident := IdentityCmds(c);
      AfterFirstStage(st.exec, ObtainCmds(c, path, disk), ident, port, Checkout(c.baseBranch), CheckoutReset(branch));
      var e3 := Then(Then(AttemptAll(st.exec, ident), port, Checkout(c.baseBranch)), port, CheckoutReset(branch));
      assert PrepareAt(c, path, branch, disk, port) == Finish(e3, Prepared(path, branch));
    }
  }

  /** After a first stage that issued `head` and succeeded exactly when all
      of it did, the identity commands and two more commands succeed exactly
      when `head` and those two do. */
  lemma AfterFirstStage(e1: Exec, head: seq<GitCmd>, ident: seq<GitCmd>, port: Port, a: GitCmd, b: GitCmd)
    requires e1.failed.None? <==> AllSucceed(port, 0, head)
    requires e1.failed.None? ==> |e1.trace| == |head|
    ensures Then(Then(AttemptAll(e1, ident), port, a), port, b).failed.None? <==>
      AllSucceed(port, 0, head) && port(|head| + |ident|, a) && port(|head| + |ident| + 1, b)
  {
    ThenThen(AttemptAll(e1, ident), port, a, b);
  }

  /** The stage can run, its commands succeed, and so do the two branch
      commands that follow the identity commands. */
  predicate PrepareSucceeds(c: Config, path: string, branch: string, disk: Disk, port: Port) {
    var head := ObtainCmds(c, path, disk);
    var n := |head| + |IdentityCmds(c)|;
    && Obtainable(disk)
    && AllSucceed(port, 0, head)
    && port(n, Checkout(c.baseBranch))
    && port(n + 1, CheckoutReset(branch))
  }

  /** A directory that exists with entries is never cloned over: nothing is
      issued. */
  lemma CloneRefusesNonEmptyTarget(cfg: Config, execDir: string, branchSuffix: string, stamp: string, disk: Disk, port: Port)
    requires disk.gitDir.Absent? && disk.parentCreatable && disk.targetNonEmptyDir
    ensures PrepareRepo(Some(cfg), execDir, branchSuffix, stamp, disk, port)
      == Outcome([], Failure(TargetNotEmpty(ResolveLocalPath(cfg.localPath, execDir))))
  {
  }

  /** The update stage on its own: fetch, checkout and pull, stopping at the
      first failure. */
  lemma UpdateStage(c: Config, path: string, disk: Disk, port: Port)
    requires disk.gitDir.Present?
    ensures Obtain(c, path, disk, port).Ran?
    ensures var e := Obtain(c, path, disk, port).exec;
      && e.trace != [] && e.trace[0] == FetchAll && e.trace <= UpdateCmds(c)
      && (e.failed.None? <==> port(0, FetchAll) && port(1, Checkout(c.baseBranch)) && port(2, PullFastForward))
  {
  }

  /** Once the first stage has failed, nothing more is issued. */
  lemma FailedStageStops(c: Config, path: string, branch: string, disk: Disk, port: Port)
    requires Obtain(c, path, disk, port).Ran? && Obtain(c, path, disk, port).exec.failed.Some?
    ensures PrepareAt(c, path, branch, disk, port).trace == Obtain(c, path, disk, port).exec.trace
    ensures PrepareAt(c, path, branch, disk, port).result.Failure?
  {
  }

  /** An existing clone is updated with fetch, checkout of the base branch and
      a fast-forward pull, in that order; when one of them fails nothing
      after it is issued and the preparation fails. */
  lemma UpdateOrder(c: Config, path: string, branch: string, disk: Disk, port: Port)
    requires disk.gitDir.Present?
    ensures var r := PrepareAt(c, path, branch, disk, port);
      && r.trace != [] && r.trace[0] == FetchAll
      && (port(0, FetchAll) && port(1, Checkout(c.baseBranch)) && port(2, PullFastForward) ==>
            |r.trace| >= 3 && r.trace[..3] == UpdateCmds(c))
      && (!(port(0, FetchAll) && port(1, Checkout(c.baseBranch)) && port(2, PullFastForward)) ==>
            r.result.Failure? && r.trace <= UpdateCmds(c))
  {
    UpdateStage(c, path, disk, port);
    var e1 := Obtain(c, path, disk, port).exec;
    if e1.failed.Some? {
      FailedStageStops(c, path, branch, disk, port);
    } else {
      var r := PrepareAt(c, path, branch, disk, port);
      assert r.trace[..3] == e1.trace;
    }
  }

  /** A successful preparation issued the clone or the update, then the
      identity commands, then the two branch commands. */
  lemma PrepareSuccessTrace(c: Config, path: string, branch: string, disk: Disk, port: Port)
    requires PrepareAt(c, path, branch, disk, port).result.Success?
    ensures var head := if disk.gitDir.Absent? then [Clone(c.baseBranch, c.repoURL, path)] else UpdateCmds(c);
      && !disk.gitDir.Unreadable?
      && PrepareAt(c, path, branch, disk, port).trace == head + IdentityCmds(c) + BranchCmds(c, branch)
  {
    var st := Obtain(c, path, disk, port);
    assert st.Ran?;
    var e2 := AttemptAll(st.exec, IdentityCmds(c));
    var e3 := Then(Then(e2, port, Checkout(c.baseBranch)), port, CheckoutReset(branch));
    assert e3.failed.None?;
    assert e3.trace == st.exec.trace + IdentityCmds(c) + BranchCmds(c, branch);
  }

  /** Two ports that agree on every command other than the identity ones. */
  ghost predicate AgreeOffIdentity(port: Port, port': Port) {
    forall k: nat, c: GitCmd :: !c.ConfigUserName? && !c.ConfigUserEmail? ==> port(k, c) == port'(k, c)
  }

  /** Identity commands are best effort: two ports that differ only on them
      lead to the same commands and the same outcome. */
  lemma IdentityBestEffort(cfg: Option<Config>, execDir: string, branchSuffix: string, stamp: string, disk: Disk,
                           port: Port, port': Port)
    requires AgreeOffIdentity(port, port')
    ensures PrepareRepo(cfg, execDir, branchSuffix, stamp, disk, port)
      == PrepareRepo(cfg, execDir, branchSuffix, stamp, disk, port')
  {
    if cfg.Some? {
      var c := cfg.value;
      var path := ResolveLocalPath(c.localPath, execDir);
      var branch := BranchName(c.branchPrefix, branchSuffix, stamp);
      PrepareAtIgnoresIdentity(c, path, branch, disk, port, port');
    }
  }

  lemma PrepareAtIgnoresIdentity(c: Config, path: string, branch: string, disk: Disk, port: Port, port': Port)
    requires AgreeOffIdentity(port, port')
    ensures PrepareAt(c, path, branch, disk, port) == PrepareAt(c, path, branch, disk, port')
  {
    var clone := Clone(c.baseBranch, c.repoURL, path);
    ThenAgrees(Fresh, port, port', clone);
    var e1 := Then(Fresh, port, FetchAll);
    ThenAgrees(Fresh, port, port', FetchAll);
    ThenAgrees(e1, port, port', Checkout(c.baseBranch));
    ThenAgrees(Then(e1, port, Checkout(c.baseBranch)), port, port', PullFastForward);
    assert Obtain(c, path, disk, port) == Obtain(c, path, disk, port');
    var st := Obtain(c, path, disk, port);
    if st.Ran? {
      var b := AttemptAll(st.exec, IdentityCmds(c));
      ThenAgrees(b, port, port', Checkout(c.baseBranch));
      ThenAgrees(Then(b, port, Checkout(c.baseBranch)), port, port', CheckoutReset(branch));
    }
  }

  /** A command other than an identity one has the same outcome under two
      ports that agree off the identity commands. */
  lemma ThenAgrees(e: Exec, port: Port, port': Port, cmd: GitCmd)
    requires AgreeOffIdentity(port, port') && !cmd.ConfigUserName? && !cmd.ConfigUserEmail?
    ensures Then(e, port, cmd) == Then(e, port', cmd)
  {
    assert port(|e.trace|, cmd) == port'(|e.trace|, cmd);
  }

  // ---------------------------------------------------------------------------
  // Committing and pushing.
  // ---------------------------------------------------------------------------

  /** `hasPendingChanges`: the porcelain status lists something once trimmed. */
  predicate HasPendingChanges(porcelain: string) {
    !IsBlank(porcelain)
  }

  function PublishCmds(branch: string, message: string): seq<GitCmd> {
    [AddAll, Commit(message), PushUpstream(branch)]
  }

  /** The commit-and-push decision once it is known whether anything is
      pending. */
  function Publish(pending: bool, branch: string, message: string, port: Port): (r: Outcome<()>)
    ensures r.trace != [] && r.trace[0] == StatusPorcelain
    ensures r.trace <= [StatusPorcelain] + PublishCmds(branch, message)
    ensures !pending ==> r.trace == [StatusPorcelain]
    ensures r.result.Success? && pending ==> r.trace == [StatusPorcelain] + PublishCmds(branch, message)
    ensures r.result.Success? <==> (port(0, StatusPorcelain) &&
      (!pending || (port(1, AddAll) && port(2, Commit(message)) && port(3, PushUpstream(branch)))))
    ensures r.result.Failure? ==>
      r.result.error == CommandFailed(r.trace[|r.trace| - 1]) && !port(|r.trace| - 1, r.trace[|r.trace| - 1])
  {
    var add, commit, push := AddAll, Commit(message), PushUpstream(branch);
    if !port(0, StatusPorcelain) then Outcome([StatusPorcelain], Failure(CommandFailed(StatusPorcelain)))
    else if !pending then Outcome([StatusPorcelain], Success(()))
    else if !port(1, add) then Outcome([StatusPorcelain, add], Failure(CommandFailed(add)))
    else if !port(2, commit) then Outcome([StatusPorcelain, add, commit], Failure(CommandFailed(commit)))
    else if !port(3, push) then Outcome([StatusPorcelain, add, commit, push], Failure(CommandFailed(push)))
    else Outcome([StatusPorcelain, add, commit, push], Success(()))
  }

  /** `CommitAndPush`: ask git for the status; with nothing pending stop
      successfully; otherwise add, commit and push the branch, stopping at the
      first failure. */
  function CommitAndPush(branch: string, message: string, porcelain: string, port: Port): (r: Outcome<()>)
    ensures r.trace != [] && r.trace[0] == StatusPorcelain
    ensures r.trace <= [StatusPorcelain] + PublishCmds(branch, message)
    ensures !HasPendingChanges(porcelain) ==> r.trace == [StatusPorcelain]
    ensures r.result.Success? && HasPendingChanges(porcelain) ==> r.trace == [StatusPorcelain] + PublishCmds(branch, message)
    ensures r.result.Success? <==> (port(0, StatusPorcelain) &&
      (!HasPendingChanges(porcelain) || (port(1, AddAll) && port(2, Commit(message)) && port(3, PushUpstream(branch)))))
    ensures r.result.Failure? ==>
      r.result.error == CommandFailed(r.trace[|r.trace| - 1]) && !port(|r.trace| - 1, r.trace[|r.trace| - 1])
  {
    Publish(HasPendingChanges(porcelain), branch, message, port)
  }

  /** A push is only ever issued after a commit, and a commit after an add. */
  lemma PushFollowsCommit(branch: string, message: string, porcelain: string, port: Port)
    ensures var trace := CommitAndPush(branch, message, porcelain, port).trace;
      && (PushUpstream(branch) in trace ==> trace == [StatusPorcelain, AddAll, Commit(message), PushUpstream(branch)])
      && (Commit(message) in trace ==> trace[..3] == [StatusPorcelain, AddAll, Commit(message)])
  {
    PublishOrder(HasPendingChanges(porcelain), branch, message, port);
  }

  lemma PublishOrder(pending: bool, branch: string, message: string, port: Port)
    ensures var trace := Publish(pending, branch, message, port).trace;
      && (PushUpstream(branch) in trace ==> trace == [StatusPorcelain, AddAll, Commit(message), PushUpstream(branch)])
      && (Commit(message) in trace ==> trace[..3] == [StatusPorcelain, AddAll, Commit(message)])
  {
    var trace := Publish(pending, branch, message, port).trace;
    var full := [StatusPorcelain, AddAll, Commit(message), PushUpstream(branch)];
    assert trace == full[..|trace|];
    if |trace| == 1 {
      assert trace == [StatusPorcelain];
    } else if |trace| == 2 {
      assert trace == [StatusPorcelain, AddAll];
    } else if |trace| == 3 {
      assert trace == [StatusPorcelain, AddAll, Commit(message)];
    } else {
      assert trace == full;
    }
  }
}

=== FILE: ingestion.dfy ===
/** The ingestion configuration (`ingestion.yaml`, already parsed) and its
    two total validation passes: the structural check of servers and tables,
    and the check that every alias has its connection variables in the
    environment. Both collect every problem instead of stopping at the first.

    Problems are reported as values naming the offending server and table
    positions instead of the source's formatted message lines. */
module Config {
  import opened Strs
  import opened Results
  import opened Env

  datatype TableEntry = TableEntry(name: string, schema: string)

  datatype SqlServerEntry = SqlServerEntry(
    alias: string,
    database: string,
    schema: string,        // default schema of the tables
    secretName: string,    // secret used by the connector
    tables: seq<TableEntry>)

  datatype IngestionConfig = IngestionConfig(sqlServers: seq<SqlServerEntry>)

  const DefaultSchema: string := "dbo"

  datatype Problem =
    | NoServers
    | BlankAlias(server: nat)
    | DuplicateAlias(server: nat, alias: string)
    | BlankDatabase(server: nat)
    | BlankSecretName(server: nat)
    | NoTables(server: nat)
    | BlankTableName(server: nat, table: nat)
    | DuplicateTable(server: nat, table: nat, schema: string, name: string)

  /** Aliases are compared trimmed and upper-cased. */
  function AliasKey(srv: SqlServerEntry): string {
    ToUpper(Trim(srv.alias))
  }

  /** The server's trimmed schema, or `dbo` when it is blank. */
  function ServerSchema(srv: SqlServerEntry): (r: string)
    ensures !IsBlank(r)
    ensures IsBlank(srv.schema) ==> r == DefaultSchema
    ensures !IsBlank(srv.schema) ==> r == Trim(srv.schema)
  {
    if IsBlank(srv.schema) then
      assert !IsSpace(DefaultSchema[0]);
      DefaultSchema
    else
      TrimmedStaysNonBlank(srv.schema);
      Trim(srv.schema)
  }

  /** The schema a table is validated under: its own trimmed schema, else the
      server's. */
  function TableSchema(srv: SqlServerEntry, t: TableEntry): (r: string)
    ensures !IsBlank(r)
    ensures !IsBlank(t.schema) ==> r == Trim(t.schema)
    ensures IsBlank(t.schema) && !IsBlank(srv.schema) ==> r == Trim(srv.schema)
    ensures IsBlank(t.schema) && IsBlank(srv.schema) ==> r == DefaultSchema
  {
    if IsBlank(t.schema) then ServerSchema(srv)
    else
      TrimmedStaysNonBlank(t.schema);
      Trim(t.schema)
  }

  /** Trimming a non-blank string leaves it non-blank. */
  lemma TrimmedStaysNonBlank(s: string)
    requires !IsBlank(s)
    ensures !IsBlank(Trim(s))
  {
    BlankIffTrimsToEmpty(s);
    TrimIdempotent(s);
    BlankIffTrimsToEmpty(Trim(s));
  }

  /** `ALIAS|DATABASE|SCHEMA|TABLE`, the key duplicates are detected by. */
  function TableKey(srv: SqlServerEntry, t: TableEntry): string {
    AliasKey(srv) + "|" + ToUpper(srv.database) + "|" + ToUpper(TableSchema(srv, t)) + "|" + ToUpper(t.name)
  }

  // ---------------------------------------------------------------------------
  // What the pass reads from each entry. The scan and its reference
  // definition below are stated over these facts, so that the string
  // operations stay out of their proofs.
  // ---------------------------------------------------------------------------

  datatype TableFacts = TableFacts(blankName: bool, key: string, schema: string, name: string)

  datatype ServerFacts = ServerFacts(
    blankAlias: bool,
    aliasKey: string,
    alias: string,          // trimmed, as reported
    blankDatabase: bool,
    blankSecret: bool,
    tables: seq<TableFacts>)

  function TableFactsOf(srv: SqlServerEntry, t: TableEntry): TableFacts {
    TableFacts(IsBlank(t.name), TableKey(srv, t), TableSchema(srv, t), t.name)
  }

  function ServerFactsOf(srv: SqlServerEntry): (f: ServerFacts)
    ensures |f.tables| == |srv.tables|
    ensures forall j :: 0 <= j < |srv.tables| ==> f.tables[j] == TableFactsOf(srv, srv.tables[j])
  {
    ServerFacts(IsBlank(srv.alias), AliasKey(srv), Trim(srv.alias), IsBlank(srv.database), IsBlank(srv.secretName),
      seq(|srv.tables|, j requires 0 <= j < |srv.tables| => TableFactsOf(srv, srv.tables[j])))
  }

  function Facts(cfg: IngestionConfig): (v: seq<ServerFacts>)
    ensures |v| == |cfg.sqlServers|
    ensures forall i :: 0 <= i < |v| ==> v[i] == ServerFactsOf(cfg.sqlServers[i])
  {
    seq(|cfg.sqlServers|, i requires 0 <= i < |cfg.sqlServers| => ServerFactsOf(cfg.sqlServers[i]))
  }

  // ---------------------------------------------------------------------------
  // The validation pass as the source runs it: one scan keeping the aliases and
  // table keys seen so far.
  // ---------------------------------------------------------------------------

  datatype Scan = Scan(problems: seq<Problem>, aliases: set<string>, tables: set<string>)

  /** One table: a blank name or a key seen before is a problem, anything
      else registers the key. */
  function ScanTable(srv: ServerFacts, i: nat, j: nat, s: Scan): Scan
    requires j < |srv.tables|
  {
    var t := srv.tables[j];
    if t.blankName then s.(problems := s.problems + [BlankTableName(i, j)])
    else if t.key in s.tables then s.(problems := s.problems + [DuplicateTable(i, j, t.schema, t.name)])
    else s.(tables := s.tables + {t.key})
  }

  function ScanTables(srv: ServerFacts, i: nat, j: nat, s: Scan): Scan
    requires j <= |srv.tables|
    decreases |srv.tables| - j
  {
    if j == |srv.tables| then s else ScanTables(srv, i, j + 1, ScanTable(srv, i, j, s))
  }

  function ScanAlias(srv: ServerFacts, i: nat, s: Scan): Scan {
    if srv.blankAlias then s.(problems := s.problems + [BlankAlias(i)])
    else if srv.aliasKey in s.aliases then s.(problems := s.problems + [DuplicateAlias(i, srv.alias)])
    else s.(aliases := s.aliases + {srv.aliasKey})
  }

  /** The database, secret and table-list checks of one server, in order. */
  function ScanFields(srv: ServerFacts, i: nat, s: Scan): Scan {
    var s2 := if srv.blankDatabase then s.(problems := s.problems + [BlankDatabase(i)]) else s;
    var s3 := if srv.blankSecret then s2.(problems := s2.problems + [BlankSecretName(i)]) else s2;
    if |srv.tables| == 0 then s3.(problems := s3.problems + [NoTables(i)]) else s3
  }

  function ScanServer(srv: ServerFacts, i: nat, s: Scan): Scan {
    ScanTables(srv, i, 0, ScanFields(srv, i, ScanAlias(srv, i, s)))
  }

  function ScanServers(servers: seq<ServerFacts>, i: nat, s: Scan): Scan
    requires i <= |servers|
    decreases |servers| - i
  {
    if i == |servers| then s else ScanServers(servers, i + 1, ScanServer(servers[i], i, s))
  }

  /** Everything wrong with the configuration, in the order the pass finds it. */
  function Problems(cfg: IngestionConfig): seq<Problem> {
    var start := if |cfg.sqlServers| == 0 then [NoServers] else [];
    ScanServers(Facts(cfg), 0, Scan(start, {}, {})).problems
  }

  // ---------------------------------------------------------------------------
  // Reference definition: each problem described by the condition it reports.
  // ---------------------------------------------------------------------------

  /** Some earlier server has a non-blank alias with the same key as server i. */
  ghost predicate AliasTakenBefore(servers: seq<ServerFacts>, i: nat)
    requires i < |servers|
  {
    exists k :: 0 <= k < i && !servers[k].blankAlias && servers[k].aliasKey == servers[i].aliasKey
  }

  /** (k, l) is a table position that comes before (i, j). */
  ghost predicate Earlier(servers: seq<ServerFacts>, k: int, l: int, i: int, j: int) {
    0 <= k <= i && k < |servers| && 0 <= l < |servers[k].tables| && (k < i || l < j)
  }

  /** Some earlier table with a non-blank name has the same key as table j of
      server i. */
  ghost predicate TableTakenBefore(servers: seq<ServerFacts>, i: nat, j: nat)
    requires i < |servers| && j < |servers[i].tables|
  {
    exists k, l :: Earlier(servers, k, l, i, j) && !servers[k].tables[l].blankName
      && servers[k].tables[l].key == servers[i].tables[j].key
  }

  ghost function RefAliasProblems(servers: seq<ServerFacts>, i: nat): seq<Problem>
    requires i < |servers|
  {
    if servers[i].blankAlias then [BlankAlias(i)]
    else if AliasTakenBefore(servers, i) then [DuplicateAlias(i, servers[i].alias)]
    else []
  }

  ghost function RefFieldProblems(srv: ServerFacts, i: nat): seq<Problem> {
    (if srv.blankDatabase then [BlankDatabase(i)] else [])
    + (if srv.blankSecret then [BlankSecretName(i)] else [])
    + (if |srv.tables| == 0 then [NoTables(i)] else [])
  }

  ghost function RefTableProblem(servers: seq<ServerFacts>, i: nat, j: nat): seq<Problem>
    requires i < |servers| && j < |servers[i].tables|
  {
    var t := servers[i].tables[j];
    if t.blankName then [BlankTableName(i, j)]
    else if TableTakenBefore(servers, i, j) then [DuplicateTable(i, j, t.schema, t.name)]
    else []
  }

  ghost function RefTableProblems(servers: seq<ServerFacts>, i: nat, j: nat): seq<Problem>
    requires i < |servers| && j <= |servers[i].tables|
    decreases |servers[i].tables| - j
  {
    if j == |servers[i].tables| then []
    else RefTableProblem(servers, i, j) + RefTableProblems(servers, i, j + 1)
  }

  ghost function RefServerProblems(servers: seq<ServerFacts>, i: nat): seq<Problem>
    requires i < |servers|
  {
    RefAliasProblems(servers, i) + RefFieldProblems(servers[i], i) + RefTableProblems(servers, i, 0)
  }

  ghost function RefProblemsFrom(servers: seq<ServerFacts>, i: nat): seq<Problem>
    requires i <= |servers|
    decreases |servers| - i
  {
    if i == |servers| then [] else RefServerProblems(servers, i) + RefProblemsFrom(servers, i + 1)
  }

  ghost function ReferenceProblems(cfg: IngestionConfig): seq<Problem> {
    (if |cfg.sqlServers| == 0 then [NoServers] else []) + RefProblemsFrom(Facts(cfg), 0)
  }

  // ---------------------------------------------------------------------------
  // The scan computes the reference problems.
  // ---------------------------------------------------------------------------

  /** Aliases registered by the servers before position i. */
  ghost function AliasesBefore(servers: seq<ServerFacts>, i: nat): set<string>
    requires i <= |servers|
  {
    if i == 0 then {}
    else AliasesBefore(servers, i - 1) + (if servers[i - 1].blankAlias then {} else {servers[i - 1].aliasKey})
  }

  /** Keys registered by the first j tables of one server. */
  ghost function KeysOfServer(srv: ServerFacts, j: nat): set<string>
    requires j <= |srv.tables|
  {
    if j == 0 then {}
    else KeysOfServer(srv, j - 1) + (if srv.tables[j - 1].blankName then {} else {srv.tables[j - 1].key})
  }

  /** Keys registered by all tables of the servers before position i. */
  ghost function KeysBefore(servers: seq<ServerFacts>, i: nat): set<string>
    requires i <= |servers|
  {
    if i == 0 then {} else KeysBefore(servers, i - 1) + KeysOfServer(servers[i - 1], |servers[i - 1].tables|)
  }

  lemma {:induction false} AliasesBeforeMeans(servers: seq<ServerFacts>, i: nat, a: string)
    requires i <= |servers|
    ensures a in AliasesBefore(servers, i) <==>
      exists k :: 0 <= k < i && !servers[k].blankAlias && servers[k].aliasKey == a
  {
    if i > 0 {
      AliasesBeforeMeans(servers, i - 1, a);
    }
  }

  lemma {:induction false} KeysOfServerMeans(srv: ServerFacts, j: nat, key: string)
    requires j <= |srv.tables|
    ensures key in KeysOfServer(srv, j) <==>
      exists l :: 0 <= l < j && !srv.tables[l].blankName && srv.tables[l].key == key
  {
    if j > 0 {
      KeysOfServerMeans(srv, j - 1, key);
    }
  }

  lemma {:induction false} KeysBeforeMeans(servers: seq<ServerFacts>, i: nat, key: string)
    requires i <= |servers|
    ensures key in KeysBefore(servers, i) <==>
      exists k, l :: 0 <= k < i && 0 <= l < |servers[k].tables| && !servers[k].tables[l].blankName
        && servers[k].tables[l].key == key
  {
    if i > 0 {
      KeysBeforeMeans(servers, i - 1, key);
      var srv := servers[i - 1];
      KeysOfServerMeans(srv, |srv.tables|, key);
      if key in KeysOfServer(srv, |srv.tables|) {
        var l :| 0 <= l < |srv.tables| && !srv.tables[l].blankName && srv.tables[l].key == key;
        assert servers[i - 1].tables[l] == srv.tables[l];
      }
    }
  }

  lemma TableTakenBeforeIff(servers: seq<ServerFacts>, i: nat, j: nat)
    requires i < |servers| && j < |servers[i].tables|
    ensures TableTakenBefore(servers, i, j) <==>
      servers[i].tables[j].key in KeysBefore(servers, i) + KeysOfServer(servers[i], j)
  {
    var key := servers[i].tables[j].key;
    KeysBeforeMeans(servers, i, key);
    KeysOfServerMeans(servers[i], j, key);
    if TableTakenBefore(servers, i, j) {
      var k, l :| Earlier(servers, k, l, i, j) && !servers[k].tables[l].blankName
        && servers[k].tables[l].key == key;
      if k == i {
        assert 0 <= l < j && !servers[i].tables[l].blankName && servers[i].tables[l].key == key;
      }
    }
    if key in KeysOfServer(servers[i], j) {
      var l :| 0 <= l < j && !servers[i].tables[l].blankName && servers[i].tables[l].key == key;
      assert Earlier(servers, i, l, i, j);
    }
    if key in KeysBefore(servers, i) {
      var k, l :| 0 <= k < i && 0 <= l < |servers[k].tables| && !servers[k].tables[l].blankName
        && servers[k].tables[l].key == key;
      assert Earlier(servers, k, l, i, j);
    }
  }

  /** One table step keeps the scan's key set equal to the keys registered
      so far. */
  lemma ScanTableStep(servers: seq<ServerFacts>, i: nat, j: nat, s: Scan)
    requires i < |servers| && j < |servers[i].tables|
    requires s.tables == KeysBefore(servers, i) + KeysOfServer(servers[i], j)
    ensures var t := servers[i].tables[j];
      && (t.blankName || t.key in s.tables ==> s.tables == KeysBefore(servers, i) + KeysOfServer(servers[i], j + 1))
      && (!t.blankName ==> s.tables + {t.key} == KeysBefore(servers, i) + KeysOfServer(servers[i], j + 1))
      && (!t.blankName ==> (t.key in s.tables <==> TableTakenBefore(servers, i, j)))
  {
    TableTakenBeforeIff(servers, i, j);
  }

  lemma {:induction false} ScanTablesComputesReference(servers: seq<ServerFacts>, i: nat, j: nat, s: Scan)
    requires i < |servers| && j <= |servers[i].tables|
    requires s.tables == KeysBefore(servers, i) + KeysOfServer(servers[i], j)
    ensures ScanTables(servers[i], i, j, s)
      == Scan(s.problems + RefTableProblems(servers, i, j), s.aliases, KeysBefore(servers, i + 1))
    decreases |servers[i].tables| - j
  {
    if j == |servers[i].tables| {
      ScanTablesDone(servers, i, s);
    } else {
      var s' := ScanTable(servers[i], i, j, s);
      ScanTablesUnfold(servers[i], i, j, s);
      ScanTableComputesReference(servers, i, j, s);
      ScanTablesComputesReference(servers, i, j + 1, s');
      RefTableProblemsUnfold(servers, i, j);
      AppendAssoc(s.problems, RefTableProblem(servers, i, j), RefTableProblems(servers, i, j + 1));
    }
  }

  lemma ScanTablesDone(servers: seq<ServerFacts>, i: nat, s: Scan)
    requires i < |servers|
    requires s.tables == KeysBefore(servers, i) + KeysOfServer(servers[i], |servers[i].tables|)
    ensures ScanTables(servers[i], i, |servers[i].tables|, s)
      == Scan(s.problems + RefTableProblems(servers, i, |servers[i].tables|), s.aliases, KeysBefore(servers, i + 1))
  {
    assert s.problems + [] == s.problems;
  }

  lemma ScanTablesUnfold(srv: ServerFacts, i: nat, j: nat, s: Scan)
    requires j < |srv.tables|
    ensures ScanTables(srv, i, j, s) == ScanTables(srv, i, j + 1, ScanTable(srv, i, j, s))
  {
  }

  lemma RefTableProblemsUnfold(servers: seq<ServerFacts>, i: nat, j: nat)
    requires i < |servers| && j < |servers[i].tables|
    ensures RefTableProblems(servers, i, j) == RefTableProblem(servers, i, j) + RefTableProblems(servers, i, j + 1)
  {
  }

  /** One table step appends the table's reference problem and registers
      its key when the reference says it is new. */
  lemma ScanTableComputesReference(servers: seq<ServerFacts>, i: nat, j: nat, s: Scan)
    requires i < |servers| && j < |servers[i].tables|
    requires s.tables == KeysBefore(servers, i) + KeysOfServer(servers[i], j)
    ensures ScanTable(servers[i], i, j, s)
      == Scan(s.problems + RefTableProblem(servers, i, j), s.aliases, KeysBefore(servers, i) + KeysOfServer(servers[i], j + 1))
  {
    ScanTableStep(servers, i, j, s);
    assert s.problems + [] == s.problems;
  }

  lemma ScanAliasComputesReference(servers: seq<ServerFacts>, i: nat, s: Scan)
    requires i < |servers|
    requires s.aliases == AliasesBefore(servers, i)
    ensures ScanAlias(servers[i], i, s)
      == Scan(s.problems + RefAliasProblems(servers, i), AliasesBefore(servers, i + 1), s.tables)
  {
    var srv := servers[i];
    AliasesBeforeMeans(servers, i, srv.aliasKey);
    assert AliasesBefore(servers, i + 1) == s.aliases + (if srv.blankAlias then {} else {srv.aliasKey});
    if !srv.blankAlias && srv.aliasKey !in s.aliases {
      assert !AliasTakenBefore(servers, i);
      assert s.problems + [] == s.problems;
    }
  }

  /** After the alias, the pass appends the field problems in reference order. */
  lemma ScanFieldsComputesReference(srv: ServerFacts, i: nat, s: Scan)
    ensures ScanFields(srv, i, s) == s.(problems := s.problems + RefFieldProblems(srv, i))
  {
  }

  lemma ScanServerComputesReference(servers: seq<ServerFacts>, i: nat, s: Scan)
    requires i < |servers|
    requires s.aliases == AliasesBefore(servers, i) && s.tables == KeysBefore(servers, i)
    ensures ScanServer(servers[i], i, s)
      == Scan(s.problems + RefServerProblems(servers, i), AliasesBefore(servers, i + 1), KeysBefore(servers, i + 1))
  {
    var srv := servers[i];
    var s1 := ScanAlias(srv, i, s);
    ScanAliasComputesReference(servers, i, s);
    var s4 := ScanFields(srv, i, s1);
    ScanFieldsComputesReference(srv, i, s1);
    assert KeysOfServer(srv, 0) == {};
    ScanTablesComputesReference(servers, i, 0, s4);
    var a, b, c, d := s.problems, RefAliasProblems(servers, i), RefFieldProblems(srv, i), RefTableProblems(servers, i, 0);
    AppendAssoc(a, b, c);
    AppendAssoc(a, b + c, d);
  }

  lemma {:induction false} ScanServersComputesReference(servers: seq<ServerFacts>, i: nat, s: Scan)
    requires i <= |servers|
    requires s.aliases == AliasesBefore(servers, i) && s.tables == KeysBefore(servers, i)
    ensures ScanServers(servers, i, s).problems == s.problems + RefProblemsFrom(servers, i)
    decreases |servers| - i
  {
    if i == |servers| {
      assert s.problems + [] == s.problems;
    } else {
      var s' := ScanServer(servers[i], i, s);
      assert ScanServers(servers, i, s) == ScanServers(servers, i + 1, s');
      ScanServerComputesReference(servers, i, s);
      ScanServersComputesReference(servers, i + 1, s');
      AppendAssoc(s.problems, RefServerProblems(servers, i), RefProblemsFrom(servers, i + 1));
    }
  }

  lemma AppendAssoc<T>(a: seq<T>, b: seq<T>, c: seq<T>)
    ensures a + b + c == a + (b + c)
  {
  }

  lemma AppendEmpty<T>(a: seq<T>, b: seq<T>)
    ensures a + b == [] <==> a == [] && b == []
  {
  }

  /** The pass reports exactly the reference problems, in the same order. */
  lemma ProblemsMatchReference(cfg: IngestionConfig)
    ensures Problems(cfg) == ReferenceProblems(cfg)
  {
    var start := if |cfg.sqlServers| == 0 then [NoServers] else [];
    ScanServersComputesReference(Facts(cfg), 0, Scan(start, {}, {}));
  }

  // ---------------------------------------------------------------------------
  // What an accepted configuration looks like.
  // ---------------------------------------------------------------------------

  ghost predicate ServerComplete(srv: SqlServerEntry) {
    && !IsBlank(srv.alias)
    && !IsBlank(srv.database)
    && !IsBlank(srv.secretName)
    && |srv.tables| > 0
    && forall j :: 0 <= j < |srv.tables| ==> !IsBlank(srv.tables[j].name)
  }

  /** Table l of server k comes before table j of server i. */
  ghost predicate TableBefore(servers: seq<SqlServerEntry>, k: int, l: int, i: int, j: int) {
    0 <= k <= i < |servers| && 0 <= l < |servers[k].tables| && 0 <= j < |servers[i].tables| && (k < i || l < j)
  }

  /** At least one server; every server complete; aliases distinct up to case
      and white space; no two tables with the same alias, database, schema
      and name. */
  ghost predicate WellFormed(cfg: IngestionConfig) {
    var servers := cfg.sqlServers;
    && |servers| > 0
    && (forall i :: 0 <= i < |servers| ==> ServerComplete(servers[i]))
    && (forall k, i :: 0 <= k < i < |servers| ==> AliasKey(servers[k]) != AliasKey(servers[i]))
    && (forall k, l, i, j :: TableBefore(servers, k, l, i, j) ==>
          TableKey(servers[k], servers[k].tables[l]) != TableKey(servers[i], servers[i].tables[j]))
  }

  /** Server i contributes no problem. */
  ghost predicate ServerAccepted(servers: seq<ServerFacts>, i: nat)
    requires i < |servers|
  {
    && !servers[i].blankAlias
    && !AliasTakenBefore(servers, i)
    && !servers[i].blankDatabase
    && !servers[i].blankSecret
    && |servers[i].tables| > 0
    && forall j :: 0 <= j < |servers[i].tables| ==>
         !servers[i].tables[j].blankName && !TableTakenBefore(servers, i, j)
  }

  lemma {:induction false} RefTableProblemsEmpty(servers: seq<ServerFacts>, i: nat, j: nat)
    requires i < |servers| && j <= |servers[i].tables|
    ensures RefTableProblems(servers, i, j) == [] <==>
      forall j' :: j <= j' < |servers[i].tables| ==>
        !servers[i].tables[j'].blankName && !TableTakenBefore(servers, i, j')
    decreases |servers[i].tables| - j
  {
    if j < |servers[i].tables| {
      RefTableProblemsEmpty(servers, i, j + 1);
      var head := RefTableProblem(servers, i, j);
      AppendEmpty(head, RefTableProblems(servers, i, j + 1));
      assert head == [] <==> !servers[i].tables[j].blankName && !TableTakenBefore(servers, i, j);
    }
  }

  /** Servers i, i+1, ... all contribute no problem. */
  ghost predicate AcceptedFrom(servers: seq<ServerFacts>, i: nat)
    requires i <= |servers|
    decreases |servers| - i
  {
    i == |servers| || (ServerAccepted(servers, i) && AcceptedFrom(servers, i + 1))
  }

  lemma {:induction false} AcceptedFromMeans(servers: seq<ServerFacts>, i: nat)
    requires i <= |servers|
    ensures AcceptedFrom(servers, i) <==> forall i' :: i <= i' < |servers| ==> ServerAccepted(servers, i')
    decreases |servers| - i
  {
    if i < |servers| {
      AcceptedFromMeans(servers, i + 1);
      AllAcceptedStep(servers, i);
    }
  }

  lemma AllAcceptedStep(servers: seq<ServerFacts>, i: nat)
    requires i < |servers|
    ensures (forall i' :: i <= i' < |servers| ==> ServerAccepted(servers, i'))
      <==> ServerAccepted(servers, i) && forall i' :: i + 1 <= i' < |servers| ==> ServerAccepted(servers, i')
  {
  }

  lemma {:induction false} RefProblemsFromEmpty(servers: seq<ServerFacts>, i: nat)
    requires i <= |servers|
    ensures RefProblemsFrom(servers, i) == [] <==> AcceptedFrom(servers, i)
    decreases |servers| - i
  {
    if i < |servers| {
      RefProblemsFromEmpty(servers, i + 1);
      RefServerProblemsEmpty(servers, i);
      RefProblemsFromUnfold(servers, i);
      AppendEmpty(RefServerProblems(servers, i), RefProblemsFrom(servers, i + 1));
    }
  }

  lemma RefProblemsFromUnfold(servers: seq<ServerFacts>, i: nat)
    requires i < |servers|
    ensures RefProblemsFrom(servers, i) == RefServerProblems(servers, i) + RefProblemsFrom(servers, i + 1)
  {
  }

  lemma RefServerProblemsEmpty(servers: seq<ServerFacts>, i: nat)
    requires i < |servers|
    ensures RefServerProblems(servers, i) == [] <==> ServerAccepted(servers, i)
  {
    RefTableProblemsEmpty(servers, i, 0);
  }

  /** Nothing blank or missing, aliases and table keys pairwise distinct,
      stated over the facts. */
  ghost predicate FactsWellFormed(servers: seq<ServerFacts>) {
    && (forall i :: 0 <= i < |servers| ==>
          && !servers[i].blankAlias && !servers[i].blankDatabase && !servers[i].blankSecret
          && |servers[i].tables| > 0
          && forall j :: 0 <= j < |servers[i].tables| ==> !servers[i].tables[j].blankName)
    && (forall k, i :: 0 <= k < i < |servers| ==> servers[k].aliasKey != servers[i].aliasKey)
    && (forall k, l, i, j :: Earlier(servers, k, l, i, j) && i < |servers| && 0 <= j < |servers[i].tables| ==>
          servers[k].tables[l].key != servers[i].tables[j].key)
  }

  /** Every server accepted exactly when the aliases and table keys are
      pairwise distinct and nothing is blank or missing. */
  lemma AcceptedIffDistinct(servers: seq<ServerFacts>)
    ensures (forall i :: 0 <= i < |servers| ==> ServerAccepted(servers, i)) <==> FactsWellFormed(servers)
  {
    if forall i :: 0 <= i < |servers| ==> ServerAccepted(servers, i) {
      forall i | 0 <= i < |servers|
        ensures !servers[i].blankAlias && !servers[i].blankDatabase && !servers[i].blankSecret
        ensures |servers[i].tables| > 0
        ensures forall j :: 0 <= j < |servers[i].tables| ==> !servers[i].tables[j].blankName
      {
        assert ServerAccepted(servers, i);
      }
      forall k, i | 0 <= k < i < |servers|
        ensures servers[k].aliasKey != servers[i].aliasKey
      {
        assert ServerAccepted(servers, i);
        assert ServerAccepted(servers, k);
      }
      forall k, l, i, j | Earlier(servers, k, l, i, j) && i < |servers| && 0 <= j < |servers[i].tables|
        ensures servers[k].tables[l].key != servers[i].tables[j].key
      {
        assert ServerAccepted(servers, i);
        assert ServerAccepted(servers, k);
        assert !servers[k].tables[l].blankName;
        assert !TableTakenBefore(servers, i, j);
      }
    }
    if FactsWellFormed(servers) {
      forall i | 0 <= i < |servers|
        ensures ServerAccepted(servers, i)
      {
        assert !servers[i].blankAlias && !servers[i].blankDatabase && !servers[i].blankSecret && |servers[i].tables| > 0;
        assert !AliasTakenBefore(servers, i);
        forall j | 0 <= j < |servers[i].tables|
          ensures !TableTakenBefore(servers, i, j)
        {
          assert !servers[i].tables[j].blankName;
        }
      }
    }
  }

  /** The facts of a configuration say what the configuration says. */
  lemma FactsOfWellFormed(cfg: IngestionConfig)
    ensures WellFormed(cfg) <==> |cfg.sqlServers| > 0 && FactsWellFormed(Facts(cfg))
  {
    var v := Facts(cfg);
    var servers := cfg.sqlServers;
    forall k, l, i, j
      ensures (Earlier(v, k, l, i, j) && i < |v| && 0 <= j < |v[i].tables|) <==> TableBefore(servers, k, l, i, j)
    {
    }
  }

  /** The pass finds nothing exactly when the configuration is well formed. */
  lemma NoProblemsIffWellFormed(cfg: IngestionConfig)
    ensures Problems(cfg) == ReferenceProblems(cfg)
    ensures Problems(cfg) == [] <==> WellFormed(cfg)
  {
    ProblemsMatchReference(cfg);
    ReferenceEmptyIffWellFormed(cfg);
  }

  lemma ReferenceEmptyIffWellFormed(cfg: IngestionConfig)
    ensures ReferenceProblems(cfg) == [] <==> WellFormed(cfg)
  {
    var v := Facts(cfg);
    RefProblemsFromEmpty(v, 0);
    AcceptedFromMeans(v, 0);
    AcceptedIffDistinct(v);
    FactsOfWellFormed(cfg);
    AppendEmpty(if |cfg.sqlServers| == 0 then [NoServers] else [], RefProblemsFrom(v, 0));
  }

  /** `ValidateIngestionConfig`: success exactly for a well-formed
      configuration; otherwise every problem, in the order found. */
  function ValidateIngestionConfig(cfg: IngestionConfig): (r: Result<(), seq<Problem>>)
    ensures r.Success? <==> WellFormed(cfg)
    ensures r.Failure? ==> r.error == ReferenceProblems(cfg) && r.error != []
  {
    var problems := Problems(cfg);
    NoProblemsIffWellFormed(cfg);
    if problems == [] then Success(()) else Failure(problems)
  }

  // ---------------------------------------------------------------------------
  // Connection variables per alias.
  // ---------------------------------------------------------------------------

  /** `SQLSERVER_<ALIAS>_<SUFFIX>` for the trimmed, upper-cased alias. */
  function AliasEnvVar(alias: string, suffix: string): string {
    "SQLSERVER_" + ToUpper(Trim(alias)) + suffix
  }

  /** The host, user and password variables of an alias, in that order. */
  function AliasEnvVars(alias: string): (names: seq<string>)
    ensures |names| == 3
  {
    [AliasEnvVar(alias, "_HOST"), AliasEnvVar(alias, "_USER"), AliasEnvVar(alias, "_PASSWORD")]
  }

  datatype EnvProblem = MissingEnv(name: string, alias: string)

  /** The variables among `names` that are unset or empty, in order. */
  function Unset(names: seq<string>, alias: string, env: Environment): (r: seq<EnvProblem>)
    ensures forall p :: p in r ==> p.alias == alias && p.name in names && Getenv(env, p.name) == ""
    ensures forall name :: name in names && Getenv(env, name) == "" ==> MissingEnv(name, alias) in r
  {
    if names == [] then []
    else
      var rest := Unset(names[1..], alias, env);
      if Getenv(env, names[0]) == "" then [MissingEnv(names[0], alias)] + rest else rest
  }

  /** The missing variables of the servers from position i on; a blank alias
      is skipped. */
  function MissingFrom(servers: seq<SqlServerEntry>, i: nat, env: Environment): (r: seq<EnvProblem>)
    requires i <= |servers|
    decreases |servers| - i
  {
    if i == |servers| then []
    else MissingHere(servers[i], env) + MissingFrom(servers, i + 1, env)
  }

  /** The missing variables of one server; none for a blank alias. */
  function MissingHere(srv: SqlServerEntry, env: Environment): (r: seq<EnvProblem>)
    ensures forall p :: p in r ==>
      p.alias == srv.alias && !IsBlank(srv.alias) && p.name in AliasEnvVars(srv.alias) && Getenv(env, p.name) == ""
    ensures forall name :: (!IsBlank(srv.alias) && name in AliasEnvVars(srv.alias) && Getenv(env, name) == "") ==>
      MissingEnv(name, srv.alias) in r
  {
    if IsBlank(srv.alias) then [] else Unset(AliasEnvVars(srv.alias), srv.alias, env)
  }

  /** Everything reported is a missing variable of some server from i on. */
  lemma {:induction false} MissingFromSound(servers: seq<SqlServerEntry>, i: nat, env: Environment, p: EnvProblem)
    requires i <= |servers| && p in MissingFrom(servers, i, env)
    ensures exists k :: i <= k < |servers| && servers[k].alias == p.alias
    ensures !IsBlank(p.alias) && p.name in AliasEnvVars(p.alias) && Getenv(env, p.name) == ""
    decreases |servers| - i
  {
    if p !in MissingHere(servers[i], env) {
      MissingFromSound(servers, i + 1, env, p);
    }
  }

  /** Every missing variable of a non-blank alias from i on is reported. */
  lemma {:induction false} MissingFromComplete(servers: seq<SqlServerEntry>, i: nat, env: Environment, k: nat, name: string)
    requires i <= k < |servers| && !IsBlank(servers[k].alias)
    requires name in AliasEnvVars(servers[k].alias) && Getenv(env, name) == ""
    ensures MissingEnv(name, servers[k].alias) in MissingFrom(servers, i, env)
    decreases |servers| - i
  {
    var here := MissingHere(servers[i], env);
    var rest := MissingFrom(servers, i + 1, env);
    assert MissingFrom(servers, i, env) == here + rest;
    if k > i {
      MissingFromComplete(servers, i + 1, env, k, name);
      assert MissingEnv(name, servers[k].alias) in rest;
    } else {
      assert MissingEnv(name, servers[k].alias) in here;
    }
  }

  /** Every non-blank alias has all three connection variables set. */
  ghost predicate EnvComplete(cfg: IngestionConfig, env: Environment) {
    forall i, name :: 0 <= i < |cfg.sqlServers| && !IsBlank(cfg.sqlServers[i].alias) && name in AliasEnvVars(cfg.sqlServers[i].alias)
      ==> Getenv(env, name) != ""
  }

  lemma NothingMissingIffComplete(cfg: IngestionConfig, env: Environment)
    ensures MissingFrom(cfg.sqlServers, 0, env) == [] <==> EnvComplete(cfg, env)
  {
    var r := MissingFrom(cfg.sqlServers, 0, env);
    if r != [] {
      assert r[0] in r;
      MissingFromSound(cfg.sqlServers, 0, env, r[0]);
      var k :| 0 <= k < |cfg.sqlServers| && cfg.sqlServers[k].alias == r[0].alias;
      assert !EnvComplete(cfg, env);
    }
    if !EnvComplete(cfg, env) {
      var k, name :| 0 <= k < |cfg.sqlServers| && !IsBlank(cfg.sqlServers[k].alias)
        && name in AliasEnvVars(cfg.sqlServers[k].alias) && Getenv(env, name) == "";
      MissingFromComplete(cfg.sqlServers, 0, env, k, name);
    }
  }

  /** `ValidateEnvForAliases`: success exactly when every non-blank alias has
      its host, user and password variables; otherwise each missing one is
      reported, and only missing ones are. */
  function ValidateEnvForAliases(cfg: IngestionConfig, env: Environment): (r: Result<(), seq<EnvProblem>>)
    ensures r.Success? <==> EnvComplete(cfg, env)
    ensures r.Failure? ==> r.error != [] && forall p :: p in r.error ==>
      !IsBlank(p.alias) && p.name in AliasEnvVars(p.alias) && Getenv(env, p.name) == ""
  {
    var problems := MissingFrom(cfg.sqlServers, 0, env);
    NothingMissingIffComplete(cfg, env);
    ReportedAreMissing(cfg, env);
    if problems == [] then Success(()) else Failure(problems)
  }

  lemma ReportedAreMissing(cfg: IngestionConfig, env: Environment)
    ensures forall p :: p in MissingFrom(cfg.sqlServers, 0, env) ==>
      !IsBlank(p.alias) && p.name in AliasEnvVars(p.alias) && Getenv(env, p.name) == ""
  {
    forall p | p in MissingFrom(cfg.sqlServers, 0, env)
      ensures !IsBlank(p.alias) && p.name in AliasEnvVars(p.alias) && Getenv(env, p.name) == ""
    {
      MissingFromSound(cfg.sqlServers, 0, env, p);
    }
  }

  /** An accepted environment has the host variable of every non-blank alias. */
  lemma EnvCompleteHasHost(cfg: IngestionConfig, env: Environment, i: nat)
    requires EnvComplete(cfg, env) && i < |cfg.sqlServers| && !IsBlank(cfg.sqlServers[i].alias)
    ensures Getenv(env, AliasEnvVar(cfg.sqlServers[i].alias, "_HOST")) != ""
    ensures Getenv(env, AliasEnvVar(cfg.sqlServers[i].alias, "_USER")) != ""
    ensures Getenv(env, AliasEnvVar(cfg.sqlServers[i].alias, "_PASSWORD")) != ""
  {
    var names := AliasEnvVars(cfg.sqlServers[i].alias);
    assert names[0] in names && names[1] in names && names[2] in names;
  }
}

=== FILE: kustomize.dfy ===
/** The per-directory `kustomization.yaml` resource list and the
    read-modify-write that merges newly generated file names into it.

    YAML parsing and file I/O are abstracted: what reading the file gave is an
    input (`Stored`), whether writing it back succeeds is an input (`writeOk`),
    and the document that would be written is part of the result. */
module Kustomize {
  import opened Strs

  const DefaultApiVersion: string := "kustomize.config.k8s.io/v1beta1"
  const DefaultKind: string := "Kustomization"

  /** The document; an empty string is a field the YAML leaves out. */
  datatype Kustomization = Kustomization(
    apiVersion: string,
    kind: string,
    namespace: string,
    resources: seq<string>)

  /** What reading `<dir>/kustomization.yaml` gave. */
  datatype Stored =
    | Missing                      // the file does not exist
    | Unreadable                   // any other read error
    | Malformed                    // read, but not a parseable document
    | Present(doc: Kustomization)  // read and parsed

  datatype UpdateError = ReadFailed | ParseFailed | WriteFailed

  datatype Update =
    | Untouched                     // returned before reading: nothing to add
    | Written(doc: Kustomization)   // this document was written back
    | Failed(error: UpdateError)

  predicate NoDuplicates(s: seq<string>) {
    forall i, j :: 0 <= i < j < |s| ==> s[i] != s[j]
  }

  /** `a` is `b` with some elements deleted. */
  predicate IsSubsequence(a: seq<string>, b: seq<string>)
    decreases |b|
  {
    || a == []
    || (b != [] && if a[0] == b[0] then IsSubsequence(a[1..], b[1..]) else IsSubsequence(a, b[1..]))
  }

  /** A usable file name: non-empty and already trimmed. */
  predicate IsName(x: string) {
    x != [] && Trim(x) == x
  }

  /** The incoming names trimmed, blanks dropped, and only the first
      occurrence of each kept (kustomize.go:29-42). */
  function UniqueNames(files: seq<string>): (r: seq<string>)
    ensures NoDuplicates(r)
    ensures forall i :: 0 <= i < |r| ==> IsName(r[i])
    decreases |files|
  {
    if files == [] then []
    else
      var prev := UniqueNames(files[..|files| - 1]);
      var f := Trim(files[|files| - 1]);
      if f == [] || f in prev then prev
      else
        TrimIdempotent(files[|files| - 1]);
        SnocKeepsNames(prev, f);
        prev + [f]
  }

  lemma SnocKeepsNames(prev: seq<string>, f: string)
    requires NoDuplicates(prev) && forall i :: 0 <= i < |prev| ==> IsName(prev[i])
    requires IsName(f) && f !in prev
    ensures NoDuplicates(prev + [f]) && forall i :: 0 <= i < |prev + [f]| ==> IsName((prev + [f])[i])
  {
    var s := prev + [f];
    forall i | 0 <= i < |s|
      ensures IsName(s[i])
    {
      if i < |prev| {
        assert s[i] == prev[i];
      }
    }
    forall i, j | 0 <= i < j < |s|
      ensures s[i] != s[j]
    {
      if j == |prev| {
        assert s[i] == prev[i];
      } else {
        assert s[i] == prev[i] && s[j] == prev[j];
      }
    }
  }

  /** Every input name trimmed, in order. */
  function TrimAll(files: seq<string>): (r: seq<string>)
    ensures |r| == |files| && forall k :: 0 <= k < |files| ==> r[k] == Trim(files[k])
  {
    seq(|files|, k requires 0 <= k < |files| => Trim(files[k]))
  }

  /** `x` is the trimmed form of some non-blank input name. */
  predicate Mentions(files: seq<string>, x: string) {
    x != [] && x in TrimAll(files)
  }

  lemma MentionsSnoc(p: seq<string>, last: string, x: string)
    ensures Mentions(p + [last], x) <==> Mentions(p, x) || (x != [] && Trim(last) == x)
  {
    var files, a := p + [last], TrimAll(p);
    var b := TrimAll(files);
    forall k | 0 <= k < |b|
      ensures b[k] == (a + [Trim(last)])[k]
    {
      if k < |p| {
        assert files[k] == p[k];
      }
    }
    assert b == a + [Trim(last)];
  }

  /** The collected names are exactly the trimmed non-blank input names. */
  lemma {:induction false} UniqueNamesContents(files: seq<string>, x: string)
    ensures x in UniqueNames(files) <==> Mentions(files, x)
    decreases |files|
  {
    if files != [] {
      var p := files[..|files| - 1];
      var last := files[|files| - 1];
      assert files == p + [last];
      var prev, f := UniqueNames(p), Trim(last);
      assert UniqueNames(files) == if f == [] || f in prev then prev else prev + [f];
      UniqueNamesContents(p, x);
      MentionsSnoc(p, last, x);
    }
  }

  /** Nothing is collected exactly when every input name is blank. */
  lemma UniqueNamesEmptyIffAllBlank(files: seq<string>)
    ensures UniqueNames(files) == [] <==> forall k :: 0 <= k < |files| ==> IsBlank(files[k])
  {
    var r := UniqueNames(files);
    if r != [] {
      UniqueNamesContents(files, r[0]);
      var k :| 0 <= k < |files| && TrimAll(files)[k] == r[0];
      BlankIffTrimsToEmpty(files[k]);
    }
    if exists k :: 0 <= k < |files| && !IsBlank(files[k]) {
      var k :| 0 <= k < |files| && !IsBlank(files[k]);
      BlankIffTrimsToEmpty(files[k]);
      UniqueNamesContents(files, Trim(files[k]));
      assert TrimAll(files)[k] == Trim(files[k]);
    }
  }

  /** Names are kept in the order they are first seen: the names collected
      from any prefix of the input are a prefix of the names collected from
      all of it. */
  lemma {:induction false} UniqueNamesFirstSeenOrder(files: seq<string>, n: nat)
    requires n <= |files|
    ensures UniqueNames(files[..n]) <= UniqueNames(files)
    decreases |files| - n
  {
    if n == |files| {
      assert files[..n] == files;
    } else {
      UniqueNamesFirstSeenOrder(files, n + 1);
      assert files[..n + 1][..n] == files[..n];
    }
  }

  /** The trimmed forms of the existing entries (kustomize.go:69-72). */
  function TrimmedSet(resources: seq<string>): set<string> {
    set r | r in resources :: Trim(r)
  }

  /** The names of `names` not in `listed`, in their order. */
  function NotListed(listed: set<string>, names: seq<string>): (r: seq<string>)
    ensures forall x :: x in r <==> x in names && x !in listed
    ensures IsSubsequence(r, names)
    ensures NoDuplicates(names) ==> NoDuplicates(r)
    decreases |names|
  {
    if names == [] then []
    else if names[0] in listed then NotListed(listed, names[1..])
    else [names[0]] + NotListed(listed, names[1..])
  }

  /** The document the merge starts from (kustomize.go:48-57). */
  function Loaded(stored: Stored): Kustomization
    requires stored.Missing? || stored.Present?
  {
    if stored.Present? then stored.doc else Kustomization("", "", "", [])
  }

  /** The document edit of kustomize.go:59-78: header defaults, namespace,
      and the resource list extended with the names it does not list yet. */
  function Merge(before: Kustomization, names: seq<string>, namespace: string): (after: Kustomization)
    // defaults fill empty header fields only
    ensures after.apiVersion == (if before.apiVersion == "" then DefaultApiVersion else before.apiVersion)
    ensures after.kind == (if before.kind == "" then DefaultKind else before.kind)
    // the namespace is set at most once and never cleared
    ensures before.namespace != "" ==> after.namespace == before.namespace
    ensures before.namespace == "" ==> after.namespace == namespace
    // existing entries stay, unchanged and in order; the new ones follow
    ensures |after.resources| >= |before.resources|
    ensures after.resources[..|before.resources|] == before.resources
    ensures forall x :: x in after.resources[|before.resources|..] <==>
      x in names && x !in TrimmedSet(before.resources)
    ensures IsSubsequence(after.resources[|before.resources|..], names)
  {
    var apiVersion := if before.apiVersion == "" then DefaultApiVersion else before.apiVersion;
    var kind := if before.kind == "" then DefaultKind else before.kind;
    var ns := if namespace != "" && before.namespace == "" then namespace else before.namespace;
    var added := NotListed(TrimmedSet(before.resources), names);
    assert (before.resources + added)[|before.resources|..] == added;
    Kustomization(apiVersion, kind, ns, before.resources + added)
  }

  /** `UpdateKustomization(dir, newFiles, namespace)`. */
  function UpdateKustomization(stored: Stored, newFiles: seq<string>, namespace: string, writeOk: bool): (r: Update)
    // nothing to add: return before reading or writing
    ensures r.Untouched? <==> forall k :: 0 <= k < |newFiles| ==> IsBlank(newFiles[k])
    // read and parse errors: nothing is written
    ensures !r.Untouched? && stored.Unreadable? ==> r == Failed(ReadFailed)
    ensures !r.Untouched? && stored.Malformed? ==> r == Failed(ParseFailed)
    ensures !r.Untouched? && (stored.Missing? || stored.Present?) && !writeOk ==> r == Failed(WriteFailed)
    ensures r.Written? <==> !r.Untouched? && writeOk && (stored.Missing? || stored.Present?)
    ensures r.Written? ==> r.doc == Merge(Loaded(stored), UniqueNames(newFiles), namespace)
  {
    var names := UniqueNames(newFiles);
    UniqueNamesEmptyIffAllBlank(newFiles);
    if names == [] then Untouched
    else if stored.Unreadable? then Failed(ReadFailed)
    else if stored.Malformed? then Failed(ParseFailed)
    else if writeOk then Written(Merge(Loaded(stored), names, namespace))
    else Failed(WriteFailed)
  }

  lemma NothingUnlisted(listed: set<string>, names: seq<string>)
    requires forall x :: x in names ==> x in listed
    ensures NotListed(listed, names) == []
  {
  }

  lemma InTrimmedSet(resources: seq<string>, r: string)
    requires r in resources
    ensures Trim(r) in TrimmedSet(resources)
  {
  }

  /** Merging names that are already trimmed, into a document that the same
      merge produced, changes nothing. */
  lemma MergeIdempotent(before: Kustomization, names: seq<string>, namespace: string)
    requires forall i :: 0 <= i < |names| ==> IsName(names[i])
    ensures Merge(Merge(before, names, namespace), names, namespace) == Merge(before, names, namespace)
  {
    var once := Merge(before, names, namespace);
    var listed := TrimmedSet(once.resources);
    forall x | x in names
      ensures x in listed
    {
      var i :| 0 <= i < |names| && names[i] == x;
      assert IsName(x);
      if x !in TrimmedSet(before.resources) {
        assert x in once.resources[|before.resources|..];
        assert x in once.resources;
        InTrimmedSet(once.resources, x);
      } else {
        var r :| r in before.resources && Trim(r) == x;
        assert r in once.resources[..|before.resources|];
        assert r in once.resources;
        InTrimmedSet(once.resources, r);
      }
    }
    NothingUnlisted(listed, names);
    assert once.resources + [] == once.resources;
  }

  /** Running the update twice with the same names writes the first result
      again, unchanged. */
  lemma UpdateIdempotent(stored: Stored, newFiles: seq<string>, namespace: string)
    requires UpdateKustomization(stored, newFiles, namespace, true).Written?
    ensures
      var once := UpdateKustomization(stored, newFiles, namespace, true).doc;
      UpdateKustomization(Present(once), newFiles, namespace, true) == Written(once)
  {
    MergeIdempotent(Loaded(stored), UniqueNames(newFiles), namespace);
  }

  /** The merge never introduces a duplicate: a duplicate-free list stays
      duplicate-free. */
  lemma MergeNoNewDuplicates(before: Kustomization, names: seq<string>, namespace: string)
    requires NoDuplicates(names)
    requires forall i :: 0 <= i < |names| ==> IsName(names[i])
    requires NoDuplicates(before.resources)
    ensures NoDuplicates(Merge(before, names, namespace).resources)
  {
    var after := Merge(before, names, namespace).resources;
    var added := after[|before.resources|..];
    assert after == before.resources + added;
    forall i, j | 0 <= i < j < |after|
      ensures after[i] != after[j]
    {
      if j >= |before.resources| {
        assert after[j] in added;
        if i < |before.resources| {
          assert Trim(after[i]) in TrimmedSet(before.resources);
        }
      }
    }
  }
}

=== FILE: layout.dfy ===
/** Directory layout of the output tree: where source connectors, sink
    connectors and Snowflake jobs go, either in the Argo CD / Strimzi
    repository layout (`argoStyle`) or in a flat local `out/` tree.

    A path is the sequence of segments `filepath.Join` is given; Join's
    cleaning of `.`, `..`, empty and slash-bearing segments is not modelled. */
module Repo {
  import opened Strs

  type Path = seq<string>

  datatype Layout = Layout(
    baseDir: string,           // apps/ in the repository, out/ locally
    env: string,               // production | homolog | development
    sourceProvider: string,    // e.g. debeziumsqlserver
    snowflakeLogical: string,  // e.g. lz-sql-ih-prd
    argoStyle: bool)
  {
    /** Root of the source connectors. */
    function SourceRoot(): (p: Path)
      ensures |p| == (if argoStyle then 6 else 3)
      ensures p[0] == baseDir && p[|p| - 1] == sourceProvider && p[|p| - 2] == "source"
      ensures argoStyle ==> p[..4] == [baseDir, "strimzi_conectores", "envs", env]
    {
      if argoStyle then [baseDir, "strimzi_conectores", "envs", env, "source", sourceProvider]
      else [baseDir, "source", sourceProvider]
    }

    /** Root of the Snowflake sink connectors. */
    function SinkRoot(): (p: Path)
      ensures |p| == (if argoStyle then 7 else 4)
      ensures p[0] == baseDir && p[|p| - 1] == snowflakeLogical
      ensures p[|p| - 3..|p| - 1] == ["sink", "jobsnowflake"]
      ensures argoStyle ==> p[..4] == [baseDir, "strimzi_conectores", "envs", env]
    {
      if argoStyle then [baseDir, "strimzi_conectores", "envs", env, "sink", "jobsnowflake", snowflakeLogical]
      else [baseDir, "sink", "jobsnowflake", snowflakeLogical]
    }

    /** Root of the Snowflake jobs; the same in both layouts. */
    function JobRoot(): (p: Path)
      ensures |p| == 5 && p[0] == baseDir && p[1] == "jobs" && p[2] == "snowflake_envs"
      ensures p[3] == env && p[4] == snowflakeLogical
    {
      [baseDir, "jobs", "snowflake_envs", env, snowflakeLogical]
    }

    /** Directory of one database and schema under the source root. */
    function SourceDBDir(db: string, schema: string): Path
    {
      SourceRoot() + [ToLower(db) + "_" + ToLower(schema)]
    }

    /** Directory of one database under the sink root. */
    function SinkDBDir(db: string): Path
    {
      SinkRoot() + [ToLower(db)]
    }

    /** Directory of one database under the job root. */
    function JobDBDir(db: string): Path
    {
      JobRoot() + [ToLower(db)]
    }
  }

  /** `NewLayout`: the fields as given. */
  function NewLayout(baseDir: string, env: string, sourceProvider: string, snowflakeLogical: string, argoStyle: bool): (l: Layout)
    ensures l.baseDir == baseDir && l.env == env && l.sourceProvider == sourceProvider
    ensures l.snowflakeLogical == snowflakeLogical && l.argoStyle == argoStyle
  {
    Layout(baseDir, env, sourceProvider, snowflakeLogical, argoStyle)
  }

  /** The Argo layout nests the local layout's source and sink trees under
      `strimzi_conectores/envs/<env>`; the job tree does not depend on the mode. */
  lemma ArgoNestsLocalLayout(l: Layout)
    ensures
      var argo := l.(argoStyle := true);
      var local := l.(argoStyle := false);
      var prefix := [l.baseDir, "strimzi_conectores", "envs", l.env];
      && argo.SourceRoot() == prefix + local.SourceRoot()[1..]
      && argo.SinkRoot() == prefix + local.SinkRoot()[1..]
      && argo.JobRoot() == local.JobRoot()
  {
  }

  /** Each database directory is its root extended by exactly one segment:
      `<db>_<schema>` in lower case for the source, `<db>` in lower case for
      the sink and the job. */
  lemma DBDirsExtendRoots(l: Layout, db: string, schema: string)
    ensures
      var src := l.SourceDBDir(db, schema);
      var sink := l.SinkDBDir(db);
      var job := l.JobDBDir(db);
      && |src| == |l.SourceRoot()| + 1 && src[..|src| - 1] == l.SourceRoot()
      && |sink| == |l.SinkRoot()| + 1 && sink[..|sink| - 1] == l.SinkRoot()
      && |job| == |l.JobRoot()| + 1 && job[..|job| - 1] == l.JobRoot()
      && src[|src| - 1] == ToLower(db) + "_" + ToLower(schema)
      && sink[|sink| - 1] == ToLower(db) && job[|job| - 1] == ToLower(db)
  {
  }

  /** Database and schema names are case-insensitive: arguments that differ
      only in letter case give the same directories. */
  lemma {:induction false} DBDirsIgnoreCase(l: Layout, db: string, db': string, schema: string, schema': string)
    requires EqualFold(db, db') && EqualFold(schema, schema')
    ensures l.SourceDBDir(db, schema) == l.SourceDBDir(db', schema')
    ensures l.SinkDBDir(db) == l.SinkDBDir(db')
    ensures l.JobDBDir(db) == l.JobDBDir(db')
  {
    EqualFoldIffSameLower(db, db');
    EqualFoldIffSameLower(schema, schema');
  }

  /** Source, sink and job directories never coincide, whatever the
      databases, in either layout. */
  lemma ArtifactDirsDistinct(l: Layout, db1: string, schema1: string, db2: string, db3: string)
    ensures l.SourceDBDir(db1, schema1) != l.SinkDBDir(db2)
    ensures l.SourceDBDir(db1, schema1) != l.JobDBDir(db3)
    ensures l.SinkDBDir(db2) != l.JobDBDir(db3)
  {
    var src := l.SourceDBDir(db1, schema1);
    var sink := l.SinkDBDir(db2);
    var job := l.JobDBDir(db3);
    if l.argoStyle {
      assert src[4] == "source" && sink[4] == "sink";
      assert src[1] == "strimzi_conectores" && job[1] == "jobs";
      assert sink[1] == "strimzi_conectores";
    } else {
      assert src[1] == "source" && sink[1] == "sink" && job[1] == "jobs";
    }
  }
}

=== FILE: results.dfy ===
/** Failure-carrying values used across the model: an optional value and a
    success-or-error result. */
module Results {

  datatype Option<+T> = None | Some(value: T)

  datatype Result<+T, +E> = Success(value: T) | Failure(error: E)
}

=== FILE: sqlserver.dfy ===
/** SQL Server column metadata and how it becomes the column list of the
    Snowflake table definition: `mapToSnowflakeType` and
    `BuildBusinessColumnsDDL`. Reading the metadata from
    INFORMATION_SCHEMA is database I/O and is not part of this model. */
module SqlServer {
  import opened Strs
  import opened Results

  /** One row of INFORMATION_SCHEMA.COLUMNS; a SQL NULL is `None`. */
  datatype ColumnInfo = ColumnInfo(
    name: string,
    dataType: string,
    isNullable: string,
    charMaxLength: Option<int>,
    numericPrecision: Option<int>,
    numericScale: Option<int>)

  const IntegerTypes: set<string> := {"int", "bigint", "smallint", "tinyint"}
  const DecimalTypes: set<string> := {"decimal", "numeric"}
  const FloatTypes: set<string> := {"float", "real"}
  const BitTypes: set<string> := {"bit"}
  const TemporalTypes: set<string> := {"datetime", "datetime2", "smalldatetime", "datetimeoffset", "date", "time"}
  const CharacterTypes: set<string> := {"char", "nchar", "varchar", "nvarchar"}

  /** The SQL Server types with a dedicated Snowflake counterpart. */
  const KnownTypes: set<string> := IntegerTypes + DecimalTypes + FloatTypes + BitTypes + TemporalTypes + CharacterTypes

  /** The Snowflake column type chosen for a column. */
  datatype SfType =
    | Int
    | Number(precisionScale: Option<(int, int)>)
    | Float
    | Boolean
    | TimestampNtz
    | Varchar(length: Option<int>)

  /** The family decision of `mapToSnowflakeType`, made on the lower-cased
      type name. Anything unknown falls back to an unsized VARCHAR, so every
      column gets a type. */
  function Classify(c: ColumnInfo): (r: SfType)
    ensures r.Int? <==> ToLower(c.dataType) in IntegerTypes
    ensures r.Number? <==> ToLower(c.dataType) in DecimalTypes
    ensures r.Float? <==> ToLower(c.dataType) in FloatTypes
    ensures r.Boolean? <==> ToLower(c.dataType) in BitTypes
    ensures r.TimestampNtz? <==> ToLower(c.dataType) in TemporalTypes
    ensures r.Varchar? <==> ToLower(c.dataType) in CharacterTypes || ToLower(c.dataType) !in KnownTypes
    ensures r.Number? ==>
      (r.precisionScale.Some? <==> c.numericPrecision.Some? && c.numericScale.Some?)
    ensures r.Number? && r.precisionScale.Some? ==>
      r.precisionScale.value == (c.numericPrecision.value, c.numericScale.value)
    ensures r.Varchar? ==>
      (r.length.Some? <==> ToLower(c.dataType) in CharacterTypes && c.charMaxLength.Some? && c.charMaxLength.value > 0)
    ensures r.Varchar? && r.length.Some? ==> r.length.value == c.charMaxLength.value
  {
    var t := ToLower(c.dataType);
    if t in IntegerTypes then Int
    else if t in DecimalTypes then
      if c.numericPrecision.Some? && c.numericScale.Some? then
        Number(Some((c.numericPrecision.value, c.numericScale.value)))
      else Number(None)
    else if t in FloatTypes then Float
    else if t in BitTypes then Boolean
    else if t in TemporalTypes then TimestampNtz
    else if t in CharacterTypes then
      if c.charMaxLength.Some? && c.charMaxLength.value > 0 then Varchar(Some(c.charMaxLength.value))
      else Varchar(None)
    else Varchar(None)
  }

  /** Snowflake spelling of a type. */
  function Render(t: SfType): (r: string)
    ensures |r| >= 3
  {
    match t
    case Int => "INT"
    case Number(None) => "NUMBER"
    case Number(Some((p, s))) => "NUMBER(" + FormatInt(p) + "," + FormatInt(s) + ")"
    case Float => "FLOAT"
    case Boolean => "BOOLEAN"
    case TimestampNtz => "TIMESTAMP_NTZ"
    case Varchar(None) => "VARCHAR"
    case Varchar(Some(n)) => "VARCHAR(" + FormatInt(n) + ")"
  }

  /** `mapToSnowflakeType`: the rendered type is the column's classification,
      which can be read back from it. */
  function MapToSnowflakeType(c: ColumnInfo): (r: string)
    ensures ParseSfType(r) == Some(Classify(c))
    ensures '\n' !in r && ' ' !in r
  {
    ParseRender(Classify(c));
    RenderHasNoBlank(Classify(c));
    Render(Classify(c))
  }

  // ---------------------------------------------------------------------------
  // Reading a Snowflake type back.
  // ---------------------------------------------------------------------------

  /** Position of the first `c` in `s`, or `|s|` when there is none. */
  function FirstIndexOf(s: string, c: char): (r: nat)
    ensures r <= |s|
    ensures r < |s| ==> s[r] == c
    ensures forall i :: 0 <= i < r ==> s[i] != c
  {
    if s == [] then 0
    else if s[0] == c then 0
    else 1 + FirstIndexOf(s[1..], c)
  }

  /** Parses `NUMBER(p,s)`, `VARCHAR(n)` and the bare type names. */
  function ParseSfType(s: string): Option<SfType> {
    if |s| > 8 && s[..8] == "VARCHAR(" && s[|s| - 1] == ')' then
      match ParseInt(s[8..|s| - 1])
      case Some(n) => Some(Varchar(Some(n)))
      case None => None
    else if |s| > 7 && s[..7] == "NUMBER(" && s[|s| - 1] == ')' then
      var inner := s[7..|s| - 1];
      var k := FirstIndexOf(inner, ',');
      if k == |inner| then None
      else
        match (ParseInt(inner[..k]), ParseInt(inner[k + 1..]))
        case (Some(p), Some(q)) => Some(Number(Some((p, q))))
        case _ => None
    else if s == "INT" then Some(Int)
    else if s == "NUMBER" then Some(Number(None))
    else if s == "FLOAT" then Some(Float)
    else if s == "BOOLEAN" then Some(Boolean)
    else if s == "TIMESTAMP_NTZ" then Some(TimestampNtz)
    else if s == "VARCHAR" then Some(Varchar(None))
    else None
  }

  lemma FormattedHasNoPunctuation(n: int)
    ensures ',' !in FormatInt(n) && ')' !in FormatInt(n) && ' ' !in FormatInt(n) && '\n' !in FormatInt(n)
  {
  }

  lemma ParseRenderVarchar(n: int)
    ensures ParseSfType(Render(Varchar(Some(n)))) == Some(Varchar(Some(n)))
  {
    var d := FormatInt(n);
    var s := "VARCHAR(" + d + ")";
    assert s[..8] == "VARCHAR(";
    assert s[8..|s| - 1] == d;
    FormatIntRoundTrip(n);
  }

  /** A first part free of `sep` is split off at the first `sep`. */
  lemma SplitAt(a: string, sep: char, b: string)
    requires sep !in a
    ensures var inner := a + [sep] + b;
      && FirstIndexOf(inner, sep) == |a| && inner[..|a|] == a && inner[|a| + 1..] == b
  {
    var inner := a + [sep] + b;
    assert inner[|a|] == sep;
    assert forall i :: 0 <= i < |a| ==> inner[i] == a[i];
    assert inner[..|a|] == a;
    assert inner[|a| + 1..] == b;
  }

  lemma ParseRenderNumber(p: int, q: int)
    ensures ParseSfType(Render(Number(Some((p, q))))) == Some(Number(Some((p, q))))
  {
    var a := FormatInt(p);
    var b := FormatInt(q);
    var s := "NUMBER(" + a + "," + b + ")";
    assert Render(Number(Some((p, q)))) == s;
    assert s[..8] != "VARCHAR(" by { assert s[0] == 'N'; }
    assert s[..7] == "NUMBER(";
    assert s[7..|s| - 1] == a + "," + b;
    FormattedHasNoPunctuation(p);
    SplitAt(a, ',', b);
    FormatIntRoundTrip(p);
    FormatIntRoundTrip(q);
  }

  /** Every type reads back as itself, so distinct types never share a spelling. */
  lemma ParseRender(t: SfType)
    ensures ParseSfType(Render(t)) == Some(t)
  {
    match t
    case Number(Some((p, q))) => ParseRenderNumber(p, q);
    case Varchar(Some(n)) => ParseRenderVarchar(n);
    case _ =>
  }

  /** The parser accepts only the renderer's spellings: whatever it reads
      renders back to the same text, so `VARCHAR(07)` or `NUMBER(1, 2)` are
      rejected. */
  lemma ParseOnlyRendered(s: string)
    ensures ParseSfType(s).Some? ==> Render(ParseSfType(s).value) == s
  {
    if |s| > 8 && s[..8] == "VARCHAR(" && s[|s| - 1] == ')' {
      var mid := s[8..|s| - 1];
      if ParseInt(mid).Some? {
        VarcharParsed(s, ParseInt(mid).value);
      }
    } else if |s| > 7 && s[..7] == "NUMBER(" && s[|s| - 1] == ')' {
      var inner := s[7..|s| - 1];
      var k := FirstIndexOf(inner, ',');
      if k < |inner| && ParseInt(inner[..k]).Some? && ParseInt(inner[k + 1..]).Some? {
        NumberParsed(s, k, ParseInt(inner[..k]).value, ParseInt(inner[k + 1..]).value);
      }
    }
  }

  /** `s` is `open`, then its middle, then a closing parenthesis. */
  lemma Bracketed(s: string, open: string)
    requires |s| > |open| && s[..|open|] == open && s[|s| - 1] == ')'
    ensures s == open + s[|open|..|s| - 1] + ")"
  {
    assert s == s[..|open|] + s[|open|..|s| - 1] + s[|s| - 1..];
  }

  lemma VarcharParsed(s: string, n: int)
    requires |s| > 8 && s[..8] == "VARCHAR(" && s[|s| - 1] == ')'
    requires ParseInt(s[8..|s| - 1]) == Some(n)
    ensures Render(Varchar(Some(n))) == s
  {
    ParseIntOnlyFormatted(s[8..|s| - 1]);
    Bracketed(s, "VARCHAR(");
  }

  /** A `NUMBER(` text with a comma inside is the two parts around that comma. */
  lemma NumberText(s: string, k: nat)
    requires |s| > 7 && s[..7] == "NUMBER(" && s[|s| - 1] == ')' && k < |s| - 8
    requires s[7..|s| - 1][k] == ','
    ensures s == "NUMBER(" + s[7..|s| - 1][..k] + "," + s[7..|s| - 1][k + 1..] + ")"
  {
    var inner := s[7..|s| - 1];
    Bracketed(s, "NUMBER(");
    assert inner == inner[..k] + [inner[k]] + inner[k + 1..];
  }

  lemma NumberParsed(s: string, k: nat, p: int, q: int)
    requires |s| > 7 && s[..7] == "NUMBER(" && s[|s| - 1] == ')' && k < |s| - 8
    requires s[7..|s| - 1][k] == ','
    requires ParseInt(s[7..|s| - 1][..k]) == Some(p) && ParseInt(s[7..|s| - 1][k + 1..]) == Some(q)
    ensures Render(Number(Some((p, q)))) == s
  {
    ParseIntOnlyFormatted(s[7..|s| - 1][..k]);
    ParseIntOnlyFormatted(s[7..|s| - 1][k + 1..]);
    NumberText(s, k);
  }

  lemma RenderInjective(t: SfType, u: SfType)
    requires Render(t) == Render(u)
    ensures t == u
  {
    ParseRender(t);
    ParseRender(u);
  }

  lemma RenderHasNoBlank(t: SfType)
    ensures '\n' !in Render(t) && ' ' !in Render(t)
  {
    match t
    case Number(Some((p, q))) =>
      var x := "NUMBER(" + FormatInt(p) + "," + FormatInt(q);
      NoBlankAfter("NUMBER(", FormatInt(p));
      NoBlankAfter("NUMBER(" + FormatInt(p) + ",", FormatInt(q));
      assert Render(t) == x + ")";
    case Varchar(Some(n)) =>
      NoBlankAfter("VARCHAR(", FormatInt(n));
      assert Render(t) == "VARCHAR(" + FormatInt(n) + ")";
    case Number(None) =>
    case Varchar(None) =>
    case Int =>
    case Float =>
    case Boolean =>
    case TimestampNtz =>
  }

  /** Appending a formatted number keeps a string free of blanks and breaks. */
  lemma NoBlankAfter(s: string, d: string)
    requires '\n' !in s && ' ' !in s
    requires forall i :: 0 <= i < |d| ==> IsDigit(d[i]) || d[i] == '-'
    ensures '\n' !in s + d && ' ' !in s + d
  {
    assert '\n' !in d && ' ' !in d;
  }

  /** The type name is matched without regard to letter case. */
  lemma {:induction false} TypeNameIgnoresCase(c: ColumnInfo, dataType: string)
    requires EqualFold(c.dataType, dataType)
    ensures MapToSnowflakeType(c.(dataType := dataType)) == MapToSnowflakeType(c)
  {
    EqualFoldIffSameLower(c.dataType, dataType);
    var c' := c.(dataType := dataType);
    assert Classify(c') == Classify(c);
  }

  // ---------------------------------------------------------------------------
  // The column list of the table definition.
  // ---------------------------------------------------------------------------

  const Indent: string := "      "

  /** `NULL` exactly when IS_NULLABLE is `YES` in any letter case. */
  function NullToken(isNullable: string): (r: string)
    ensures r == "NULL" <==> EqualFold(isNullable, "YES")
    ensures r == "NULL" || r == "NOT NULL"
  {
    if EqualFold(isNullable, "YES") then "NULL" else "NOT NULL"
  }

  /** One column as `      <name> <type> <NULL|NOT NULL>,` and a line break. */
  function ColumnLine(c: ColumnInfo): (r: string)
    ensures |r| > |Indent| + 2 && r[..|Indent|] == Indent && r[|r| - 2..] == ",\n"
  {
    var r := Indent + c.name + " " + MapToSnowflakeType(c) + " " + NullToken(c.isNullable) + ",\n";
    assert r[..|Indent|] == Indent;
    r
  }

  /** A column's line reads, after the indent, the column's name, a blank,
      its Snowflake type, a blank, and its null token. */
  lemma ColumnLineParts(c: ColumnInfo)
    ensures
      var r := ColumnLine(c);
      var head, tail := Indent + c.name + " ", " " + NullToken(c.isNullable) + ",\n";
      && |r| > |head| + |tail|
      && r[..|head|] == head
      && r[|head|..|r| - |tail|] == MapToSnowflakeType(c)
      && r[|r| - |tail|..] == tail
  {
    var head, ty, tail := Indent + c.name + " ", MapToSnowflakeType(c), " " + NullToken(c.isNullable) + ",\n";
    var r := head + ty + tail;
    assert ColumnLine(c) == r;
    assert r[..|head|] == head && r[|head|..|r| - |tail|] == ty && r[|r| - |tail|..] == tail;
  }

  /** The line of every column, end to end, in column order. */
  function Joined(cols: seq<ColumnInfo>, line: ColumnInfo -> string): (r: string)
    ensures cols == [] ==> r == []
    decreases |cols|
  {
    if cols == [] then [] else Joined(cols[..|cols| - 1], line) + line(cols[|cols| - 1])
  }

  /** Given the column's name, its line determines the Snowflake type and the
      nullability written for it: the type holds no blank, so it ends at the
      first blank after the name. */
  lemma ColumnLineDetermines(c: ColumnInfo, d: ColumnInfo)
    requires c.name == d.name && ColumnLine(c) == ColumnLine(d)
    ensures MapToSnowflakeType(c) == MapToSnowflakeType(d)
    ensures NullToken(c.isNullable) == NullToken(d.isNullable)
  {
    var tc, td := MapToSnowflakeType(c), MapToSnowflakeType(d);
    var nc, nd := NullToken(c.isNullable), NullToken(d.isNullable);
    LinePartsUnique(Indent + c.name + " ", tc, nc, td, nd);
  }

  /** The parts of a line after the fixed prefix are read back from it. */
  lemma LinePartsUnique(pre: string, tc: string, nc: string, td: string, nd: string)
    requires ' ' !in tc && ' ' !in td
    requires pre + tc + " " + nc + ",\n" == pre + td + " " + nd + ",\n"
    ensures tc == td && nc == nd
  {
    var ec, ed := nc + ",\n", nd + ",\n";
    var rc, rd := tc + [' '] + ec, td + [' '] + ed;
    assert pre + tc + " " + nc + ",\n" == pre + rc;
    assert pre + td + " " + nd + ",\n" == pre + rd;
    assert rc == (pre + rc)[|pre|..] == rd;
    SplitAt(tc, ' ', ec);
    SplitAt(td, ' ', ed);
    assert nc == ec[..|ec| - 2] == ed[..|ed| - 2] == nd;
  }

  /** A single column gives its own line. */
  lemma JoinedOne(c: ColumnInfo, line: ColumnInfo -> string)
    ensures Joined([c], line) == line(c)
  {
    assert [c][..0] == [];
  }

  /** One more column adds its line at the end. */
  lemma JoinedSnoc(cols: seq<ColumnInfo>, c: ColumnInfo, line: ColumnInfo -> string)
    ensures Joined(cols + [c], line) == Joined(cols, line) + line(c)
  {
    var s := cols + [c];
    assert s[..|s| - 1] == cols && s[|s| - 1] == c;
  }

  /** Joining two runs of columns is joining each in turn. */
  lemma {:induction false} JoinedConcat(a: seq<ColumnInfo>, b: seq<ColumnInfo>, line: ColumnInfo -> string)
    ensures Joined(a + b, line) == Joined(a, line) + Joined(b, line)
    decreases |b|
  {
    if b == [] {
      assert a + b == a;
    } else {
      var b', last := b[..|b| - 1], b[|b| - 1];
      assert b == b' + [last];
      assert a + b == (a + b') + [last];
      JoinedSnoc(a + b', last, line);
      JoinedSnoc(b', last, line);
      JoinedConcat(a, b', line);
    }
  }

  /** `BuildBusinessColumnsDDL`: the line of every column, in column order;
      nothing for no columns. */
  function BuildBusinessColumnsDDL(cols: seq<ColumnInfo>): (r: string)
    ensures r == [] <==> cols == []
    ensures cols != [] ==> |r| >= 2 && r[|r| - 2..] == ",\n"
  {
    var r := Joined(cols, ColumnLine);
    if cols == [] then r
    else
      var init, line := Joined(cols[..|cols| - 1], ColumnLine), ColumnLine(cols[|cols| - 1]);
      assert r == init + line;
      assert r[|r| - 2..] == line[|line| - 2..];
      r
  }

  /** Building the list for two runs of columns is building each in turn. */
  lemma DDLConcat(a: seq<ColumnInfo>, b: seq<ColumnInfo>)
    ensures BuildBusinessColumnsDDL(a + b) == BuildBusinessColumnsDDL(a) + BuildBusinessColumnsDDL(b)
  {
    JoinedConcat(a, b, ColumnLine);
  }

  /** Column k's line sits between the lines of the columns before it and
      the lines of the columns after it. */
  lemma ColumnLineInPlace(cols: seq<ColumnInfo>, k: nat)
    requires k < |cols|
    ensures BuildBusinessColumnsDDL(cols)
      == BuildBusinessColumnsDDL(cols[..k]) + ColumnLine(cols[k]) + BuildBusinessColumnsDDL(cols[k + 1..])
  {
    assert cols == cols[..k] + [cols[k]] + cols[k + 1..];
    JoinedConcat(cols[..k] + [cols[k]], cols[k + 1..], ColumnLine);
    JoinedConcat(cols[..k], [cols[k]], ColumnLine);
    JoinedOne(cols[k], ColumnLine);
  }

  /** Number of occurrences of a character. */
  function Count(s: string, c: char): (n: nat)
    ensures n <= |s|
    ensures n == 0 <==> c !in s
  {
    if s == [] then 0 else (if s[0] == c then 1 else 0) + Count(s[1..], c)
  }

  lemma {:induction false} CountConcat(a: string, b: string, c: char)
    ensures Count(a + b, c) == Count(a, c) + Count(b, c)
    decreases |a|
  {
    if a == [] {
      assert a + b == b;
    } else {
      assert (a + b)[1..] == a[1..] + b;
      CountConcat(a[1..], b, c);
    }
  }

  /** Text without line breaks, closed by `,\n`, holds exactly one. */
  lemma OneBreak(x: string)
    requires '\n' !in x
    ensures Count(x + ",\n", '\n') == 1
  {
    CountConcat(x, ",\n", '\n');
    LineEndCount();
  }

  lemma LineEndCount()
    ensures Count(",\n", '\n') == 1
  {
    assert ",\n"[1..] == "\n";
    assert "\n"[1..] == [];
  }

  /** A column whose name has no line break contributes exactly one line. */
  lemma ColumnLineIsOneLine(c: ColumnInfo)
    requires '\n' !in c.name
    ensures Count(ColumnLine(c), '\n') == 1
  {
    var t := MapToSnowflakeType(c);
    var u := NullToken(c.isNullable);
    var x := Indent + c.name + " " + t + " " + u;
    assert '\n' !in Indent && '\n' !in " " && '\n' !in u;
    assert '\n' !in x;
    OneBreak(x);
  }

  /** When no column name holds a line break, the list has one line per column. */
  lemma OneLinePerColumn(cols: seq<ColumnInfo>)
    requires forall k :: 0 <= k < |cols| ==> '\n' !in cols[k].name
    ensures Count(BuildBusinessColumnsDDL(cols), '\n') == |cols|
  {
    forall k | 0 <= k < |cols|
      ensures Count(ColumnLine(cols[k]), '\n') == 1
    {
      ColumnLineIsOneLine(cols[k]);
    }
    JoinedLineCount(cols, ColumnLine);
  }

  /** Joining lines that each hold one line break gives one break per line. */
  lemma {:induction false} JoinedLineCount(cols: seq<ColumnInfo>, line: ColumnInfo -> string)
    requires forall k :: 0 <= k < |cols| ==> Count(line(cols[k]), '\n') == 1
    ensures Count(Joined(cols, line), '\n') == |cols|
    decreases |cols|
  {
    if cols != [] {
      var init := cols[..|cols| - 1];
      JoinedLineCount(init, line);
      CountConcat(Joined(init, line), line(cols[|cols| - 1]), '\n');
    }
  }
}

=== FILE: strs.dfy ===
/** The parts of Go's `strings` and `fmt` packages the ingestion core relies
    on, over `string` (a sequence of code points): TrimSpace, ToUpper,
    ToLower, EqualFold, ReplaceAll of one character, and `%d` formatting of an
    integer together with a parser that inverts it. */
module Strs {
  import opened Results

  /** Go's `unicode.IsSpace`: the ASCII blanks, NEL, NBSP and the
      White_Space characters above Latin-1. */
  predicate IsSpace(c: char) {
    var n := c as int;
    || n == 0x20
    || 0x09 <= n <= 0x0D
    || n == 0x85
    || n == 0xA0
    || n == 0x1680
    || 0x2000 <= n <= 0x200A
    || n == 0x2028
    || n == 0x2029
    || n == 0x202F
    || n == 0x205F
    || n == 0x3000
  }

  /** Drops leading white space. */
  function TrimLeft(s: string): (r: string)
    ensures |r| <= |s| && r == s[|s| - |r|..]
    ensures r == [] || !IsSpace(r[0])
    ensures forall i :: 0 <= i < |s| - |r| ==> IsSpace(s[i])
  {
    if |s| > 0 && IsSpace(s[0]) then TrimLeft(s[1..]) else s
  }

  /** Drops trailing white space. */
  function TrimRight(s: string): (r: string)
    ensures |r| <= |s| && r == s[..|r|]
    ensures r == [] || !IsSpace(r[|r| - 1])
    ensures forall i :: |r| <= i < |s| ==> IsSpace(s[i])
  {
    if |s| > 0 && IsSpace(s[|s| - 1]) then TrimRight(s[..|s| - 1]) else s
  }

  /** `strings.TrimSpace`: a piece of `s` that neither starts nor ends with
      white space, and only white space around it is dropped. */
  function Trim(s: string): (r: string)
    ensures |r| <= |s|
    ensures r == [] || (!IsSpace(r[0]) && !IsSpace(r[|r| - 1]))
    ensures exists i :: SpaceAround(s, i, r)
  {
    TrimAround(s);
    TrimRight(TrimLeft(s))
  }

  lemma TrimAround(s: string)
    ensures SpaceAround(s, |s| - |TrimLeft(s)|, TrimRight(TrimLeft(s)))
  {
    var left := TrimLeft(s);
    AroundOfPieces(s, |s| - |left|, left, TrimRight(left));
  }

  /** White space before a suffix of `s` and after a prefix of that suffix
      is white space around the prefix. */
  lemma AroundOfPieces(s: string, i: nat, left: string, r: string)
    requires i <= |s| && left == s[i..] && |r| <= |left| && r == left[..|r|]
    requires forall k :: 0 <= k < i ==> IsSpace(s[k])
    requires forall k :: |r| <= k < |left| ==> IsSpace(left[k])
    ensures SpaceAround(s, i, r)
  {
    forall k | i + |r| <= k < |s|
      ensures IsSpace(s[k])
    {
      assert s[k] == left[k - i];
    }
  }

  /** `r` sits at offset `i` of `s`, with only white space before and after it. */
  predicate SpaceAround(s: string, i: nat, r: string) {
    && i + |r| <= |s| && r == s[i..i + |r|]
    && (forall k :: 0 <= k < i ==> IsSpace(s[k]))
    && (forall k :: i + |r| <= k < |s| ==> IsSpace(s[k]))
  }

  /** A blank string is made of white space only. */
  predicate IsBlank(s: string)
    decreases |s|
  {
    s == [] || (IsSpace(s[0]) && IsBlank(s[1..]))
  }

  /** Blank means every character is white space. */
  lemma {:induction false} BlankIffAllSpace(s: string)
    ensures IsBlank(s) <==> forall i :: 0 <= i < |s| ==> IsSpace(s[i])
    decreases |s|
  {
    if s != [] {
      BlankIffAllSpace(s[1..]);
      assert forall i :: 1 <= i < |s| ==> s[i] == s[1..][i - 1];
    }
  }

  /** A string that neither starts nor ends with white space is its own trim. */
  lemma TrimUnpadded(s: string)
    requires s == [] || (!IsSpace(s[0]) && !IsSpace(s[|s| - 1]))
    ensures Trim(s) == s
  {
  }

  /** Trimming twice is trimming once. */
  lemma TrimIdempotent(s: string)
    ensures Trim(Trim(s)) == Trim(s)
  {
    TrimUnpadded(Trim(s));
  }

  /** Blank is `strings.TrimSpace(s) == ""`: trimming leaves nothing exactly
      when every character is white space. */
  lemma BlankIffTrimsToEmpty(s: string)
    ensures IsBlank(s) <==> Trim(s) == []
  {
    BlankIffAllSpace(s);
    var t := TrimLeft(s);
    if t != [] {
      assert !IsSpace(t[0]);
      assert !IsSpace(s[|s| - |t|]);
    }
  }

  function UpperChar(c: char): char {
    if 'a' <= c <= 'z' then (c as int - 32) as char else c
  }

  function LowerChar(c: char): char {
    if 'A' <= c <= 'Z' then (c as int + 32) as char else c
  }

  /** `strings.ToUpper`, restricted to ASCII letters. */
  function ToUpper(s: string): (r: string)
    ensures |r| == |s|
    ensures forall i :: 0 <= i < |s| ==> r[i] == UpperChar(s[i])
  {
    seq(|s|, i requires 0 <= i < |s| => UpperChar(s[i]))
  }

  /** `strings.ToLower`, restricted to ASCII letters. */
  function ToLower(s: string): (r: string)
    ensures |r| == |s|
    ensures forall i :: 0 <= i < |s| ==> r[i] == LowerChar(s[i])
  {
    seq(|s|, i requires 0 <= i < |s| => LowerChar(s[i]))
  }

  /** `strings.EqualFold`, restricted to ASCII letters: the two strings agree
      position by position once letter case is ignored. */
  predicate EqualFold(a: string, b: string) {
    |a| == |b| && forall i :: 0 <= i < |a| ==> LowerChar(a[i]) == LowerChar(b[i])
  }

  /** Two strings are equal up to case exactly when their lower-case forms agree. */
  lemma EqualFoldIffSameLower(a: string, b: string)
    ensures EqualFold(a, b) <==> ToLower(a) == ToLower(b)
  {
    if ToLower(a) == ToLower(b) {
      assert forall i :: 0 <= i < |a| ==> LowerChar(a[i]) == ToLower(b)[i];
    }
  }

  /** Letters that agree up to case also agree once upper-cased. */
  lemma EqualFoldSameUpper(a: string, b: string)
    requires EqualFold(a, b)
    ensures ToUpper(a) == ToUpper(b)
  {
    forall i | 0 <= i < |a|
      ensures UpperChar(a[i]) == UpperChar(b[i])
    {
      assert LowerChar(a[i]) == LowerChar(b[i]);
    }
  }

  /** Case mapping leaves every non-letter where it was: a character that is
      no letter occurs in the lower-case form exactly when it occurs in the
      string. */
  lemma ToLowerKeepsNonLetter(s: string, c: char)
    requires !('A' <= c <= 'Z') && !('a' <= c <= 'z')
    ensures c in ToLower(s) <==> c in s
  {
    if c in ToLower(s) {
      var i :| 0 <= i < |s| && ToLower(s)[i] == c;
      assert s[i] == c;
    }
    if c in s {
      var i :| 0 <= i < |s| && s[i] == c;
      assert ToLower(s)[i] == c;
    }
  }

  /** `strings.ReplaceAll(s, from, to)` for single-character `from` and `to`. */
  function ReplaceChar(s: string, from: char, to: char): (r: string)
    ensures |r| == |s|
    ensures forall i :: 0 <= i < |s| ==> r[i] == (if s[i] == from then to else s[i])
  {
    seq(|s|, i requires 0 <= i < |s| => if s[i] == from then to else s[i])
  }

  /** Replacing a character that does not occur changes nothing. */
  lemma ReplaceCharAbsent(s: string, from: char, to: char)
    requires from !in s
    ensures ReplaceChar(s, from, to) == s
  {
  }

  /** Replacing a character commutes with concatenation. */
  lemma ReplaceCharConcat(a: string, b: string, from: char, to: char)
    ensures ReplaceChar(a + b, from, to) == ReplaceChar(a, from, to) + ReplaceChar(b, from, to)
  {
  }

  predicate IsDigit(c: char) {
    '0' <= c <= '9'
  }

  predicate AllDigits(s: string) {
    forall i :: 0 <= i < |s| ==> IsDigit(s[i])
  }

  function Digit(d: nat): char
    requires d < 10
  {
    ('0' as int + d) as char
  }

  function DigitValue(c: char): nat
    requires IsDigit(c)
  {
    c as int - '0' as int
  }

  /** Decimal digits of a natural number, most significant first. */
  function NatToDecimal(n: nat): (r: string)
    ensures |r| > 0 && AllDigits(r)
    decreases n
  {
    if n < 10 then [Digit(n)] else NatToDecimal(n / 10) + [Digit(n % 10)]
  }

  /** Value of a string of decimal digits. */
  function DecimalToNat(s: string): nat
    requires AllDigits(s)
    decreases |s|
  {
    if s == [] then 0 else 10 * DecimalToNat(s[..|s| - 1]) + DigitValue(s[|s| - 1])
  }

  lemma {:induction false} NatDecimalRoundTrip(n: nat)
    ensures DecimalToNat(NatToDecimal(n)) == n
    decreases n
  {
    if n >= 10 {
      NatDecimalRoundTrip(n / 10);
      var s := NatToDecimal(n / 10);
      assert (s + [Digit(n % 10)])[..|s|] == s;
    }
  }

  /** Go's `%d` verb applied to an integer. */
  function FormatInt(n: int): (r: string)
    ensures |r| > 0
    ensures forall i :: 0 <= i < |r| ==> IsDigit(r[i]) || (i == 0 && r[i] == '-')
  {
    if n < 0 then "-" + NatToDecimal(-n) else NatToDecimal(n)
  }

  /** Decimal digits as `%d` writes them: no leading zero unless the whole
      numeral is "0". */
  predicate IsNumeral(s: string) {
    |s| > 0 && AllDigits(s) && (s[0] != '0' || |s| == 1)
  }

  /** Reads back an integer in the spelling `%d` gives it: an optional
      minus sign (never on zero) followed by a numeral. */
  function ParseInt(s: string): Option<int> {
    if |s| > 1 && s[0] == '-' && IsNumeral(s[1..]) && s[1..] != "0" then Some(0 - DecimalToNat(s[1..]) as int)
    else if IsNumeral(s) then Some(DecimalToNat(s))
    else None
  }

  /** `%d` writes a numeral, which starts with a non-zero digit for a
      positive number. */
  lemma {:induction false} NatToDecimalIsNumeral(n: nat)
    ensures IsNumeral(NatToDecimal(n))
    ensures n > 0 ==> NatToDecimal(n)[0] != '0'
    decreases n
  {
    if n >= 10 {
      NatToDecimalIsNumeral(n / 10);
    }
  }

  /** A numeral that starts with a non-zero digit has a positive value. */
  lemma {:induction false} LeadingDigitPositive(s: string)
    requires |s| > 0 && AllDigits(s) && s[0] != '0'
    ensures DecimalToNat(s) > 0
    decreases |s|
  {
    if |s| > 1 {
      LeadingDigitPositive(s[..|s| - 1]);
    }
  }

  /** A numeral is exactly what `%d` writes for its value. */
  lemma {:induction false} NumeralRoundTrip(s: string)
    requires IsNumeral(s)
    ensures NatToDecimal(DecimalToNat(s)) == s
    decreases |s|
  {
    var d := DigitValue(s[|s| - 1]);
    if |s| > 1 {
      var init := s[..|s| - 1];
      LeadingDigitPositive(init);
      NumeralRoundTrip(init);
      var n := DecimalToNat(s);
      assert n == 10 * DecimalToNat(init) + d;
      assert n / 10 == DecimalToNat(init) && n % 10 == d;
      assert s == init + [s[|s| - 1]];
    }
  }

  /** `%d` formatting loses nothing: parsing its output gives the number back. */
  lemma FormatIntRoundTrip(n: int)
    ensures ParseInt(FormatInt(n)) == Some(n)
  {
    if n < 0 {
      var d := NatToDecimal(-n);
      NatDecimalRoundTrip(-n);
      NatToDecimalIsNumeral(-n);
      assert d != "0" by { assert d[0] != '0'; }
      assert ("-" + d)[1..] == d;
      assert ParseInt("-" + d) == Some(0 - DecimalToNat(d) as int);
    } else {
      NatDecimalRoundTrip(n);
      NatToDecimalIsNumeral(n);
      assert FormatInt(n)[0] != '-';
    }
  }

  /** And the parser accepts only that spelling: whatever it reads is what
      `%d` writes for the number read. */
  lemma ParseIntOnlyFormatted(s: string)
    ensures ParseInt(s).Some? ==> FormatInt(ParseInt(s).value) == s
  {
    if |s| > 1 && s[0] == '-' && IsNumeral(s[1..]) && s[1..] != "0" {
      NumeralRoundTrip(s[1..]);
      LeadingDigitPositive(s[1..]);
      assert s == "-" + s[1..];
    } else if IsNumeral(s) {
      NumeralRoundTrip(s);
    }
  }
}
